=== FILE: README.md ===
# Inventory front end: a Dafny model of its client-side logic

The system is an Angular front end for an inventory and order-management back office. It has:

- an order-creation wizard with a client-side cart;
- order list, details and edit pages;
- inventory, stock-movement and warehouse pages;
- category and supplier lists;
- a dashboard;
- JWT-based authentication with route guards and role directives.

The server does all persistence. This model covers the decisions the browser makes on its own:

- which rows a filter keeps, and which page of them is shown;
- what the statistics count;
- which actions and buttons are offered for a given status;
- when a form may be sent and what the request carries;
- how the session, the guards and the role-dependent views react to the stored token and user.

Every component becomes one Dafny module of pure functions, from the view state before an event to the view state after it:

- `OrderCreate`, `OrderActions` (the order-details page), `OrderList`, `OrderEdit`;
- `InventoryList`, `StockMovements`, `WarehouseList`, `WarehouseInventory`;
- `CategoryList`, `SupplierList`, `Dashboard`;
- `Auth`, `Guards`, `RoleDirectives`.

Shared modules:

- `Wrappers`: `Option`.
- `Seqs`: filter, count and sum over sequences, with the partition lemmas.
- `Text`: lower-casing of the ASCII and Latin-1 capitals, substring search, whitespace trimming with JavaScript's whitespace set, the e-mail pattern.
- `Paging`: page count, page slice, the five-button window and navigation.
- `StockLevels`: the out / low / normal bands, with the low threshold as a parameter.
- `Catalog`: the product record.

A few JavaScript behaviours are written out explicitly:

- Truthiness: an id of `0`, an empty string and an `exp` of `0` are all false.
- Type coercion: a `<select>` bound with `[value]` yields text, not a number.
- The range of `Date`.

Money is `real`.

## Model

| member | source | states |
|---|---|---|
| Text.FieldHitCaseInsensitive | src/app/features/orders/order-list/order-list.component.ts:820-826 | searching with a term and with its lower-cased form hits exactly the same fields |
| Text.FieldHitsItself | src/app/features/inventory/inventory-list/inventory-list.component.ts:885-890 | a field is always found by a search for its own text, in any case |
| Text.Trim | src/app/features/inventory/warehouse-list/warehouse-list.component.ts:1047-1049 | the trimmed text is an infix of the input with only whitespace cut on both sides; it is empty exactly when the input is all whitespace, and otherwise starts and ends with a non-space |
| Text.TrimIdempotent | src/app/features/inventory/warehouse-list/warehouse-list.component.ts:1059-1060 | trimming a trimmed value changes nothing, so the values sent on save are already in trimmed form |
| Text.EmailTestMatchesPattern | src/app/features/orders/order-create/order-create.component.ts:1115-1117 | the character-level e-mail check accepts exactly the strings of the language `[^\s@]+@[^\s@]+\.[^\s@]+` |
| Text.OptionalEmailAgrees | src/app/features/orders/order-edit/order-edit.component.ts:555-557 | the edit page's check rejects a missing or empty e-mail and otherwise agrees with the creation wizard's pattern |
| StockLevels.LevelOf | src/app/features/inventory/inventory-list/inventory-list.component.ts:897-903 | each quantity gets the out band iff it is 0, the low band iff it is in 1..threshold, and the normal band iff it is above; a negative quantity gets no band |
| StockLevels.BandsPartition | src/app/features/inventory/inventory-list/inventory-list.component.ts:897-903 | every non-negative quantity lies in exactly one band, and a negative one lies in none |
| StockLevels.ThresholdsDisagreeOnlyAtTen | src/app/features/inventory/warehouse-list/warehouse-list.component.ts:1003-1013 | the warehouse views (low = 1..9) and the inventory list (low = 1..10) classify every quantity alike except 10 |
| StockLevels.TotalQuantity | src/app/features/inventory/inventory-list/inventory-list.component.ts:929 | the summed quantity is non-negative when no row is negative |
| StockLevels.LevelCountsCoverRows | src/app/features/inventory/warehouse-list/warehouse-list.component.ts:1003-1013 | the out, low and normal counts plus the negative rows account for every row once; without negative rows the three counts sum to the row count |
| StockLevels.FilteredTotalAtMost | src/app/features/inventory/inventory-list/inventory-list.component.ts:929 | a filtered list of non-negative rows never totals more than the whole list |
| StockLevels.KeptPlusDroppedTotal | src/app/features/inventory/inventory-list/inventory-list.component.ts:929 | the rows a filter keeps and the rows it drops total exactly the whole list's quantity |
| Paging.TotalPages | src/app/features/orders/order-list/order-list.component.ts:840 | there is at least one page, exactly one for an empty list, and otherwise the fewest pages that hold all rows |
| Paging.PageSlice | src/app/features/inventory/inventory-list/inventory-list.component.ts:908-915 | a page holds exactly min(`pageSize`, rows after the start index) rows, none past the end, each being the row at start index plus its offset |
| Paging.RowOnItsPage | src/app/features/inventory/inventory-list/inventory-list.component.ts:908-915 | row `i` is shown on page `i / size + 1` at offset `i % size`, and that page exists |
| Paging.PageRangeInBounds | src/app/features/inventory/inventory-list/inventory-list.component.ts:909-910 | on an existing page, the "showing start to end of n" range lies inside the list and is non-empty when the list is |
| Paging.PagesCoverRows | src/app/features/inventory/inventory-list/inventory-list.component.ts:908-915 | laying pages 1..totalPages end to end gives back the whole list, in order |
| Paging.WindowPages | src/app/features/orders/order-list/order-list.component.ts:850-867 | the window shows min(total, 5) consecutive existing pages and always includes the current one |
| Paging.GoToPage | src/app/features/orders/order-list/order-list.component.ts:897-901 | a target is taken iff it is an existing page; otherwise the page stays |
| Paging.PreviousPage | src/app/features/categories/category-list/category-list.component.ts:693-697 | goes back one page, never below page 1 |
| Paging.NextPage | src/app/features/categories/category-list/category-list.component.ts:699-703 | goes forward one page, never past the last page |
| Paging.ClampAfterDelete | src/app/features/categories/category-list/category-list.component.ts:733-735 | a page past the new end moves to the last page (at least 1); any other page stays |
| Paging.NavigationKeepsPageValid | src/app/features/categories/category-list/category-list.component.ts:687-712 | after any sequence of clicks the page is at least 1, and it stays within the page count while the list does not change size |
| Paging.PlusPageSizeAsWritten | src/app/features/orders/order-list/order-list.component.ts:842-845 | `start + pageSize` adds when the size is a number, but appends the size's digits to `start` when it is option text |
| Paging.PageSliceAsWritten | src/app/features/orders/order-list/order-list.component.ts:842-845 | the slice as written: it starts at the right row and is empty past the end, but its length is not bounded by the page size |
| Paging.EndIndexAsWritten | src/app/features/orders/order-list/order-list.component.ts:847-848 | `endIndex` as written agrees with the intended one when the size is a number |
| Paging.TextPageSizeOverflowsPage | src/app/features/orders/order-list/order-list.component.ts:212-216 | once a size is picked in the select, every page after the first shows more rows than the page size whenever enough rows follow |
| Paging.SecondPageOfFiftyShowsThirty | src/app/features/orders/order-list/order-list.component.ts:842-848 | with 50 rows and "20" picked, page 2 shows 30 rows instead of 20, and the footer's end index reads 50 |
| Paging.PageSliceOf | src/app/features/categories/category-list/category-list.component.ts:634-638 | the corrected slice reads the size as a number: at most one page, the rows at start index plus offset, and `endIndex - startIndex` long |
| Paging.NumericSizeSlicesAgree | src/app/features/categories/category-list/category-list.component.ts:634-638 | before any size is picked (numeric size), the written slice and the corrected one coincide |
| OrderCreate.FindLine | src/app/features/orders/order-create/order-create.component.ts:1150 | finds the first cart line of the product, and none exactly when the product is not in the cart |
| OrderCreate.RequestedQuantity | src/app/features/orders/order-create/order-create.component.ts:1149 | an empty or zero quantity input asks for one unit; any other typed number is taken as is |
| OrderCreate.AddToCart | src/app/features/orders/order-create/order-create.component.ts:1148-1169 | a product not in the cart gets a new priced line at the catalogue price; otherwise only its line grows by the requested quantity at the price captured on the line; the input resets to 1 |
| OrderCreate.AddToCartKeepsInvariants | src/app/features/orders/order-create/order-create.component.ts:1148-1169 | adding keeps one line per product and every line priced, and the cart's products become the old ones plus the added one |
| OrderCreate.UpdateQuantity | src/app/features/orders/order-create/order-create.component.ts:1171-1180 | only the product's line changes: its quantity moves by delta but not below 1, and its total is repriced; the invariants are kept |
| OrderCreate.RemoveFromCart | src/app/features/orders/order-create/order-create.component.ts:1182-1184 | the product leaves the cart and every other line stays, in order |
| OrderCreate.RemoveFromCartShrinks | src/app/features/orders/order-create/order-create.component.ts:1182-1184 | removing a product that is in the cart makes the cart shorter |
| OrderCreate.TaxAmount | src/app/features/orders/order-create/order-create.component.ts:1103-1105 | the tax is one fifth of subtotal plus shipping minus discount, with no floor at zero |
| OrderCreate.GrandTotal | src/app/features/orders/order-create/order-create.component.ts:1107-1109 | the total is 1.2 times the taxable base, so a discount above subtotal plus shipping makes it negative |
| OrderCreate.AddToCartSubtotalMerged | src/app/features/orders/order-create/order-create.component.ts:1150-1156 | re-adding a product raises the subtotal by the requested quantity at the line's captured price |
| OrderCreate.AddToCartSubtotalAppended | src/app/features/orders/order-create/order-create.component.ts:1157-1166 | adding a new product raises the subtotal by the requested quantity at the catalogue price |
| OrderCreate.RemoveFromCartSubtotal | src/app/features/orders/order-create/order-create.component.ts:1182-1184 | removing a product lowers the subtotal by exactly its line's total |
| OrderCreate.FilteredProducts | src/app/features/orders/order-create/order-create.component.ts:1088-1097 | the picker lists exactly the ACTIVE products the search hits (all of them for an empty search), in catalogue order |
| OrderCreate.NextStep | src/app/features/orders/order-create/order-create.component.ts:1119-1142 | errors are shown iff the current step is incomplete, in which case the step stays; otherwise it advances, capped at 4 |
| OrderCreate.PreviousStep | src/app/features/orders/order-create/order-create.component.ts:1144-1146 | goes back one step, never before step 1, and keeps the error flag |
| OrderCreate.WizardStaysInSteps | src/app/features/orders/order-create/order-create.component.ts:1119-1146 | whatever is clicked, the wizard stays on steps 1..4 |
| OrderCreate.ReviewNeedsNonEmptyCart | src/app/features/orders/order-create/order-create.component.ts:1134-1138 | reaching the review step from an earlier step required a Next click while the cart was not empty |
| OrderCreate.BuildOrderRequest | src/app/features/orders/order-create/order-create.component.ts:1186-1203 | one item per cart line with its product, quantity and unit price; billing is copied from shipping when the addresses are the same; an empty phone or notes is sent as absent |
| OrderCreate.RequestCarriesSubtotal | src/app/features/orders/order-create/order-create.component.ts:1099-1101 | the subtotal recomputed from the request's items equals the displayed subtotal |
| OrderActions.IndexOf | src/app/features/orders/order-details/order-details.component.ts:846 | the position on the fulfilment path, or -1 exactly for a missing, CANCELLED or REFUNDED status |
| OrderActions.IsStepCompleted | src/app/features/orders/order-details/order-details.component.ts:869-873 | a timeline step is completed iff it lies on the path strictly before the current status |
| OrderActions.CompletedStepsArePrefix | src/app/features/orders/order-details/order-details.component.ts:869-873 | the completed steps are exactly the path prefix before the current status; the current step is never completed; a cancelled or refunded order completes none |
| OrderActions.StatusActions | src/app/features/orders/order-details/order-details.component.ts:880-903 | at most one status button: the next status on the path, REFUNDED after DELIVERED, none exactly for a missing, CANCELLED or REFUNDED status |
| OrderActions.StatusActionsMoveForward | src/app/features/orders/order-details/order-details.component.ts:880-903 | every offered status is later than the current one |
| OrderActions.WalkFollowsStatusOrder | src/app/features/orders/order-details/order-details.component.ts:880-903 | clicking only offered buttons from PENDING visits the fulfilment path in order |
| OrderActions.WalkFromPendingEnds | src/app/features/orders/order-details/order-details.component.ts:880-903 | such a walk has at most six statuses, and a six-status walk ends DELIVERED then REFUNDED |
| OrderActions.CanCancel | src/app/features/orders/order-details/order-details.component.ts:875-878 | cancel is offered exactly for the first three statuses on the path |
| OrderActions.PaymentActions | src/app/features/orders/order-details/order-details.component.ts:905-919 | a pending payment offers PAID and FAILED; a paid one offers a refund only for a delivered order; no other payment status offers anything |
| OrderActions.TerminalStatuses | src/app/features/orders/order-details/order-details.component.ts:88 | CANCELLED and REFUNDED offer no status change, no cancel and no status panel, and complete no timeline step |
| OrderActions.StatusPanelNeverEmpty | src/app/features/orders/order-details/order-details.component.ts:88-92 | for a loaded order the status panel is shown iff it holds exactly one button |
| OrderActions.EmptyPaymentPanel | src/app/features/orders/order-details/order-details.component.ts:105-109 | the payment panel can be shown with no button in it (failed payment, or paid but not delivered) |
| OrderActions.RefundGatesDiffer | src/app/features/orders/order-details/order-details.component.ts:897-917 | the REFUNDED status is offered for any delivered order, but the payment refund only when it is paid |
| OrderList.FilteredOrders | src/app/features/orders/order-list/order-list.component.ts:817-838 | the three chained filters equal one filter by the conjunction of the active criteria |
| OrderList.FilteredOrdersExact | src/app/features/orders/order-list/order-list.component.ts:817-838 | the listed orders are exactly the loaded orders passing every active criterion, in loaded order |
| OrderList.NoFiltersListAll | src/app/features/orders/order-list/order-list.component.ts:817-838 | with no search and no selection every loaded order is listed |
| OrderList.OrderPages | src/app/features/orders/order-list/order-list.component.ts:840 | one page when no order passes the filters; otherwise the least page count whose pages hold every filtered order (`(r-1)*size < n <= r*size`), so every filtered order falls on an existing page |
| OrderList.PaginatedOrders | src/app/features/orders/order-list/order-list.component.ts:842-845 | (corrected size reading) exactly min(size, orders after the start index) filtered orders, none past the end, each the filtered order at start index plus offset |
| OrderList.Apply | src/app/features/orders/order-list/order-list.component.ts:874-901 | search, filter and size changes go back to page 1; a page click lands on the target iff it exists, and otherwise changes nothing |
| OrderList.CurrentPageAlwaysExists | src/app/features/orders/order-list/order-list.component.ts:874-901 | while the loaded orders stay the same, the current page exists after any sequence of actions |
| OrderList.FilterChangeReload | src/app/features/orders/order-list/order-list.component.ts:878-885 | with a search nothing is reloaded; otherwise a status reloads that status and no status reloads everything |
| OrderList.RowCancelOffered | src/app/features/orders/order-list/order-list.component.ts:191 | the row cancel button appears for PENDING and CONFIRMED only |
| OrderList.RowCancelStricterThanDetails | src/app/features/orders/order-list/order-list.component.ts:191 | every order the list offers to cancel, the details page offers too; they differ exactly on PROCESSING |
| OrderList.ConfirmCancelTarget | src/app/features/orders/order-list/order-list.component.ts:913-925 | a cancel is sent iff an order is selected and has a truthy id, and it is sent for that id |
| OrderEdit.Prefill | src/app/features/orders/order-edit/order-edit.component.ts:535-544 | each form field takes the order's value, with a missing text becoming '' and a missing amount 0 |
| OrderEdit.EmptyOrderPrefillsEmptyForm | src/app/features/orders/order-edit/order-edit.component.ts:511-520 | an order with nothing filled in prefills the same form the page starts with |
| OrderEdit.OnSubmit | src/app/features/orders/order-edit/order-edit.component.ts:559-581 | errors are always shown; an update is sent iff the form is valid and the id is truthy, and it carries that id and the form; a valid form turns the spinner on |
| OrderEdit.InvalidFieldBlocksUpdate | src/app/features/orders/order-edit/order-edit.component.ts:562-564 | an empty name, a bad e-mail or an empty shipping address sends nothing |
| OrderEdit.UnknownIdLeavesSpinnerOn | src/app/features/orders/order-edit/order-edit.component.ts:566-569 | a valid form for an order with no (or a zero) id turns the spinner on and sends nothing |
| InventoryList.FilteredInventories | src/app/features/inventory/inventory-list/inventory-list.component.ts:879-906 | the chained search, warehouse and stock filters equal one filter by the conjunction of the active criteria |
| InventoryList.FilteredInventoriesExact | src/app/features/inventory/inventory-list/inventory-list.component.ts:879-906 | the shown rows are exactly the rows passing every active criterion, in order; under 'low' each has quantity 1..10 |
| InventoryList.InventoryStatsStep | src/app/features/inventory/inventory-list/inventory-list.component.ts:929-931 | no rows give zeros; one more row that passes the filters adds its quantity to the total, one to the low count iff its stock is in 1..10, and one to the out-of-stock count iff its stock is exactly 0; a filtered-out row changes nothing |
| InventoryList.InventoryStats | src/app/features/inventory/inventory-list/inventory-list.component.ts:929-931 | the total is the summed quantity of the shown rows, and with the hidden rows' total it makes the unfiltered total; low plus out never exceed the shown rows; the low count is 0 iff no shown row is low |
| InventoryList.InventoryPage | src/app/features/inventory/inventory-list/inventory-list.component.ts:908-915 | exactly min(size, rows after the start index) filtered rows, none past the end, each the filtered row at start index plus offset |
| InventoryList.NarrowedFilterCanShowEmptyPage | src/app/features/inventory/inventory-list/inventory-list.component.ts:943-953 | as filter changes keep the page, a filter leaving 5 rows shown while on page 3 gives an empty table |
| InventoryList.VisibleAlerts | src/app/features/inventory/inventory-list/inventory-list.component.ts:54 | the strip shows the first min(5, n) alerts, in order |
| InventoryList.SeverityClass | src/app/features/inventory/inventory-list/inventory-list.component.ts:939-941 | the class is 'critical' exactly for CRITICAL alerts and empty otherwise |
| InventoryList.QuickAdjust | src/app/features/inventory/inventory-list/inventory-list.component.ts:955-959 | an adjustment is sent iff the row's id is truthy, and it carries that id and the numeric delta |
| InventoryList.QuickButtonsKeepStockNonNegative | src/app/features/inventory/inventory-list/inventory-list.component.ts:170-175 | on a row with non-negative stock, an enabled -1 button cannot take it below zero |
| InventoryList.ConfirmAdjust | src/app/features/inventory/inventory-list/inventory-list.component.ts:973-980 | a delta is sent iff a row with a truthy id is selected and the delta is not the number 0 (a `null` delta passes), and it is sent for that row, exactly as it stands in the input |
| InventoryList.EnabledConfirmIsSafe | src/app/features/inventory/inventory-list/inventory-list.component.ts:248-256 | a click on the enabled Confirm button sends either a non-zero number whose previewed stock is not negative, or a `null` delta on a row of non-negative stock |
| InventoryList.ClearedInputSendsNull | src/app/features/inventory/inventory-list/inventory-list.component.ts:248-256 | clearing the number input of the open modal leaves Confirm enabled, and a click sends the row's id with a `null` delta |
| InventoryList.ModalStep | src/app/features/inventory/inventory-list/inventory-list.component.ts:247-249 | opening selects the row with a zero delta; closing or confirming resets the modal; while open, -/+ move the delta by one with `null` counting as 0 and the input sets it, possibly to `null`; a closed modal ignores them |
| InventoryList.ModalStaysConsistent | src/app/features/inventory/inventory-list/inventory-list.component.ts:961-980 | the modal is open iff a row is selected, and a closed modal holds a zero delta, after any events |
| StockMovements.ParseType | src/app/features/inventory/stock-movement-list/stock-movement-list.component.ts:790-797 | a recognised type name parses to the type of that name |
| StockMovements.TypeNamesRoundTrip | src/app/features/inventory/stock-movement-list/stock-movement-list.component.ts:790-806 | every type's name parses back to it, and a text parses exactly when it is some type's name |
| StockMovements.InMovementsByType | src/app/features/inventory/stock-movement-list/stock-movement-list.component.ts:786-788 | IN, PURCHASE, RETURN and TRANSFER_IN are incoming, and no other type is |
| StockMovements.SignOf | src/app/features/inventory/stock-movement-list/stock-movement-list.component.ts:133-134 | the quantity shows '+' iff the type is incoming, and '-' otherwise |
| StockMovements.AdjustmentShowsMinus | src/app/features/inventory/stock-movement-list/stock-movement-list.component.ts:133-134 | an ADJUSTMENT is always shown with '-', whatever its direction |
| StockMovements.TypeClass | src/app/features/inventory/stock-movement-list/stock-movement-list.component.ts:790-797 | an unknown type gets no class and a known one a non-empty class; 'transfer' is shared exactly by the two transfers |
| StockMovements.TypeLabel | src/app/features/inventory/stock-movement-list/stock-movement-list.component.ts:799-806 | an unknown type is shown as its own text, and a known one gets a non-empty label |
| StockMovements.LabelsDistinguishTypes | src/app/features/inventory/stock-movement-list/stock-movement-list.component.ts:790-806 | the labels tell all nine types apart; the classes tell apart all but the two transfers |
| StockMovements.FilteredMovements | src/app/features/inventory/stock-movement-list/stock-movement-list.component.ts:728-739 | an empty search lists every movement; otherwise exactly those whose code, name or reference contains the term, in order |
| StockMovements.InOutStep | src/app/features/inventory/stock-movement-list/stock-movement-list.component.ts:761-762 | no movements count nothing; one more movement the search shows adds one to the in count iff its type is incoming and to the out count otherwise; a hidden one adds nothing |
| StockMovements.InOutCounts | src/app/features/inventory/stock-movement-list/stock-movement-list.component.ts:761-762 | in plus out counts every filtered movement once, and out is 0 iff every filtered movement is incoming |
| StockMovements.MovementPage | src/app/features/inventory/stock-movement-list/stock-movement-list.component.ts:741-748 | exactly min(size, movements after the start index) filtered movements, none past the end, each the filtered movement at start index plus offset |
| StockMovements.TypeChangeReload | src/app/features/inventory/stock-movement-list/stock-movement-list.component.ts:770-776 | the empty choice reloads everything, and any other choice reloads that type |
| StockMovements.WarehouseChangeReload | src/app/features/inventory/stock-movement-list/stock-movement-list.component.ts:778-784 | the empty choice reloads everything, and a warehouse's option text reloads that warehouse's id |
| StockMovements.FormOffersNoTransfers | src/app/features/inventory/stock-movement-list/stock-movement-list.component.ts:185-194 | the form offers every type except the two transfers, and its only non-type choice is the empty placeholder |
| StockMovements.PlaceholderReselectionPasses | src/app/features/inventory/stock-movement-list/stock-movement-list.component.ts:820-822 | as written, re-selecting the "0" product placeholder passes the form check |
| StockMovements.PlaceholderReadsAsZero | src/app/features/inventory/stock-movement-list/stock-movement-list.component.ts:197-215 | the placeholder, as the text "0" or the number 0, reads as id 0 |
| StockMovements.RealIdsAgree | src/app/features/inventory/stock-movement-list/stock-movement-list.component.ts:197-215 | with the option texts of two real ids, the corrected and the written check decide alike |
| StockMovements.PlaceholderNeverValid | src/app/features/inventory/stock-movement-list/stock-movement-list.component.ts:197-215 | the corrected check rejects the placeholder, whether it is the number 0 or the text "0", and otherwise agrees with the written one on real ids |
| StockMovements.DefaultFormInvalid | src/app/features/inventory/stock-movement-list/stock-movement-list.component.ts:719-726 | the initial form passes neither the written nor the corrected check, since it has no type |
| StockMovements.CloseModal | src/app/features/inventory/stock-movement-list/stock-movement-list.component.ts:824-828 | closing hides the modal and restores a form that cannot be sent |
| StockMovements.CreateMovement | src/app/features/inventory/stock-movement-list/stock-movement-list.component.ts:830-831 | the form is sent iff it passes the corrected check, so every sent quantity is positive |
| WarehouseList.OpenCreateModal | src/app/features/inventory/warehouse-list/warehouse-list.component.ts:1026-1031 | the create modal opens with no warehouse being edited and a form that cannot be saved yet |
| WarehouseList.OpenEditModal | src/app/features/inventory/warehouse-list/warehouse-list.component.ts:1033-1038 | the edit modal opens on the warehouse, with its own name and location |
| WarehouseList.CloseModal | src/app/features/inventory/warehouse-list/warehouse-list.component.ts:1040-1045 | closing forgets the edit and leaves a form that cannot be saved |
| WarehouseList.SaveWarehouse | src/app/features/inventory/warehouse-list/warehouse-list.component.ts:1051-1088 | a request is sent iff both fields hold a non-space character; the name and location sent are the form's trimmed name and location, so non-empty and free of edge whitespace; it is an update of the edited warehouse's id iff one is being edited |
| WarehouseList.EditWithoutChangesSendsSameValues | src/app/features/inventory/warehouse-list/warehouse-list.component.ts:1033-1088 | saving an untouched edit form sends the warehouse's own values back whenever they carry no surrounding whitespace |
| WarehouseList.DeleteRequest | src/app/features/inventory/warehouse-list/warehouse-list.component.ts:1090-1096 | a delete is sent iff the id is truthy and the user confirms, and it is sent for that id |
| WarehouseList.Stats | src/app/features/inventory/warehouse-list/warehouse-list.component.ts:999-1013 | the total is the summed quantity of all rows; without negative rows it is what the low and in-stock rows hold and the three counters sum to the row count; the out counter is 0 iff no row is at zero |
| WarehouseList.StockSitsInLowAndInStockRows | src/app/features/inventory/warehouse-list/warehouse-list.component.ts:999-1013 | out-of-stock rows hold nothing, so without negative rows the total splits into the low rows' and the in-stock rows' totals |
| WarehouseList.BadgeOf | src/app/features/inventory/warehouse-list/warehouse-list.component.ts:294-300 | the badge is "Rupture" iff the quantity is 0 and "En stock" iff it is 10 or more |
| WarehouseList.BadgeMatchesCounters | src/app/features/inventory/warehouse-list/warehouse-list.component.ts:294-300 | for a non-negative quantity the badge names the counter that counts the row; a negative one is badged "Stock faible" but counted nowhere |
| WarehouseList.AvailableProducts | src/app/features/inventory/warehouse-list/warehouse-list.component.ts:1016-1019 | the choices are exactly the catalogue products the warehouse does not hold, in catalogue order |
| WarehouseList.StockingRemovesChoice | src/app/features/inventory/warehouse-list/warehouse-list.component.ts:1016-1019 | once the warehouse holds a new product, that product leaves the choices and nothing joins them |
| WarehouseList.ResetFormIsInvalid | src/app/features/inventory/warehouse-list/warehouse-list.component.ts:1127-1135 | the reset add-product form cannot be sent |
| WarehouseList.AddProductRequest | src/app/features/inventory/warehouse-list/warehouse-list.component.ts:1137-1148 | a creation is sent iff the form has a truthy product and a positive quantity and a warehouse is selected; it carries those values |
| WarehouseList.OpenInventoryModal | src/app/features/inventory/warehouse-list/warehouse-list.component.ts:1099-1104 | opening selects the warehouse and resets the form, so nothing can be sent until a product is picked |
| WarehouseList.CloseInventoryModal | src/app/features/inventory/warehouse-list/warehouse-list.component.ts:1106-1111 | closing deselects and empties the rows, after which no form can be sent |
| WarehouseInventory.FilteredInventories | src/app/features/inventory/warehouse-inventory/warehouse-inventory.component.ts:681-707 | the search followed by the stock switch equals one filter by both criteria |
| WarehouseInventory.FilteredInventoriesExact | src/app/features/inventory/warehouse-inventory/warehouse-inventory.component.ts:681-707 | the listed rows are exactly the rows passing the search and the select, in order; no search with 'all' lists every row |
| WarehouseInventory.SelectMatchesCounter | src/app/features/inventory/warehouse-inventory/warehouse-inventory.component.ts:694-723 | with no search, the 'low', 'out' and 'available' choices list exactly as many rows as the matching counters show |
| WarehouseInventory.ClearFilters | src/app/features/inventory/warehouse-inventory/warehouse-inventory.component.ts:764-767 | after clearing, every row of the warehouse is listed |
| WarehouseInventory.EmptyStateShown | src/app/features/inventory/warehouse-inventory/warehouse-inventory.component.ts:82-97 | an empty state appears iff nothing is listed, and "empty warehouse" only for a warehouse with no rows |
| WarehouseInventory.RouteWarehouse | src/app/features/inventory/warehouse-inventory/warehouse-inventory.component.ts:725-733 | only a truthy route id is loaded, and it is loaded as given |
| CategoryList.CategoryPage | src/app/features/categories/category-list/category-list.component.ts:634-638 | (corrected size reading) exactly min(size, categories after the start index) categories, none past the end, each the category at start index plus offset |
| CategoryList.EllipsisPages | src/app/features/categories/category-list/category-list.component.ts:640-671 | up to 7 pages every page is shown; beyond that at most 7 items from page 1 to the last, with an ellipsis exactly for each skipped run, and always the current page |
| CategoryList.PageBarNumbersIncrease | src/app/features/categories/category-list/category-list.component.ts:640-671 | the buttons show existing pages only, each once, in increasing order |
| CategoryList.ConfirmDelete | src/app/features/categories/category-list/category-list.component.ts:714-717 | the modal opens on the clicked category, and confirming will send a delete iff its id is truthy |
| CategoryList.CancelDelete | src/app/features/categories/category-list/category-list.component.ts:719-722 | cancelling closes the modal, after which no delete can be sent |
| CategoryList.DeleteRequest | src/app/features/categories/category-list/category-list.component.ts:724-725 | a delete is sent iff the target has a truthy id, and it is sent for that id |
| CategoryList.AfterDeleteAsWritten | src/app/features/categories/category-list/category-list.component.ts:729-735 | as written: the modal closes and the page is clamped against the count before the reload, so a page that existed before the delete is always kept |
| CategoryList.DeleteCanLeaveEmptyPage | src/app/api-facade/categories/categoryFacade.ts:73-76 | with 7 categories, size 6, on page 2, deleting the last one keeps page 2 while the reloaded list has 1 page, so the grid is empty |
| CategoryList.AfterDelete | src/app/features/categories/category-list/category-list.component.ts:729-735 | (corrected: clamped against what remains) a successful delete closes the modal; the page is kept if it still exists, and a page past the new end moves to the last page of what remains |
| CategoryList.DeleteKeepsPageValid | src/app/features/categories/category-list/category-list.component.ts:724-735 | with the corrected clamp, deleting one category while on an existing page leaves an existing page, which shows categories whenever any remain |
| SupplierList.StatusClass | src/app/features/suppliers/supplier-list/supplier-list.component.ts:626-635 | the class is 'inactive' exactly for INACTIVE and for a missing status |
| SupplierList.StatusLabel | src/app/features/suppliers/supplier-list/supplier-list.component.ts:637-646 | the label is 'Inconnu' exactly for a missing status |
| SupplierList.BadgeDistinguishesStatuses | src/app/features/suppliers/supplier-list/supplier-list.component.ts:626-646 | labels tell every status apart, a missing one included; classes confuse only INACTIVE with a missing status |
| SupplierList.RowActions | src/app/features/suppliers/supplier-list/supplier-list.component.ts:106-127 | delete is always last; activate appears iff the status is INACTIVE or SUSPENDED; suspend and deactivate appear iff it is ACTIVE |
| SupplierList.ActionsChangeStatus | src/app/features/suppliers/supplier-list/supplier-list.component.ts:106-127 | no row offers to set the status it already has |
| SupplierList.ActionRequest | src/app/features/suppliers/supplier-list/supplier-list.component.ts:648-670 | an action is sent iff the supplier's id is truthy and the user confirms, and it is sent for that id |
| SupplierList.StatusCountersStep | src/app/features/suppliers/supplier-list/supplier-list.component.ts:618-620 | no suppliers count nothing; one more supplier adds one to the counter whose status equals its own and nothing to the others |
| SupplierList.StatusCounters | src/app/features/suppliers/supplier-list/supplier-list.component.ts:618-620 | the three counters never exceed the supplier count, and reach it exactly when every status is ACTIVE, INACTIVE or SUSPENDED |
| SupplierList.SupplierPage | src/app/features/suppliers/supplier-list/supplier-list.component.ts:586-596 | exactly min(size, suppliers after the start index) suppliers, none past the end, each the supplier at start index plus offset |
| SupplierList.PagerStep | src/app/features/suppliers/supplier-list/supplier-list.component.ts:672-682 | the page stays valid; a page button lands on its target iff the target exists; a size change keeps the size positive |
| SupplierList.WindowButtonsAreValid | src/app/features/suppliers/supplier-list/supplier-list.component.ts:598-615 | every window button leads to the page it shows, and the current page has a button |
| Auth.HasRole | src/app/core/auth/auth.service.ts:62-68 | true iff there is a user with a roles list containing the role |
| Auth.HasAnyRole | src/app/core/auth/auth.service.ts:70-72 | true iff some listed role is held |
| Auth.IsAdmin | src/app/core/auth/auth.service.ts:74-76 | being admin is holding any of the one-element list [ROLE_ADMIN] |
| Auth.RoleEdgeCases | src/app/core/auth/auth.service.ts:62-72 | an empty role list admits nobody, and no role admits a missing user |
| Auth.HasAnyRoleMonotone | src/app/core/auth/auth.service.ts:70-72 | adding roles to the list, before or after, never turns away an admitted user |
| Auth.LoginErrorMessage | src/app/core/auth/auth.service.ts:92-104 | 401 and 0 get fixed messages whatever the server says; otherwise a non-empty server message, and otherwise the default; never empty |
| Auth.HasValidToken | src/app/core/auth/auth.service.ts:118-135 | no or an empty token is invalid; a truthy `exp` makes it valid iff that instant lies ahead (inside the `Date` range); anything else counts as valid |
| Auth.ValidityIsMonotone | src/app/core/auth/auth.service.ts:127-130 | a token valid at some instant was valid at every earlier one |
| Auth.ExpiryBoundary | src/app/core/auth/auth.service.ts:127-130 | a token expiring at second e is valid through millisecond e*1000-1 and invalid from e*1000 on |
| Auth.ZeroExpNeverExpires | src/app/core/auth/auth.service.ts:127-131 | an `exp` of 0 is read as no claim, so the token never expires |
| Auth.IsLoggedIn | src/app/core/auth/auth.service.ts:50-52 | being logged in requires a stored token |
| Auth.LoginSuccess | src/app/core/auth/auth.service.ts:78-90 | the session becomes authenticated with the response's token, and the user holds exactly the response's roles |
| Auth.Logout | src/app/core/auth/auth.service.ts:42-48 | afterwards nobody is logged in at any time, and no role is held |
| Auth.StartUp | src/app/core/auth/auth.service.ts:23-31 | a stored token whose claim has expired is dropped at once with the user and the flag; any other stored session is kept as stored, authenticated iff its token is valid, so a valid one is authenticated once the constructor returns (the logout timer it schedules is left out) |
| Auth.ExpiredClaimIsInvalidToken | src/app/core/auth/auth.service.ts:153-162 | start-up logs out exactly for the invalid tokens whose truthy `exp` names a valid date; a claim beyond the date range leaves an invalid token in place |
| Auth.ExpiredTokenDroppedAtStartUp | src/app/core/auth/auth.service.ts:153-162 | a stored token that expired at second `e` is gone after start-up, with its user, at every instant from `e * 1000` ms on |
| Auth.RolesIgnoreToken | src/app/core/auth/auth.service.ts:106-116 | a stored admin user next to a missing token still counts as admin, although nobody is logged in |
| Guards.JoinPath | src/app/core/guards/auth.guard.ts:11 | no segment joins to '' and one segment to itself |
| Guards.JoinPathLength | src/app/core/guards/auth.guard.ts:11 | the return URL is the segments' total length plus one slash between each neighbouring pair |
| Guards.SplitJoinPath | src/app/core/guards/auth.guard.ts:11 | splitting the return URL at its slashes gives back exactly the route's segments, which never contain '/' |
| Guards.AuthGuard | src/app/core/guards/auth.guard.ts:5-30 | logged out goes to login with the path as return URL; logged in passes unless roles are required and none is held, in which case it goes to the dashboard |
| Guards.AdminGuard | src/app/core/guards/auth.guard.ts:33-50 | passes iff logged in and admin; logged out goes to login, and a logged-in non-admin to the dashboard |
| Guards.NoAuthGuard | src/app/core/guards/auth.guard.ts:53-63 | the login page is open iff nobody is logged in; others go to the dashboard |
| Guards.GuardsAgree | src/app/core/guards/auth.guard.ts:5-63 | no session passes both the login guard and a protected-page guard, and the admin guard equals the auth guard requiring [ROLE_ADMIN] |
| RoleDirectives.UpdateView | src/app/shared/directives/has-role.directive.ts:42-52 | the flag takes the answer; a view is created or cleared only on a change, one at a time; views stay consistent with the flag |
| RoleDirectives.UpdateViewIdempotent | src/app/shared/directives/has-role.directive.ts:78-88 | a repeated update with the same answer changes nothing |
| RoleDirectives.AtMostOneView | src/app/shared/directives/has-role.directive.ts:114-124 | after any notifications at most one view exists, and the content shows iff the last answer said so |
| RoleDirectives.NormalizeRoles | src/app/shared/directives/has-role.directive.ts:26-30 | a single role becomes the one-element list, and a list is kept |
| RoleDirectives.OneRoleIsOneElementList | src/app/shared/directives/has-role.directive.ts:26-30 | a single role and the one-element list holding it admit the same users, namely those holding it |
| RoleDirectives.HasRoleStep | src/app/shared/directives/has-role.directive.ts:26-36 | a new input replaces the roles with its normalised list and keeps the user; a user notification keeps the roles and takes the new user; after either, the content is shown iff that user holds one of those roles |
| RoleDirectives.HiddenBeforeInput | src/app/shared/directives/has-role.directive.ts:22 | before any input the content stays hidden for every user |
| RoleDirectives.InitView | src/app/shared/directives/has-role.directive.ts:67-72 | the two updates at initialisation create at most one view and clear none |
| RoleDirectives.AdminView | src/app/shared/directives/has-role.directive.ts:59-88 | `*appIsAdmin` shows its content iff the user is admin, with exactly one view then |
| RoleDirectives.AuthenticatedView | src/app/shared/directives/has-role.directive.ts:95-124 | `*appIsAuthenticated` shows its content iff the session is logged in, with exactly one view then |
| Dashboard.StatsStep | src/app/features/dashboard/dashboard.component.ts:367-370 | no products count nothing; one more product adds one to the total and one to the ACTIVE, INACTIVE or OUT_OF_STOCK card exactly when its status equals that card's |
| Dashboard.Stats | src/app/features/dashboard/dashboard.component.ts:367-370 | the total counts every product; the three status cards sum to at most the total, and reach it exactly when no product is DISCONTINUED |
| Dashboard.RecentProducts | src/app/features/dashboard/dashboard.component.ts:371 | the first min(5, n) products, in loaded order |
| Dashboard.StatsGridView | src/app/features/dashboard/dashboard.component.ts:18 | the stat cards are shown, in at most one view, exactly to users holding ROLE_ADMIN |

## Left out

- The API facades, HTTP calls and their success and error callbacks. A call is modelled as the request value sent, and the reply as a parameter; loading spinners, error banners and the 3-second success message timer are left out.
- `localStorage`, `JSON.parse` of the stored user, and the Base64/JSON decoding of the JWT payload. The decoder's answer is the parameter `Auth.Decoded`, and the stored token and user are the parameters of `Auth.StartUp`.
- The clock. The current time in milliseconds is a parameter.
- The `setTimeout` of auth.service.ts:163-166 that logs the user out, and the timers behind it. The auth interceptor is not part of this model (it only forwards the token and calls `logout` on 401).
- Auth.StartUp: states only the state the constructor leaves synchronously. For a token that has not expired, the service calls `setTimeout(logout, expiry - now)` (auth.service.ts:163-166). Browsers run a delay of 2^31 ms or more (about 24.8 days) at once, and a delay that is NaN (an `exp` beyond the Date range) also runs at once. So a valid token expiring more than about 24.8 days ahead, or out of range, is logged out right after start-up, and "a valid token stays authenticated" holds only until that first timer turn. A nearer expiry logs out when it is reached. Timers are not modelled.
- Angular reactivity. Signals and `computed` memoisation are left out: every derived value is recomputed from the current state. In the component, a `computed()` recomputes only when a signal it reads changes, so a plain (non-signal) field read inside one leaves the shown value stale until some signal it reads changes. The fields concerned, and what the browser shows:
  - warehouse-inventory.component.ts:678-679 `searchTerm` and `stockFilter`, read by `filteredInventories` (:681-707), which depends only on `inventories()`. Typing in the search box, picking a stock option or pressing "clear" (`clearFilters`, :764-767) leaves the list as it was until the inventories reload. WarehouseInventory.FilteredInventories, WarehouseInventory.ClearFilters and WarehouseInventory.SelectMatchesCounter describe the list the current fields select, not this stale one.
  - order-list.component.ts:804-806 `searchTerm`, `statusFilter` and `paymentFilter`, read by `filteredOrders` (:817-836). A change shows only once `orders()` is reloaded; the status and payment selects trigger a reload in some branches of `onFilterChange` (:878-885), the search box does not. OrderList.FilteredOrders describes the current fields.
  - stock-movement-list.component.ts:705 `searchTerm`, read by `filteredMovements` (:728-739). Typing changes nothing until the movements reload. StockMovements.FilteredMovements describes the current term.
  - order-create.component.ts:1077 `productSearch`, read by `filteredProducts` (:1088-1097). The product grid does not follow the search box until the products reload. OrderCreate.FilteredProducts describes the current term.
  - order-create.component.ts:1082-1083 `shippingCost` and `discountAmount`, read by `taxAmount` and `grandTotal` (:1103-1109). The review step shows a tax and a total computed from older values until the cart changes; the request itself (:1202-1203) reads the fields and is current. OrderCreate.TaxAmount and OrderCreate.GrandTotal are the values for the current fields.
  - the list components' plain `pageSize` fields (for example category-list.component.ts:624, read by `totalPages` and the slice at :628-636): a new size shows once a page change or a reload recomputes the memo.
- `confirm()` and `alert()` dialogs. The user's answer is a boolean parameter.
- Floating point and number formatting. Money is `real`, with no rounding; the `|| 0` on a `NaN` amount is not modelled.
- OrderCreate.RequestedQuantity: quantities are `int`, but the number inputs (order-create.component.ts:165, stock-movement-list.component.ts:219, inventory-list.component.ts:248, warehouse-list.component.ts:190) accept fractions such as 0.5, which the component treats as truthy and positive; the same holds for StockMovements.CreateMovement, InventoryList.ConfirmAdjust and WarehouseList.AddProductRequest, and no fractional quantity is modelled.
- Text.FieldHitCaseInsensitive: case folding covers the ASCII and Latin-1 capitals only. JavaScript's `toLowerCase()` folds every Unicode capital ('Œ', 'Ÿ', Greek, Cyrillic), so a search with such letters finds fewer fields in the model than in the browser.
- Catalog.Product: the product status is always present. A product without a status would be counted on no dashboard card.
- Templates and CSS beyond the conditions that decide which buttons, panels, badges and empty states appear.
- The order list's date-range reload (`onDateChange`), which only calls the server.
- The product list and product form, the category and supplier forms, the supplier-products dialog, the login component, the layout, and the route table. They are outside the modelled core.
- The route `id` parsing (`Number(...)`, `+params['id']`). It arrives already parsed as an optional number.

## Findings

| source | as written | input that shows it | evidently intended | confidence | as-written member | corrected member |
|---|---|---|---|---|---|---|
| src/app/features/orders/order-list/order-list.component.ts:842-848 | The page-size `<select>` binds its options with `[value]`, so after a pick `pageSize` holds text. `start + this.pageSize` then concatenates instead of adding. The same pattern is in category-list.component.ts:96-99 and :632-638. | 50 rows, "20" picked, page 2: the slice end is "2020", so 30 rows are shown and the footer reads "21-50" | the slice end is `start + 20`, so 20 rows are shown | medium, not executed | Paging.PageSliceAsWritten | Paging.PageSliceOf |
| src/app/features/categories/category-list/category-list.component.ts:729-735 | After a delete the page is clamped when `currentPage() > totalPages()`. The facade's `tap(() => this.loadCategories())` (categoryFacade.ts:73-76) only starts the reload, so `totalPages()` still counts the deleted category and the clamp never fires from an existing page. | 7 categories, size 6, on page 2, delete the 7th: the page stays 2 while the reloaded list has 1 page, and the grid is empty | the page moves to the last page of what remains | medium, not executed | CategoryList.AfterDeleteAsWritten | CategoryList.AfterDelete |
| src/app/features/inventory/stock-movement-list/stock-movement-list.component.ts:820-822 | The product and warehouse placeholders are `<option [value]="0">` (template lines 197-215). Re-selecting one stores the text "0", which is truthy, so `isFormValid` accepts it. | pick a product, then "Selectionnez..." again, with type IN, a warehouse and quantity 5: the form is valid and would send product "0" | the placeholder never satisfies the form check | medium, not executed | StockMovements.IsFormValidAsWritten | StockMovements.IsFormValid |

=== FILE: auth.dfy ===
/** The authentication service's decisions: role predicates on the current
    user, the login error message, token validity from the JWT `exp` claim,
    and the session changes of login, logout and start-up. Storage, HTTP and
    the Base64/JSON decoding are outside the model: the stored values are
    fields of the session and the decoder's answer is a parameter. */
module Auth {
  import opened Wrappers

  /** `User`, as it comes back from storage: the roles list may be missing. */
  datatype User = User(username: string, roles: Option<seq<string>>, token: string)

  /** What the service holds: the stored token, the current user and the authenticated flag. */
  datatype Session = Session(token: Option<string>, user: Option<User>, authenticated: bool)

  const AdminRole := "ROLE_ADMIN"

  // ---------------------------------------------------------------- roles

  /** `hasRole`: false without a user or without a roles list, else membership. */
  function HasRole(user: Option<User>, role: string): (r: bool)
    ensures r <==> user.Some? && user.value.roles.Some? && role in user.value.roles.value
  {
    match user
    case None => false
    case Some(u) => u.roles.Some? && role in u.roles.value
  }

  /** `hasAnyRole`: some listed role is held. */
  function HasAnyRole(user: Option<User>, roles: seq<string>): (r: bool)
    ensures r <==> exists k :: 0 <= k < |roles| && HasRole(user, roles[k])
  {
    if |roles| == 0 then false
    else
      assert forall k :: 1 <= k < |roles| ==> roles[k] == roles[1..][k - 1];
      HasRole(user, roles[0]) || HasAnyRole(user, roles[1..])
  }

  /** `isAdmin`: the admin role is held. */
  function IsAdmin(user: Option<User>): (r: bool)
    ensures r <==> HasAnyRole(user, [AdminRole])
  {
    HasRole(user, AdminRole)
  }

  /** An empty role list admits nobody, and no role admits a missing user. */
  lemma RoleEdgeCases(user: Option<User>, roles: seq<string>)
    ensures !HasAnyRole(user, [])
    ensures user.None? ==> !HasAnyRole(None, roles) && !IsAdmin(None)
  {
  }

  /** Adding roles to the required list can only admit more users. */
  lemma {:induction false} HasAnyRoleMonotone(user: Option<User>, a: seq<string>, b: seq<string>)
    ensures HasAnyRole(user, a) ==> HasAnyRole(user, a + b) && HasAnyRole(user, b + a)
  {
    if HasAnyRole(user, a) {
      var k :| 0 <= k < |a| && HasRole(user, a[k]);
      assert (a + b)[k] == a[k];
      assert (b + a)[|b| + k] == a[k];
    }
  }

  // ---------------------------------------------------------------- login error

  /** What a failed login reports: the HTTP status and the server's `error.message`, if any. */
  datatype LoginFailure = LoginFailure(status: int, serverMessage: Option<string>)

  const BadCredentials := "Nom d'utilisateur ou mot de passe incorrect"
  const ServerUnreachable := "Impossible de contacter le serveur"
  const DefaultLoginError := "Une erreur est survenue lors de la connexion"

  /** `handleLoginError`: 401 and 0 have fixed messages whatever the server says; otherwise a
      non-empty server message, otherwise the default. */
  function LoginErrorMessage(e: LoginFailure): (m: string)
    ensures e.status == 401 ==> m == BadCredentials
    ensures e.status == 0 ==> m == ServerUnreachable
    ensures e.status != 401 && e.status != 0 && e.serverMessage.Some? && e.serverMessage.value != [] ==>
      m == e.serverMessage.value
    ensures e.status != 401 && e.status != 0 && (e.serverMessage.None? || e.serverMessage.value == []) ==>
      m == DefaultLoginError
    ensures m != []
  {
    if e.status == 401 then BadCredentials
    else if e.status == 0 then ServerUnreachable
    else if e.serverMessage.Some? && e.serverMessage.value != [] then e.serverMessage.value
    else DefaultLoginError
  }

  // ---------------------------------------------------------------- token validity

  /** What `decodeToken` yields: nothing usable (it swallows every failure), or a payload whose
      `exp` claim, in seconds since the epoch (section 4.1.4 of RFC 7519), may be absent. */
  datatype Decoded = Undecodable | Payload(exp: Option<int>)

  /** The largest time value a JavaScript `Date` can hold, in milliseconds; beyond it the
      date is invalid and every comparison with it is false. */
  const MaxDateMs: int := 8_640_000_000_000_000

  /** `new Date(exp * 1000) > new Date()`, with `nowMs` the current time in milliseconds. */
  predicate ExpiresAfter(exp: int, nowMs: int)
  {
    -MaxDateMs <= exp * 1000 <= MaxDateMs && exp * 1000 > nowMs
  }

  /** `hasValidToken`: no (or an empty) token is invalid; a payload with a truthy `exp` is valid
      while that instant lies ahead; anything else, an undecodable token included, counts as
      valid. */
  function HasValidToken(token: Option<string>, decoded: Decoded, nowMs: int): (r: bool)
    ensures token.None? || token.value == [] ==> !r
    ensures token.Some? && token.value != [] && decoded.Payload? && decoded.exp.Some? && decoded.exp.value != 0 ==>
      (r <==> ExpiresAfter(decoded.exp.value, nowMs))
    ensures token.Some? && token.value != [] && (decoded.Undecodable? || decoded.exp.None?) ==> r
  {
    if token.None? || token.value == [] then false
    else if decoded.Payload? && decoded.exp.Some? && decoded.exp.value != 0 then ExpiresAfter(decoded.exp.value, nowMs)
    else true
  }

  /** Validity only ends: a token valid now was valid at every earlier instant. */
  lemma ValidityIsMonotone(token: Option<string>, decoded: Decoded, earlier: int, later: int)
    requires earlier <= later
    ensures HasValidToken(token, decoded, later) ==> HasValidToken(token, decoded, earlier)
  {
  }

  /** The claim counts in seconds: a token expiring at second `e` is valid through millisecond
      `e * 1000 - 1` and invalid from `e * 1000` on. */
  lemma ExpiryBoundary(token: string, e: int)
    requires token != [] && e > 0 && e * 1000 <= MaxDateMs
    ensures HasValidToken(Some(token), Payload(Some(e)), e * 1000 - 1)
    ensures !HasValidToken(Some(token), Payload(Some(e)), e * 1000)
  {
  }

  /** A zero `exp` is falsy and is read as no claim at all: such a token never expires. */
  lemma ZeroExpNeverExpires(token: string, nowMs: int)
    requires token != []
    ensures HasValidToken(Some(token), Payload(Some(0)), nowMs)
  {
  }

  /** `isLoggedIn`. */
  function IsLoggedIn(s: Session, decoded: Decoded, nowMs: int): (r: bool)
    ensures r ==> s.token.Some?
  {
    HasValidToken(s.token, decoded, nowMs)
  }

  // ---------------------------------------------------------------- session changes

  /** `AuthResponse`. */
  datatype AuthResponse = AuthResponse(token: string, username: string, roles: seq<string>)

  /** `handleLoginSuccess`: stores the token, makes the response's user current, authenticates. */
  function LoginSuccess(s: Session, resp: AuthResponse): (r: Session)
    ensures r.authenticated && r.token == Some(resp.token)
    ensures r.user == Some(User(resp.username, Some(resp.roles), resp.token))
    ensures forall role :: HasRole(r.user, role) <==> role in resp.roles
  {
    Session(Some(resp.token), Some(User(resp.username, Some(resp.roles), resp.token)), true)
  }

  /** `logout`: forgets the token and the user and clears the flag. */
  function Logout(s: Session): (r: Session)
    ensures r.token.None? && r.user.None? && !r.authenticated
    ensures forall d, now :: !IsLoggedIn(r, d, now)
    ensures forall roles :: !HasAnyRole(r.user, roles)
  {
    Session(None, None, false)
  }

  /** What makes `checkTokenExpiration` log out: a truthy stored token whose payload carries a
      truthy `exp` naming a valid date that is not after now. */
  predicate ExpiredClaim(token: Option<string>, decoded: Decoded, nowMs: int)
  {
    && token.Some? && token.value != []
    && decoded.Payload? && decoded.exp.Some? && decoded.exp.value != 0
    && -MaxDateMs <= decoded.exp.value * 1000 <= MaxDateMs && decoded.exp.value * 1000 <= nowMs
  }

  /** An expired claim is exactly an invalid token whose claim names a valid date; a claim
      beyond the date range leaves the token invalid but triggers no logout. */
  lemma ExpiredClaimIsInvalidToken(token: Option<string>, decoded: Decoded, nowMs: int)
    ensures ExpiredClaim(token, decoded, nowMs) ==> !HasValidToken(token, decoded, nowMs)
    ensures ExpiredClaim(token, decoded, nowMs) <==>
      !HasValidToken(token, decoded, nowMs) && token.Some? && token.value != [] && decoded.Payload? && decoded.exp.Some?
      && decoded.exp.value != 0 && -MaxDateMs <= decoded.exp.value * 1000 <= MaxDateMs
  {
  }

  /** The service's construction from storage: the flag starts as the token's validity, and a
      stored token whose claim has already expired logs out at once, dropping the token and
      the user (`checkTokenExpiration`). Every other stored session is kept as it is. The
      timer for a later expiry is not modelled. */
  function StartUp(storedToken: Option<string>, storedUser: Option<User>, decoded: Decoded, nowMs: int): (r: Session)
    ensures r.authenticated == HasValidToken(r.token, decoded, nowMs)
    ensures ExpiredClaim(storedToken, decoded, nowMs) ==> r == Session(None, None, false)
    ensures !ExpiredClaim(storedToken, decoded, nowMs) ==>
      r == Session(storedToken, storedUser, HasValidToken(storedToken, decoded, nowMs))
    ensures HasValidToken(storedToken, decoded, nowMs) ==> r == Session(storedToken, storedUser, true)
  {
    ExpiredClaimIsInvalidToken(storedToken, decoded, nowMs);
    var s := Session(storedToken, storedUser, HasValidToken(storedToken, decoded, nowMs));
    if ExpiredClaim(storedToken, decoded, nowMs) then Logout(s)
    else s
  }

  /** A stored token that expired at second `e` is gone after start-up, with its user, from
      millisecond `e * 1000` on. */
  lemma ExpiredTokenDroppedAtStartUp(token: string, user: Option<User>, e: int, nowMs: int)
    requires token != [] && e > 0 && e * 1000 <= MaxDateMs && e * 1000 <= nowMs
    ensures StartUp(Some(token), user, Payload(Some(e)), nowMs) == Session(None, None, false)
  {
  }

  /** The roles come from the stored user alone: a user kept from storage beside a missing or
      expired token still holds its roles, though nobody is logged in. */
  lemma RolesIgnoreToken(u: User, decoded: Decoded, nowMs: int)
    requires u.roles == Some([AdminRole])
    ensures var s := StartUp(None, Some(u), decoded, nowMs);
      IsAdmin(s.user) && !IsLoggedIn(s, decoded, nowMs) && !s.authenticated
  {
  }
}

=== FILE: catalog.dfy ===
/** Catalog entities as the views receive them (`ProductDTO`): read-only here. */
module Catalog {

  datatype ProductStatus = Active | Inactive | Discontinued | OutOfStock

  datatype Product = Product(id: int, code: string, name: string, basePrice: real, status: ProductStatus)
}

=== FILE: category_list.dfy ===
/** The category list: a card grid paged client-side with a page-size select,
    page buttons that elide distant pages behind an ellipsis, and a delete
    confirmation that keeps the current page in range. */
module CategoryList {
  import opened Wrappers
  import opened Paging

  /** `CategoryDTO` as far as the list reads it. */
  datatype Category = Category(id: Option<int>, name: string, description: Option<string>)

  /** `pageSizeOptions` and the initial `pageSize`. */
  const PageSizeOptions: seq<nat> := [6, 12, 24, 48]
  const DefaultPageSize: nat := 12

  /** `paginatedCategories`, with the select's value read as a number. */
  function CategoryPage(cats: seq<Category>, page: int, size: PageSizeValue): (r: seq<Category>)
    requires page >= 1
    ensures |r| <= SizeNumber(size)
    ensures |r| == Max(0, Min(SizeNumber(size), |cats| - StartIndex(page, SizeNumber(size))))
    ensures forall k :: 0 <= k < |r| ==>
      StartIndex(page, SizeNumber(size)) + k < |cats| && r[k] == cats[StartIndex(page, SizeNumber(size)) + k]
  {
    PageSliceOf(cats, page, size)
  }

  // ---------------------------------------------------------------- page buttons

  /** One entry of the page bar: a page button or the '...' marker. */
  datatype PageItem = Num(n: int) | Ellipsis

  function Nums(pages: seq<int>): (r: seq<PageItem>)
    ensures |r| == |pages|
    ensures forall k :: 0 <= k < |r| ==> r[k] == Num(pages[k])
  {
    seq(|pages|, k requires 0 <= k < |pages| => Num(pages[k]))
  }

  /** The bar reads as a list of pages in which an ellipsis stands exactly for a run of one or
      more skipped pages: it starts and ends with a button, neighbouring buttons are consecutive
      pages, and an ellipsis sits between two buttons at least two pages apart. */
  predicate GapsMarked(items: seq<PageItem>)
  {
    |items| > 0 && items[0].Num? && items[|items| - 1].Num? &&
    (forall k :: 0 <= k < |items| - 1 && items[k].Num? && items[k + 1].Num? ==> items[k + 1].n == items[k].n + 1) &&
    (forall k :: 0 < k < |items| - 1 && items[k].Ellipsis? ==>
      items[k - 1].Num? && items[k + 1].Num? && items[k + 1].n >= items[k - 1].n + 2)
  }

  lemma RunIsMarked(lo: int, hi: int)
    requires lo <= hi
    ensures GapsMarked(Nums(Range(lo, hi)))
    ensures Nums(Range(lo, hi))[0] == Num(lo) && Nums(Range(lo, hi))[|Range(lo, hi)| - 1] == Num(hi)
  {
  }

  /** Two marked bars where the second continues right after the first join into one. */
  lemma JoinAdjacent(a: seq<PageItem>, b: seq<PageItem>)
    requires GapsMarked(a) && GapsMarked(b)
    requires b[0].n == a[|a| - 1].n + 1
    ensures GapsMarked(a + b)
  {
    var ab := a + b;
    forall k | 0 <= k < |ab| - 1 && ab[k].Num? && ab[k + 1].Num? ensures ab[k + 1].n == ab[k].n + 1 {
      if k < |a| - 1 {
        assert ab[k] == a[k] && ab[k + 1] == a[k + 1];
      } else if k >= |a| {
        assert ab[k] == b[k - |a|] && ab[k + 1] == b[k + 1 - |a|];
      }
    }
    forall k | 0 < k < |ab| - 1 && ab[k].Ellipsis?
      ensures ab[k - 1].Num? && ab[k + 1].Num? && ab[k + 1].n >= ab[k - 1].n + 2
    {
      if k < |a| {
        assert ab[k - 1] == a[k - 1] && ab[k + 1] == a[k + 1];
      } else {
        assert ab[k - 1] == b[k - 1 - |a|] && ab[k + 1] == b[k + 1 - |a|];
      }
    }
  }

  /** Two marked bars with at least one page between them join with an ellipsis. */
  lemma JoinWithEllipsis(a: seq<PageItem>, b: seq<PageItem>)
    requires GapsMarked(a) && GapsMarked(b)
    requires b[0].n >= a[|a| - 1].n + 2
    ensures GapsMarked(a + [Ellipsis] + b)
  {
    var ab := a + [Ellipsis] + b;
    var m := |a|;
    assert ab[m] == Ellipsis;
    forall k | 0 <= k < |ab| - 1 && ab[k].Num? && ab[k + 1].Num? ensures ab[k + 1].n == ab[k].n + 1 {
      if k < m - 1 {
        assert ab[k] == a[k] && ab[k + 1] == a[k + 1];
      } else if k > m {
        assert ab[k] == b[k - m - 1] && ab[k + 1] == b[k - m];
      }
    }
    forall k | 0 < k < |ab| - 1 && ab[k].Ellipsis?
      ensures ab[k - 1].Num? && ab[k + 1].Num? && ab[k + 1].n >= ab[k - 1].n + 2
    {
      if k < m {
        assert ab[k - 1] == a[k - 1] && ab[k + 1] == a[k + 1];
      } else if k > m {
        assert ab[k - 1] == b[k - 1 - m - 1] && ab[k + 1] == b[k + 1 - m - 1];
      } else {
        assert ab[k - 1] == a[m - 1] && ab[k + 1] == b[0];
      }
    }
  }

  /** The buttons between the first and the last page: the current page and its neighbours,
      kept clear of both ends. */
  function Middle(total: int, current: int): seq<PageItem>
  {
    Nums(Range(Max(2, current - 1), Min(total - 1, current + 1)))
  }

  /** The first button, with an ellipsis after it when the current page is beyond 3. */
  function Head(current: int): seq<PageItem>
  {
    if current > 3 then [Num(1), Ellipsis] else [Num(1)]
  }

  /** The last button, with an ellipsis before it when the current page is 3 or more before it. */
  function Tail(total: int, current: int): seq<PageItem>
  {
    if current < total - 2 then [Ellipsis, Num(total)] else [Num(total)]
  }

  /** `visiblePages`: every page up to 7 pages; beyond that the first and last page, the
      current page with its neighbours, and an ellipsis for each skipped run. */
  function EllipsisPages(total: int, current: int): (r: seq<PageItem>)
    requires total >= 1 && current >= 1
    ensures total <= 7 ==> r == Nums(Range(1, total))
    ensures GapsMarked(r)
    ensures r[0] == Num(1) && r[|r| - 1] == Num(total)
    ensures total > 7 ==> |r| <= 7
    ensures total > 7 ==> (r[1] == Ellipsis <==> current > 3)
    ensures total > 7 && current <= total ==> (r[|r| - 2] == Ellipsis <==> current < total - 2)
    ensures current <= total ==> Num(current) in r
  {
    if total <= 7 then
      RunIsMarked(1, total);
      assert current <= total ==> Nums(Range(1, total))[current - 1] == Num(current);
      Nums(Range(1, total))
    else
      WideBarFacts(total, current);
      Head(current) + Middle(total, current) + Tail(total, current)
  }

  lemma WideBarFacts(total: int, current: int)
    requires total > 7 && current >= 1
    ensures var r := Head(current) + Middle(total, current) + Tail(total, current);
      GapsMarked(r) && r[0] == Num(1) && r[|r| - 1] == Num(total) && |r| <= 7 &&
      (r[1] == Ellipsis <==> current > 3) &&
      (current <= total ==> (r[|r| - 2] == Ellipsis <==> current < total - 2)) &&
      (current <= total ==> Num(current) in r)
  {
    WideBarMarked(total, current);
    WideBarEnds(total, current);
    if current <= total {
      WideBarHasCurrent(total, current);
    }
  }

  lemma WideBarMarked(total: int, current: int)
    requires total > 7 && current >= 1
    ensures GapsMarked(Head(current) + Middle(total, current) + Tail(total, current))
  {
    var first := [Num(1)];
    var last := [Num(total)];
    if Max(2, current - 1) <= Min(total - 1, current + 1) {
      var left := Head(current) + Middle(total, current);
      HeadAndMiddleMarked(total, current);
      if current < total - 2 {
        JoinWithEllipsis(left, last);
        assert left + Tail(total, current) == left + [Ellipsis] + last;
      } else {
        JoinAdjacent(left, last);
        assert left + Tail(total, current) == left + last;
      }
    } else {
      assert Head(current) + Middle(total, current) + Tail(total, current) == first + [Ellipsis] + last;
      JoinWithEllipsis(first, last);
    }
  }

  /** The first button and the middle run form a marked bar ending at the run's last page. */
  lemma HeadAndMiddleMarked(total: int, current: int)
    requires total > 7 && current >= 1
    requires Max(2, current - 1) <= Min(total - 1, current + 1)
    ensures GapsMarked(Head(current) + Middle(total, current))
    ensures (Head(current) + Middle(total, current))[|Head(current) + Middle(total, current)| - 1]
      == Num(Min(total - 1, current + 1))
  {
    var start := Max(2, current - 1);
    var end := Min(total - 1, current + 1);
    var first := [Num(1)];
    var m := Middle(total, current);
    RunIsMarked(start, end);
    if current > 3 {
      JoinWithEllipsis(first, m);
      assert Head(current) + m == first + [Ellipsis] + m;
    } else {
      JoinAdjacent(first, m);
    }
  }

  lemma WideBarEnds(total: int, current: int)
    requires total > 7 && current >= 1
    ensures var r := Head(current) + Middle(total, current) + Tail(total, current);
      r[0] == Num(1) && r[|r| - 1] == Num(total) && |r| <= 7 &&
      (r[1] == Ellipsis <==> current > 3) &&
      (current <= total ==> (r[|r| - 2] == Ellipsis <==> current < total - 2))
  {
    var start := Max(2, current - 1);
    var end := Min(total - 1, current + 1);
    var m := Middle(total, current);
    var r := Head(current) + m + Tail(total, current);
    assert |m| <= 3;
    if start <= end {
      assert m[0] == Num(start) && m[|m| - 1] == Num(end);
      assert r[1] == (if current > 3 then Ellipsis else Num(start));
      assert r[|r| - 2] == (if current < total - 2 then Ellipsis else Num(end));
    }
  }

  lemma WideBarHasCurrent(total: int, current: int)
    requires total > 7 && 1 <= current <= total
    ensures Num(current) in Head(current) + Middle(total, current) + Tail(total, current)
  {
    var start := Max(2, current - 1);
    var h := Head(current);
    var m := Middle(total, current);
    var r := h + m + Tail(total, current);
    if current == 1 {
      assert r[0] == Num(1);
    } else if current == total {
      assert r[|r| - 1] == Num(total);
    } else {
      assert m[current - start] == Num(current);
      assert r[|h| + current - start] == Num(current);
    }
  }

  /** The bar shows the numbers of existing pages only, each once and in increasing order. */
  lemma PageBarNumbersIncrease(total: int, current: int)
    requires total >= 1 && current >= 1
    ensures forall i, j ::
      (0 <= i < j < |EllipsisPages(total, current)| &&
       EllipsisPages(total, current)[i].Num? && EllipsisPages(total, current)[j].Num?) ==>
      EllipsisPages(total, current)[i].n < EllipsisPages(total, current)[j].n
    ensures forall k :: 0 <= k < |EllipsisPages(total, current)| && EllipsisPages(total, current)[k].Num? ==>
      1 <= EllipsisPages(total, current)[k].n <= total
  {
    var r := EllipsisPages(total, current);
    MarkedIncreasing(r);
  }

  /** In a marked bar every button to the right of another shows a larger page. */
  lemma {:induction false} MarkedIncreasing(r: seq<PageItem>)
    requires GapsMarked(r)
    ensures forall i, j :: 0 <= i < j < |r| && r[i].Num? && r[j].Num? ==> r[i].n < r[j].n
    ensures forall k :: 0 <= k < |r| && r[k].Num? ==> r[0].n <= r[k].n <= r[|r| - 1].n
  {
    forall i, j | 0 <= i < j < |r| && r[i].Num? && r[j].Num? ensures r[i].n < r[j].n {
      StepUp(r, i, j);
    }
    forall k | 0 <= k < |r| && r[k].Num? ensures r[0].n <= r[k].n <= r[|r| - 1].n {
      if k > 0 { StepUp(r, 0, k); }
      if k < |r| - 1 { StepUp(r, k, |r| - 1); }
    }
  }

  lemma {:induction false} StepUp(r: seq<PageItem>, i: int, j: int)
    requires GapsMarked(r)
    requires 0 <= i < j < |r| && r[i].Num? && r[j].Num?
    ensures r[i].n < r[j].n
    decreases j - i
  {
    if r[i + 1].Num? {
      if i + 1 < j { StepUp(r, i + 1, j); }
    } else {
      assert r[i + 2].Num?;
      if i + 2 < j { StepUp(r, i + 2, j); }
    }
  }

  // ---------------------------------------------------------------- delete

  /** The delete confirmation: open or not, and the category it asks about. */
  datatype DeleteModal = DeleteModal(show: bool, target: Option<Category>)

  function ConfirmDelete(c: Category): (m: DeleteModal)
    ensures m.show && m.target == Some(c)
    ensures DeleteRequest(m).Some? <==> c.id.Some? && c.id.value != 0
  {
    DeleteModal(true, Some(c))
  }

  function CancelDelete(m: DeleteModal): (r: DeleteModal)
    ensures !r.show && r.target.None?
    ensures DeleteRequest(r).None?
  {
    DeleteModal(false, None)
  }

  /** `deleteCategory`: a delete goes out only for a target with a truthy id. */
  function DeleteRequest(m: DeleteModal): (r: Option<int>)
    ensures r.Some? <==> m.target.Some? && m.target.value.id.Some? && m.target.value.id.value != 0
    ensures r.Some? ==> r.value == m.target.value.id.value
  {
    if m.target.Some? && m.target.value.id.Some? && m.target.value.id.value != 0
    then Some(m.target.value.id.value)
    else None
  }

  /** A successful delete as written: the modal closes, and the page is clamped against the
      page count of the list the component still holds. The facade's reload after the delete
      only starts a request, so that list still contains the deleted category. */
  function AfterDeleteAsWritten(page: int, before: nat, pageSize: nat): (r: (DeleteModal, int))
    requires pageSize > 0 && page >= 1
    ensures !r.0.show && r.0.target.None?
    ensures page <= TotalPages(before, pageSize) ==> r.1 == page
    ensures page > TotalPages(before, pageSize) ==> r.1 == TotalPages(before, pageSize)
  {
    (DeleteModal(false, None), ClampAfterDelete(page, TotalPages(before, pageSize)))
  }

  /** From a valid page the clamp as written never moves: deleting the only category of the last
      page leaves the list on that page once the reload arrives, past the new end and empty. */
  lemma DeleteCanLeaveEmptyPage(cats: seq<Category>)
    requires |cats| == 6
    ensures AfterDeleteAsWritten(2, 7, 6).1 == 2
    ensures TotalPages(6, 6) == 1
    ensures CategoryPage(cats, 2, Number(6)) == []
  {
  }

  /** The intended delete: the clamp applied against the page count of what remains, so a
      page past the new end moves to the last page. */
  function AfterDelete(page: int, remaining: nat, pageSize: nat): (r: (DeleteModal, int))
    requires pageSize > 0 && page >= 1
    ensures !r.0.show && r.0.target.None?
    ensures 1 <= r.1 <= Max(page, TotalPages(remaining, pageSize))
    ensures r.1 <= TotalPages(remaining, pageSize) || r.1 == page
    ensures page <= TotalPages(remaining, pageSize) ==> r.1 == page
    ensures page > TotalPages(remaining, pageSize) ==> r.1 == TotalPages(remaining, pageSize)
  {
    AfterDeleteAsWritten(page, remaining, pageSize)
  }

  /** With the intended clamp, deleting from a valid page always lands on a valid page of what
      remains, and that page shows rows whenever any remain. */
  lemma DeleteKeepsPageValid(cats: seq<Category>, page: int, pageSize: nat)
    requires pageSize > 0 && |cats| >= 1 && 1 <= page <= TotalPages(|cats|, pageSize)
    ensures 1 <= AfterDelete(page, |cats| - 1, pageSize).1 <= TotalPages(|cats| - 1, pageSize)
    ensures |cats| > 1 ==> CategoryPage(cats[1..], AfterDelete(page, |cats| - 1, pageSize).1, Number(pageSize)) != []
  {
    var p := AfterDelete(page, |cats| - 1, pageSize).1;
    var n := |cats| - 1;
    if n > 0 {
      assert (p - 1) * pageSize < n by {
        assert (TotalPages(n, pageSize) - 1) * pageSize < n;
        MulLeft(p - 1, TotalPages(n, pageSize) - 1, pageSize);
      }
    }
  }
}

=== FILE: dashboard.dfy ===
/** The dashboard: product counts by status, shown to admins only, and the
    first five loaded products. */
module Dashboard {
  import opened Wrappers
  import opened Seqs
  import opened Catalog
  import opened Auth
  import opened RoleDirectives

  function WithStatus(st: ProductStatus): Product -> bool
  {
    (p: Product) => p.status == st
  }

  /** The four stat cards. */
  datatype ProductStats = ProductStats(total: nat, active: nat, inactive: nat, outOfStock: nat)

  /** `totalProducts`, `activeProducts`, `inactiveProducts`, `outOfStockProducts`: every loaded
      product, and those with each of three statuses. Discontinued products have no card, so
      the three add up to the total exactly when there are none. */
  function Stats(products: seq<Product>): (s: ProductStats)
    ensures s.total == |products|
    ensures s.active + s.inactive + s.outOfStock <= s.total
    ensures s.active + s.inactive + s.outOfStock == s.total <==>
      forall k :: 0 <= k < |products| ==> products[k].status != Discontinued
  {
    forall k | 0 <= k < |products|
      ensures ExactlyOne(WithStatus(Active)(products[k]), WithStatus(Inactive)(products[k]),
        WithStatus(OutOfStock)(products[k]), WithStatus(Discontinued)(products[k]))
    {
    }
    CountPartition4(products, WithStatus(Active), WithStatus(Inactive), WithStatus(OutOfStock), WithStatus(Discontinued));
    CountZero(products, WithStatus(Discontinued));
    ProductStats(|products|, Count(products, WithStatus(Active)), Count(products, WithStatus(Inactive)),
      Count(products, WithStatus(OutOfStock)))
  }

  /** What each card counts, product by product: no products count nothing, and one more
      product adds one to the total and one to the card of its own status only
      (`products.filter(p => p.status === 'ACTIVE').length` and its two siblings). */
  lemma {:induction false} StatsStep(products: seq<Product>, p: Product)
    ensures Stats([]) == ProductStats(0, 0, 0, 0)
    ensures Stats(products + [p]).total == Stats(products).total + 1
    ensures Stats(products + [p]).active == Stats(products).active + (if p.status == Active then 1 else 0)
    ensures Stats(products + [p]).inactive == Stats(products).inactive + (if p.status == Inactive then 1 else 0)
    ensures Stats(products + [p]).outOfStock == Stats(products).outOfStock + (if p.status == OutOfStock then 1 else 0)
  {
    CountSnoc(products, p, WithStatus(Active));
    CountSnoc(products, p, WithStatus(Inactive));
    CountSnoc(products, p, WithStatus(OutOfStock));
  }

  /** `recentProducts`: the first five products in the loaded order (fewer if fewer exist). */
  function RecentProducts(products: seq<Product>): (r: seq<Product>)
    ensures |r| == if |products| < 5 then |products| else 5
    ensures r == products[..|r|]
  {
    if |products| < 5 then products else products[..5]
  }

  /** The stat cards sit under `*appIsAdmin`: they are shown, once, exactly to admins. */
  function StatsGridView(user: Option<User>): (v: ViewState)
    ensures v.visible <==> user.Some? && user.value.roles.Some? && AdminRole in user.value.roles.value
    ensures v.created - v.cleared <= 1
  {
    AdminView(user)
  }
}

=== FILE: guards.dfy ===
/** The three route guards as decision tables over the session: whether the
    route may activate, and where the user is sent otherwise. */
module Guards {
  import opened Wrappers
  import opened Auth

  /** A guard's answer: activate, or refuse and navigate. */
  datatype Decision = Allow | ToLogin(returnUrl: string) | ToDashboard

  /** `route.url.map(s => s.path).join('/')`. */
  function JoinPath(segments: seq<string>): (r: string)
    ensures |segments| == 0 ==> r == []
    ensures |segments| == 1 ==> r == segments[0]
  {
    if |segments| == 0 then []
    else if |segments| == 1 then segments[0]
    else JoinPath(segments[..|segments| - 1]) + "/" + segments[|segments| - 1]
  }

  /** Slashes are added only between segments: the joined path is as long as the segments
      together plus one separator between each neighbouring pair. */
  lemma {:induction false} JoinPathLength(segments: seq<string>)
    requires |segments| > 0
    ensures |JoinPath(segments)| == TotalLength(segments) + |segments| - 1
  {
    if |segments| > 1 {
      JoinPathLength(segments[..|segments| - 1]);
    }
  }

  /** The position of the last '/' in `s`. */
  function LastSlash(s: string): (i: nat)
    requires '/' in s
    ensures i < |s| && s[i] == '/'
    ensures forall k :: i < k < |s| ==> s[k] != '/'
  {
    if s[|s| - 1] == '/' then |s| - 1
    else
      assert '/' in s[..|s| - 1] by {
        var k :| 0 <= k < |s| && s[k] == '/';
        assert s[..|s| - 1][k] == '/';
      }
      LastSlash(s[..|s| - 1])
  }

  /** The inverse of the join: the pieces of a path between its slashes. */
  function SplitPath(s: string): (r: seq<string>)
    ensures |r| >= 1
    decreases |s|
  {
    if '/' !in s then [s]
    else
      var i := LastSlash(s);
      SplitPath(s[..i]) + [s[i + 1..]]
  }

  /** A route segment never contains '/', so splitting the joined path at its slashes gives
      back the segments. */
  lemma {:induction false} SplitJoinPath(segments: seq<string>)
    requires |segments| > 0
    requires forall k :: 0 <= k < |segments| ==> '/' !in segments[k]
    ensures SplitPath(JoinPath(segments)) == segments
  {
    if |segments| > 1 {
      var init := segments[..|segments| - 1];
      var last := segments[|segments| - 1];
      assert JoinPath(segments) == JoinPath(init) + "/" + last;
      assert '/' !in last;
      SplitLastSegment(JoinPath(init), last);
      assert forall k :: 0 <= k < |init| ==> init[k] == segments[k];
      SplitJoinPath(init);
      assert init + [last] == segments;
    } else {
      assert JoinPath(segments) == segments[0];
    }
  }

  /** Splitting a path ending in "/" and a slash-free segment splits off that segment. */
  lemma SplitLastSegment(head: string, last: string)
    requires '/' !in last
    ensures SplitPath(head + "/" + last) == SplitPath(head) + [last]
  {
    var j := head + "/" + last;
    assert j[|head|] == '/';
    forall k | |head| < k < |j| ensures j[k] != '/' {
      assert j[k] == last[k - |head| - 1];
    }
    assert LastSlash(j) == |head|;
    assert j[..|head|] == head;
    assert j[|head| + 1..] == last;
  }

  function TotalLength(segments: seq<string>): nat
  {
    if |segments| == 0 then 0 else TotalLength(segments[..|segments| - 1]) + |segments[|segments| - 1]|
  }

  /** `authGuard`: a logged-out user goes to the login page with the route's path as return
      URL; a logged-in user passes unless the route lists roles and the user holds none. */
  function AuthGuard(loggedIn: bool, user: Option<User>, segments: seq<string>, required: Option<seq<string>>): (d: Decision)
    ensures !loggedIn ==> d == ToLogin(JoinPath(segments))
    ensures loggedIn && (required.None? || required.value == []) ==> d == Allow
    ensures loggedIn && required.Some? && required.value != [] ==>
      (d == Allow <==> HasAnyRole(user, required.value)) && (d != Allow ==> d == ToDashboard)
  {
    if !loggedIn then ToLogin(JoinPath(segments))
    else if required.Some? && |required.value| > 0 && !HasAnyRole(user, required.value) then ToDashboard
    else Allow
  }

  /** `adminGuard`: logged-out users go to the login page first; logged-in non-admins go to
      the dashboard. */
  function AdminGuard(loggedIn: bool, user: Option<User>, segments: seq<string>): (d: Decision)
    ensures d == Allow <==> loggedIn && IsAdmin(user)
    ensures !loggedIn ==> d == ToLogin(JoinPath(segments))
    ensures loggedIn && !IsAdmin(user) ==> d == ToDashboard
  {
    if !loggedIn then ToLogin(JoinPath(segments))
    else if !IsAdmin(user) then ToDashboard
    else Allow
  }

  /** `noAuthGuard`: only logged-out users may see the login page; others go to the dashboard. */
  function NoAuthGuard(loggedIn: bool): (d: Decision)
    ensures d == Allow <==> !loggedIn
    ensures loggedIn ==> d == ToDashboard
  {
    if loggedIn then ToDashboard else Allow
  }

  /** The login page and the guarded pages never admit the same session, and the admin guard
      is the authentication guard with the admin role required. */
  lemma GuardsAgree(loggedIn: bool, user: Option<User>, segments: seq<string>, required: Option<seq<string>>)
    ensures !(NoAuthGuard(loggedIn) == Allow && AuthGuard(loggedIn, user, segments, required) == Allow)
    ensures !(NoAuthGuard(loggedIn) == Allow && AdminGuard(loggedIn, user, segments) == Allow)
    ensures AdminGuard(loggedIn, user, segments) == AuthGuard(loggedIn, user, segments, Some([AdminRole]))
  {
  }
}

=== FILE: inventory_list.dfy ===
/** The inventory list: search, warehouse and stock-level filters over every
    inventory row, the statistics over the filtered rows, pagination, the
    alert strip, and the guards on stock adjustments. */
module InventoryList {
  import opened Wrappers
  import opened Seqs
  import opened Text
  import opened Paging
  import opened StockLevels

  /** The stock select: 'all' (or anything unrecognised) keeps every row. */
  datatype StockFilter = AllStock | LowStock | OutStock | NormalStock

  /** The filter bar: search text (empty: no search), warehouse select, stock select. */
  datatype InventoryFilters = InventoryFilters(search: string, warehouse: Option<int>, stock: StockFilter)

  /** The search hits the product code or the product name, ignoring case. */
  function SearchOk(term: string): InventoryRow -> bool
  {
    (r: InventoryRow) => term == [] || OptFieldHit(r.productCode, term) || OptFieldHit(r.productName, term)
  }

  /** `inv.warehouseId === +selectedWarehouse`, when a warehouse is selected. */
  function WarehouseOk(w: Option<int>): InventoryRow -> bool
  {
    (r: InventoryRow) => w.None? || r.warehouseId == w
  }

  function StockOk(f: StockFilter): InventoryRow -> bool
  {
    (r: InventoryRow) =>
      match f
      case AllStock => true
      case LowStock => IsLow(r.quantity, InventoryListLowMax)
      case OutStock => IsOut(r.quantity)
      case NormalStock => IsNormal(r.quantity, InventoryListLowMax)
  }

  predicate Passes(r: InventoryRow, f: InventoryFilters)
  {
    SearchOk(f.search)(r) && WarehouseOk(f.warehouse)(r) && StockOk(f.stock)(r)
  }

  function PassesFn(f: InventoryFilters): InventoryRow -> bool
  {
    (r: InventoryRow) => Passes(r, f)
  }

  /** The rows some active filter hides. */
  function HiddenFn(f: InventoryFilters): InventoryRow -> bool
  {
    (r: InventoryRow) => !Passes(r, f)
  }

  /** `filteredInventories`: search, then warehouse, then stock level, each only when set. */
  function FilteredInventories(rows: seq<InventoryRow>, f: InventoryFilters): (r: seq<InventoryRow>)
    ensures r == Filter(rows, PassesFn(f))
  {
    var r1 := if f.search == [] then rows else Filter(rows, SearchOk(f.search));
    var r2 := if f.warehouse.None? then r1 else Filter(r1, WarehouseOk(f.warehouse));
    var r3 := if f.stock == AllStock then r2 else Filter(r2, StockOk(f.stock));
    var both := (x: InventoryRow) => SearchOk(f.search)(x) && WarehouseOk(f.warehouse)(x);
    assert r1 == Filter(rows, SearchOk(f.search)) by {
      if f.search == [] { FilterAll(rows, SearchOk(f.search)); }
    }
    assert r2 == Filter(r1, WarehouseOk(f.warehouse)) by {
      if f.warehouse.None? { FilterAll(r1, WarehouseOk(f.warehouse)); }
    }
    assert r3 == Filter(r2, StockOk(f.stock)) by {
      if f.stock == AllStock { FilterAll(r2, StockOk(f.stock)); }
    }
    FilterFilter(rows, SearchOk(f.search), WarehouseOk(f.warehouse), both);
    FilterFilter(rows, both, StockOk(f.stock), PassesFn(f));
    r3
  }

  /** The filtered rows are inventory rows, in their order, and exactly those passing every
      active filter; a stock filter keeps only rows of that level. */
  lemma FilteredInventoriesExact(rows: seq<InventoryRow>, f: InventoryFilters)
    ensures forall k :: 0 <= k < |FilteredInventories(rows, f)| ==>
      FilteredInventories(rows, f)[k] in rows && Passes(FilteredInventories(rows, f)[k], f)
    ensures forall k :: 0 <= k < |rows| && Passes(rows[k], f) ==> rows[k] in FilteredInventories(rows, f)
    ensures IsSubseq(FilteredInventories(rows, f), rows)
    ensures f.stock == LowStock ==> forall k :: 0 <= k < |FilteredInventories(rows, f)| ==>
      LevelOf(FilteredInventories(rows, f)[k].quantity, InventoryListLowMax) == Some(Low)
  {
    var r := FilteredInventories(rows, f);
    FilterFromInput(rows, PassesFn(f));
    assert forall k :: 0 <= k < |r| ==> PassesFn(f)(r[k]);
    assert forall k :: 0 <= k < |rows| && Passes(rows[k], f) ==> PassesFn(f)(rows[k]);
  }

  // ---------------------------------------------------------------- statistics

  /** `totalQuantity`, `lowStockCount`, `outOfStockCount`, all over the filtered rows. */
  datatype Stats = Stats(totalQuantity: int, lowCount: nat, outCount: nat)

  function InventoryStats(rows: seq<InventoryRow>, f: InventoryFilters): (s: Stats)
    ensures s.totalQuantity == TotalQuantity(FilteredInventories(rows, f))
    ensures s.totalQuantity + TotalQuantity(Filter(rows, HiddenFn(f))) == TotalQuantity(rows)
    ensures s.lowCount + s.outCount <= |FilteredInventories(rows, f)|
    ensures NonNegative(rows) ==> 0 <= s.totalQuantity <= TotalQuantity(rows)
    ensures s.lowCount == 0 <==> forall k :: 0 <= k < |FilteredInventories(rows, f)| ==>
      !IsLow(FilteredInventories(rows, f)[k].quantity, InventoryListLowMax)
  {
    var shown := FilteredInventories(rows, f);
    LowAndOutCounts(shown);
    ShownTotalBounded(rows, f);
    KeptPlusDroppedTotal(rows, PassesFn(f), HiddenFn(f));
    Stats(TotalQuantity(shown), Count(shown, LowRow(InventoryListLowMax)), Count(shown, OutRow()))
  }

  /** Low and out-of-stock rows are disjoint, and there are no low rows exactly when no row is low. */
  lemma LowAndOutCounts(shown: seq<InventoryRow>)
    ensures Count(shown, LowRow(InventoryListLowMax)) + Count(shown, OutRow()) <= |shown|
    ensures Count(shown, LowRow(InventoryListLowMax)) == 0 <==>
      forall k :: 0 <= k < |shown| ==> !IsLow(shown[k].quantity, InventoryListLowMax)
  {
    LevelCountsCoverRows(shown, InventoryListLowMax);
    CountZero(shown, LowRow(InventoryListLowMax));
  }

  /** What each statistic counts, row by row: no rows give zeros, and one more row that passes
      the filters adds its quantity to the total, one to the low count when its stock is
      between 1 and 10, and one to the out-of-stock count when its stock is exactly 0; a
      filtered-out row changes nothing. */
  lemma {:induction false} InventoryStatsStep(rows: seq<InventoryRow>, x: InventoryRow, f: InventoryFilters)
    ensures InventoryStats([], f) == Stats(0, 0, 0)
    ensures InventoryStats(rows + [x], f).totalQuantity ==
      InventoryStats(rows, f).totalQuantity + (if Passes(x, f) then x.quantity else 0)
    ensures InventoryStats(rows + [x], f).lowCount ==
      InventoryStats(rows, f).lowCount + (if Passes(x, f) && 0 < x.quantity <= 10 then 1 else 0)
    ensures InventoryStats(rows + [x], f).outCount ==
      InventoryStats(rows, f).outCount + (if Passes(x, f) && x.quantity == 0 then 1 else 0)
  {
    var shown := FilteredInventories(rows, f);
    FilterSnoc(rows, x, PassesFn(f));
    if Passes(x, f) {
      assert FilteredInventories(rows + [x], f) == shown + [x];
      TotalQuantityAppend(shown, [x]);
      assert TotalQuantity([x]) == x.quantity by {
        assert [x][..0] == [];
      }
      CountSnoc(shown, x, LowRow(InventoryListLowMax));
      CountSnoc(shown, x, OutRow());
    } else {
      assert FilteredInventories(rows + [x], f) == shown;
    }
  }

  /** Filtering rows of non-negative stock leaves rows of non-negative stock, whose total is at
      most the unfiltered one. */
  lemma ShownTotalBounded(rows: seq<InventoryRow>, f: InventoryFilters)
    ensures NonNegative(rows) ==> NonNegative(FilteredInventories(rows, f))
    ensures NonNegative(rows) ==> 0 <= TotalQuantity(FilteredInventories(rows, f)) <= TotalQuantity(rows)
  {
    if NonNegative(rows) {
      var shown := FilteredInventories(rows, f);
      FilteredTotalAtMost(rows, PassesFn(f));
      FilterFromInput(rows, PassesFn(f));
      forall k | 0 <= k < |shown| ensures shown[k].quantity >= 0 {
        var j :| 0 <= j < |rows| && rows[j] == shown[k];
      }
    }
  }

  // ---------------------------------------------------------------- pagination

  /** The list reads the page size with `parseInt`, so it is always a number here. */
  function InventoryPage(rows: seq<InventoryRow>, f: InventoryFilters, page: int, pageSize: nat): (r: seq<InventoryRow>)
    requires page >= 1
    ensures |r| <= pageSize
    ensures |r| == Max(0, Min(pageSize, |FilteredInventories(rows, f)| - StartIndex(page, pageSize)))
    ensures forall k :: 0 <= k < |r| ==>
      StartIndex(page, pageSize) + k < |FilteredInventories(rows, f)| &&
      r[k] == FilteredInventories(rows, f)[StartIndex(page, pageSize) + k]
  {
    PageSlice(FilteredInventories(rows, f), page, pageSize)
  }

  /** Changing a filter does not move the current page back to 1: a narrower filter can leave
      the list on a page past its end, showing no rows although some rows pass. */
  lemma NarrowedFilterCanShowEmptyPage(rows: seq<InventoryRow>, f: InventoryFilters)
    requires |FilteredInventories(rows, f)| == 5
    ensures TotalPages(5, 20) == 1
    ensures InventoryPage(rows, f, 3, 20) == []
  {
  }

  // ---------------------------------------------------------------- alerts

  /** The alert strip shows the first five alerts (`alerts().slice(0, 5)`). */
  function VisibleAlerts<A>(alerts: seq<A>): (r: seq<A>)
    ensures |r| == Min(5, |alerts|)
    ensures r == alerts[..|r|]
  {
    alerts[..Min(5, |alerts|)]
  }

  /** `getAlertSeverityClass`: 'critical' for CRITICAL alerts, no class otherwise. */
  function SeverityClass(severity: Option<string>): (c: string)
    ensures c == "critical" <==> severity == Some("CRITICAL")
    ensures c != "critical" ==> c == []
  {
    if severity == Some("CRITICAL") then "critical" else []
  }

  // ---------------------------------------------------------------- adjustments

  /** A stock adjustment sent to the server: the inventory id and a signed delta, which is
      `null` (None) when it comes from a cleared number input. */
  datatype Adjustment = Adjustment(inventoryId: int, delta: Option<int>)

  /** The row's "-1" button is disabled only at exactly zero; "+1" is always enabled, and on a
      row of non-negative stock it keeps the stock non-negative. */
  predicate QuickMinusEnabled(r: InventoryRow)
  {
    r.quantity != 0
  }

  /** `adjustStock(inv, delta)`: sent only for a row with a truthy id. */
  function QuickAdjust(r: InventoryRow, delta: int): (a: Option<Adjustment>)
    ensures a.Some? <==> r.id.Some? && r.id.value != 0
    ensures a.Some? ==> a.value == Adjustment(r.id.value, Some(delta))
  {
    if r.id.Some? && r.id.value != 0 then Some(Adjustment(r.id.value, Some(delta))) else None
  }

  /** On a row with non-negative stock, an enabled "-1" button never takes it below zero. */
  lemma QuickButtonsKeepStockNonNegative(r: InventoryRow)
    requires r.quantity >= 0
    ensures QuickMinusEnabled(r) ==> r.quantity - 1 >= 0
  {
  }

  /** The adjust modal: whether it is open, the row it is about and the delta in the number
      input. Angular's number accessor turns a cleared input into `null`, modelled as None. */
  datatype AdjustModal = AdjustModal(show: bool, selected: Option<InventoryRow>, value: Option<int>)

  const ClosedModal := AdjustModal(false, None, Some(0))

  /** The delta as arithmetic sees it: `null` counts as 0 in `+` and `-`. */
  function DeltaNumber(v: Option<int>): int
  {
    if v.Some? then v.value else 0
  }

  /** The "Confirm" button is disabled by `adjustmentValue === 0` or a negative preview
      `quantity + adjustmentValue`; a `null` delta is not `=== 0` and adds as 0. */
  predicate ConfirmEnabled(m: AdjustModal)
  {
    m.selected.Some? && m.value != Some(0) && m.selected.value.quantity + DeltaNumber(m.value) >= 0
  }

  /** `confirmAdjust`: sends the delta when a row with a truthy id is selected and the delta is
      `!== 0`, which a `null` delta is (the method itself does not re-check the preview; the
      button does). */
  function ConfirmAdjust(m: AdjustModal): (a: Option<Adjustment>)
    ensures a.Some? <==> m.selected.Some? && m.selected.value.id.Some? && m.selected.value.id.value != 0 && m.value != Some(0)
    ensures a.Some? ==> a.value.delta == m.value && a.value.delta != Some(0)
    ensures a.Some? ==> a.value.inventoryId == m.selected.value.id.value
  {
    if m.selected.Some? && m.selected.value.id.Some? && m.selected.value.id.value != 0 && m.value != Some(0)
    then Some(Adjustment(m.selected.value.id.value, m.value))
    else None
  }

  /** A click on the enabled button sends either a non-zero number whose result is never
      negative, or the `null` of a cleared input, which the button lets through whenever the
      row's stock is non-negative. */
  lemma EnabledConfirmIsSafe(m: AdjustModal)
    requires ConfirmEnabled(m) && ConfirmAdjust(m).Some?
    ensures ConfirmAdjust(m).value.delta.Some? ==>
      ConfirmAdjust(m).value.delta.value != 0 && m.selected.value.quantity + ConfirmAdjust(m).value.delta.value >= 0
    ensures ConfirmAdjust(m).value.delta.None? ==> m.selected.value.quantity >= 0
  {
  }

  /** Clearing the input of an open modal on a row with a truthy id and non-negative stock
      leaves Confirm enabled, and a click sends a `null` delta. */
  lemma ClearedInputSendsNull(row: InventoryRow)
    requires row.id.Some? && row.id.value != 0 && row.quantity >= 0
    ensures var m := ModalStep(ModalStep(ClosedModal, Open(row)), Type(None));
      ConfirmEnabled(m) && ConfirmAdjust(m) == Some(Adjustment(row.id.value, None))
  {
  }

  datatype ModalEvent = Open(row: InventoryRow) | Close | Decrement | Increment | Type(v: Option<int>) | Confirmed

  /** The modal's transitions: opening and closing reset the delta to 0; the -/+ buttons (on
      which a `null` delta counts as 0) and the number input exist only while it is open; a
      confirmed adjustment closes it. */
  function ModalStep(m: AdjustModal, e: ModalEvent): (r: AdjustModal)
    ensures e.Open? ==> r == AdjustModal(true, Some(e.row), Some(0))
    ensures e.Close? || e.Confirmed? ==> r == ClosedModal
    ensures !m.show && !e.Open? ==> r == ClosedModal || r == m
    ensures m.show && e.Decrement? ==> r.value == Some(DeltaNumber(m.value) - 1) && r.selected == m.selected
    ensures m.show && e.Increment? ==> r.value == Some(DeltaNumber(m.value) + 1) && r.selected == m.selected
    ensures m.show && e.Type? ==> r.value == e.v && r.selected == m.selected
  {
    match e
    case Open(row) => AdjustModal(true, Some(row), Some(0))
    case Close => ClosedModal
    case Confirmed => ClosedModal
    case Decrement => if m.show then m.(value := Some(DeltaNumber(m.value) - 1)) else m
    case Increment => if m.show then m.(value := Some(DeltaNumber(m.value) + 1)) else m
    case Type(v) => if m.show then m.(value := v) else m
  }

  function ModalRun(m: AdjustModal, es: seq<ModalEvent>): AdjustModal
    decreases |es|
  {
    if |es| == 0 then m else ModalRun(ModalStep(m, es[0]), es[1..])
  }

  /** The modal is open exactly when a row is selected, and a closed modal holds a zero delta. */
  predicate ModalConsistent(m: AdjustModal)
  {
    (m.show <==> m.selected.Some?) && (!m.show ==> m.value == Some(0))
  }

  lemma {:induction false} ModalStaysConsistent(m: AdjustModal, es: seq<ModalEvent>)
    requires ModalConsistent(m)
    ensures ModalConsistent(ModalRun(m, es))
    decreases |es|
  {
    if |es| > 0 {
      ModalStaysConsistent(ModalStep(m, es[0]), es[1..]);
    }
  }
}

=== FILE: order_actions.dfy ===
/** The order-details view's decision tables: which status and payment changes
    it offers for an order, whether it offers cancellation, which panels it
    shows and which timeline steps it marks completed. The server decides what
    actually happens; this is only what the page puts in front of the user. */
module OrderActions {
  import opened Wrappers

  datatype Status = Pending | Confirmed | Processing | Shipped | Delivered | Cancelled | Refunded

  datatype PaymentStatus = PaymentPending | Paid | PaymentFailed | PaymentRefunded

  /** `statusOrder`: the fulfilment path. CANCELLED and REFUNDED are not on it. */
  const StatusOrder: seq<Status> := [Pending, Confirmed, Processing, Shipped, Delivered]

  /** `timelineSteps`: the fulfilment path followed by a CANCELLED step. */
  const TimelineSteps: seq<Status> := StatusOrder + [Cancelled]

  /** `statusOrder.indexOf(status || '')`: the position on the path, -1 for an absent
      status and for the two statuses off the path. */
  function IndexOf(s: Option<Status>): (r: int)
    ensures -1 <= r < |StatusOrder|
    ensures r >= 0 ==> s == Some(StatusOrder[r])
    ensures r == -1 <==> s.None? || s.value == Cancelled || s.value == Refunded
  {
    match s
    case None => -1
    case Some(Pending) => 0
    case Some(Confirmed) => 1
    case Some(Processing) => 2
    case Some(Shipped) => 3
    case Some(Delivered) => 4
    case Some(_) => -1
  }

  // ---------------------------------------------------------------- timeline

  /** `isStepCompleted(step)`: the step lies on the path strictly before the current status. */
  function IsStepCompleted(current: Option<Status>, step: Status): (r: bool)
    ensures r <==> exists i, j :: 0 <= i < j < |StatusOrder| && StatusOrder[i] == step && current == Some(StatusOrder[j])
  {
    var stepIndex := IndexOf(Some(step));
    var currentIndex := IndexOf(current);
    assert stepIndex >= 0 && stepIndex < currentIndex ==> StatusOrder[stepIndex] == step && current == Some(StatusOrder[currentIndex]);
    stepIndex >= 0 && stepIndex < currentIndex
  }

  /** The completed steps are exactly the prefix of the path before the current status;
      the current step itself is never completed, and nothing is completed for an order that
      is cancelled or refunded (the timeline then shows no progress at all). */
  lemma CompletedStepsArePrefix(current: Option<Status>)
    ensures forall step :: IsStepCompleted(current, step) <==> IndexOf(current) > 0 && step in StatusOrder[..IndexOf(current)]
    ensures current.Some? ==> !IsStepCompleted(current, current.value)
    ensures current == Some(Cancelled) || current == Some(Refunded) ==> forall step :: !IsStepCompleted(current, step)
  {
    forall step
      ensures IsStepCompleted(current, step) <==> IndexOf(current) > 0 && step in StatusOrder[..IndexOf(current)]
    {
      if IndexOf(current) > 0 && step in StatusOrder[..IndexOf(current)] {
        var i :| 0 <= i < IndexOf(current) && StatusOrder[..IndexOf(current)][i] == step;
        assert StatusOrder[i] == step;
      }
    }
  }

  // ---------------------------------------------------------------- status actions

  datatype StatusAction = StatusAction(target: Status, caption: string, cls: string)

  /** `getAvailableStatusActions`: the one next status on the path, a refund after delivery,
      nothing otherwise. */
  function StatusActions(current: Option<Status>): (r: seq<StatusAction>)
    ensures |r| <= 1
    ensures forall i :: 0 <= i < |StatusOrder| - 1 && current == Some(StatusOrder[i]) ==>
      |r| == 1 && r[0].target == StatusOrder[i + 1]
    ensures current == Some(Delivered) ==> |r| == 1 && r[0].target == Refunded
    ensures r == [] <==> current.None? || current == Some(Cancelled) || current == Some(Refunded)
  {
    match current
    case Some(Pending) => [StatusAction(Confirmed, "Confirmer", "confirm")]
    case Some(Confirmed) => [StatusAction(Processing, "En traitement", "process")]
    case Some(Processing) => [StatusAction(Shipped, "Expedier", "ship")]
    case Some(Shipped) => [StatusAction(Delivered, "Livree", "deliver")]
    case Some(Delivered) => [StatusAction(Refunded, "Rembourser", "refund")]
    case _ => []
  }

  /** Every offered status is later than the current one: the next step on the path,
      or REFUNDED from the end of the path. */
  lemma StatusActionsMoveForward(s: Status)
    ensures forall a :: a in StatusActions(Some(s)) ==>
      (IndexOf(Some(a.target)) == IndexOf(Some(s)) + 1 && IndexOf(Some(s)) >= 0)
      || (a.target == Refunded && s == Delivered)
  {
  }

  /** A walk through the details page clicking only offered status buttons. */
  predicate OfferedWalk(path: seq<Status>)
  {
    forall i :: 0 <= i < |path| - 1 ==> exists a :: a in StatusActions(Some(path[i])) && a.target == path[i + 1]
  }

  /** Starting from PENDING, the walk is forced along the path: after i clicks (i <= 4)
      the order is at the i-th status of the path, so DELIVERED comes after exactly four. */
  lemma {:induction false} WalkFollowsStatusOrder(path: seq<Status>, i: nat)
    requires OfferedWalk(path) && |path| > 0 && path[0] == Pending
    requires i < |path| && i < |StatusOrder|
    ensures path[i] == StatusOrder[i]
  {
    if i > 0 {
      WalkFollowsStatusOrder(path, i - 1);
      var a :| a in StatusActions(Some(path[i - 1])) && a.target == path[i];
      assert StatusActions(Some(StatusOrder[i - 1]))[0].target == StatusOrder[i];
    }
  }

  /** A walk from PENDING has at most six statuses: it ends at REFUNDED, where nothing is offered. */
  lemma WalkFromPendingEnds(path: seq<Status>)
    requires OfferedWalk(path) && |path| > 0 && path[0] == Pending
    ensures |path| <= 6
    ensures |path| == 6 ==> path[4] == Delivered && path[5] == Refunded
  {
    if |path| > 5 {
      WalkFollowsStatusOrder(path, 4);
      assert path[4] == Delivered;
      assert StatusActions(Some(Delivered))[0].target == Refunded;
      var a :| a in StatusActions(Some(path[4])) && a.target == path[5];
      assert path[5] == Refunded;
      assert StatusActions(Some(Refunded)) == [];
      if |path| > 6 {
        assert false;
      }
    }
  }

  /** `canCancel`: cancellation is offered exactly while the order has not shipped yet. */
  function CanCancel(current: Option<Status>): (r: bool)
    ensures r <==> 0 <= IndexOf(current) < 3
  {
    current == Some(Pending) || current == Some(Confirmed) || current == Some(Processing)
  }

  // ---------------------------------------------------------------- payment actions

  datatype PaymentAction = PaymentAction(target: PaymentStatus, caption: string, cls: string)

  /** `getAvailablePaymentActions`: a pending payment can be marked paid or failed; a paid
      one can be refunded once the order is delivered; nothing else is offered. */
  function PaymentActions(status: Option<Status>, payment: Option<PaymentStatus>): (r: seq<PaymentAction>)
    ensures payment == Some(PaymentPending) ==> |r| == 2 && r[0].target == Paid && r[1].target == PaymentFailed
    ensures payment == Some(Paid) ==> (r != [] <==> status == Some(Delivered))
    ensures payment == Some(Paid) && r != [] ==> |r| == 1 && r[0].target == PaymentRefunded
    ensures payment != Some(PaymentPending) && payment != Some(Paid) ==> r == []
  {
    (if payment == Some(PaymentPending)
     then [PaymentAction(Paid, "Marquer comme paye", "paid"), PaymentAction(PaymentFailed, "Paiement echoue", "failed")]
     else [])
    + (if payment == Some(Paid) && status == Some(Delivered)
       then [PaymentAction(PaymentRefunded, "Rembourser", "refund")]
       else [])
  }

  // ---------------------------------------------------------------- panels

  /** The "change status" panel is hidden for CANCELLED and REFUNDED orders. */
  predicate StatusPanelShown(current: Option<Status>)
  {
    current != Some(Cancelled) && current != Some(Refunded)
  }

  /** The payment panel is hidden once the payment is refunded. */
  predicate PaymentPanelShown(payment: Option<PaymentStatus>)
  {
    payment != Some(PaymentRefunded)
  }

  /** CANCELLED and REFUNDED are terminal on this page: no status change, no cancel,
      no status panel, no completed timeline step. */
  lemma TerminalStatuses(s: Status)
    requires s == Cancelled || s == Refunded
    ensures StatusActions(Some(s)) == [] && !CanCancel(Some(s)) && !StatusPanelShown(Some(s))
    ensures forall step :: !IsStepCompleted(Some(s), step)
  {
  }

  /** For a loaded order the status panel, when shown, always holds exactly one button. */
  lemma StatusPanelNeverEmpty(s: Status)
    ensures StatusPanelShown(Some(s)) <==> |StatusActions(Some(s))| == 1
  {
  }

  /** The payment panel can be shown with no button in it: for a failed payment, and for a
      paid one on an order that is not delivered. */
  lemma EmptyPaymentPanel(s: Status, p: PaymentStatus)
    ensures PaymentPanelShown(Some(p)) && PaymentActions(Some(s), Some(p)) == []
      <==> p == PaymentFailed || (p == Paid && s != Delivered)
  {
  }

  /** The two refunds are gated differently: the REFUNDED status is offered for every delivered
      order whatever its payment state, while the payment refund also needs the payment PAID. */
  lemma RefundGatesDiffer(p: PaymentStatus)
    ensures exists a :: a in StatusActions(Some(Delivered)) && a.target == Refunded
    ensures (exists a :: a in PaymentActions(Some(Delivered), Some(p)) && a.target == PaymentRefunded) <==> p == Paid
  {
    assert StatusActions(Some(Delivered))[0].target == Refunded;
    if p == Paid {
      assert PaymentActions(Some(Delivered), Some(p))[0].target == PaymentRefunded;
    }
  }
}

=== FILE: order_create.dfy ===
/** The order-creation wizard: a four-step form (customer, addresses, products,
    review) with a client-side cart, its running totals and the request that
    is finally sent. Every operation is a pure function from the old view
    state to the new one. */
module OrderCreate {
  import opened Wrappers
  import opened Seqs
  import opened Text
  import opened Catalog

  // ---------------------------------------------------------------- cart

  /** One cart line (`CartItem`): the product it refers to, the quantity and
      the unit price captured when it was added, and the line total. */
  datatype CartLine = CartLine(
    productId: int,
    productCode: string,
    productName: string,
    quantity: int,
    unitPrice: real,
    totalPrice: real)

  /** A line's total is its quantity times its unit price. */
  predicate Priced(l: CartLine)
  {
    l.totalPrice == l.quantity as real * l.unitPrice
  }

  predicate AllPriced(cart: seq<CartLine>)
  {
    forall k :: 0 <= k < |cart| ==> Priced(cart[k])
  }

  /** No product appears on two lines. */
  predicate UniqueIds(cart: seq<CartLine>)
  {
    forall i, j :: 0 <= i < j < |cart| ==> cart[i].productId != cart[j].productId
  }

  predicate InCart(cart: seq<CartLine>, id: int)
  {
    exists k :: 0 <= k < |cart| && cart[k].productId == id
  }

  /** `findIndex(item => item.productId === id)`: the first line for `id`, if any. */
  function FindLine(cart: seq<CartLine>, id: int): (r: Option<nat>)
    ensures r.Some? ==> r.value < |cart| && cart[r.value].productId == id
    ensures r.Some? ==> forall k :: 0 <= k < r.value ==> cart[k].productId != id
    ensures r.None? <==> !InCart(cart, id)
  {
    if |cart| == 0 then None
    else if cart[0].productId == id then Some(0)
    else match FindLine(cart[1..], id)
      case None =>
        assert forall k :: 1 <= k < |cart| ==> cart[k] == cart[1..][k - 1];
        None
      case Some(k) => Some(k + 1)
  }

  /** `productQuantities[id] || 1`: a quantity field left empty or at zero asks for one unit;
      any other number, negative ones included, is taken as typed. */
  function RequestedQuantity(quantities: map<int, int>, id: int): (q: int)
    ensures q != 0
    ensures id in quantities && quantities[id] != 0 ==> q == quantities[id]
  {
    if id in quantities && quantities[id] != 0 then quantities[id] else 1
  }

  /** The step-3 state: the cart and the per-product quantity inputs. */
  datatype Basket = Basket(cart: seq<CartLine>, quantities: map<int, int>)

  /** The line a product starts with when it is not in the cart yet. */
  function NewLine(p: Product, q: int): (l: CartLine)
    ensures Priced(l) && l.productId == p.id && l.quantity == q && l.unitPrice == p.basePrice
  {
    CartLine(p.id, p.code, p.name, q, p.basePrice, q as real * p.basePrice)
  }

  /** The line after `q` more units of its product were merged into it. */
  function Bump(l: CartLine, q: int): (r: CartLine)
    ensures Priced(r) && r.quantity == l.quantity + q
    ensures r.productId == l.productId && r.productCode == l.productCode
    ensures r.productName == l.productName && r.unitPrice == l.unitPrice
  {
    l.(quantity := l.quantity + q, totalPrice := (l.quantity + q) as real * l.unitPrice)
  }

  /** `addToCart`: merge the requested quantity into the product's line, or append a new
      line at the catalogue price; the quantity input is reset to one either way. */
  function AddToCart(b: Basket, p: Product): (r: Basket)
    ensures r.quantities == b.quantities[p.id := 1]
    ensures !InCart(b.cart, p.id) ==> r.cart == b.cart + [NewLine(p, RequestedQuantity(b.quantities, p.id))]
    ensures InCart(b.cart, p.id) ==>
      && |r.cart| == |b.cart|
      && (forall k :: 0 <= k < |b.cart| && b.cart[k].productId != p.id ==> r.cart[k] == b.cart[k])
      && var k := FindLine(b.cart, p.id).value;
         r.cart[k] == Bump(b.cart[k], RequestedQuantity(b.quantities, p.id))
  {
    var q := RequestedQuantity(b.quantities, p.id);
    var cart :=
      match FindLine(b.cart, p.id)
      case Some(k) => b.cart[k := Bump(b.cart[k], q)]
      case None => b.cart + [NewLine(p, q)];
    Basket(cart, b.quantities[p.id := 1])
  }

  /** Adding keeps one line per product and every line priced, and the cart's products
      become the old ones plus the added one. */
  lemma AddToCartKeepsInvariants(b: Basket, p: Product)
    ensures UniqueIds(b.cart) ==> UniqueIds(AddToCart(b, p).cart)
    ensures AllPriced(b.cart) ==> AllPriced(AddToCart(b, p).cart)
    ensures forall id :: InCart(AddToCart(b, p).cart, id) <==> InCart(b.cart, id) || id == p.id
  {
    var r := AddToCart(b, p).cart;
    assert forall k :: 0 <= k < |b.cart| ==> r[k].productId == b.cart[k].productId;
    forall id | InCart(b.cart, id) ensures InCart(r, id) {
      var k :| 0 <= k < |b.cart| && b.cart[k].productId == id;
      assert r[k].productId == id;
    }
    if FindLine(b.cart, p.id).None? {
      assert r[|b.cart|].productId == p.id;
    } else {
      assert r[FindLine(b.cart, p.id).value].productId == p.id;
    }
  }

  /** `updateQuantity`: every line of the item's product moves by `delta`, never below one. */
  function UpdateQuantity(cart: seq<CartLine>, id: int, delta: int): (r: seq<CartLine>)
    ensures |r| == |cart|
    ensures forall k :: 0 <= k < |cart| ==>
      if cart[k].productId == id then
        && r[k].quantity == Max(1, cart[k].quantity + delta)
        && r[k] == cart[k].(quantity := r[k].quantity, totalPrice := r[k].totalPrice)
        && Priced(r[k])
      else r[k] == cart[k]
    ensures forall k :: 0 <= k < |r| ==> r[k].productId == cart[k].productId
    ensures UniqueIds(cart) ==> UniqueIds(r)
    ensures AllPriced(cart) ==> AllPriced(r)
  {
    seq(|cart|, k requires 0 <= k < |cart| =>
      if cart[k].productId == id then
        var q := Max(1, cart[k].quantity + delta);
        cart[k].(quantity := q, totalPrice := q as real * cart[k].unitPrice)
      else cart[k])
  }

  function Max(a: int, b: int): int
  {
    if a >= b then a else b
  }

  /** The `filter` callback of `removeFromCart`: lines of other products stay. */
  function Keep(id: int): CartLine -> bool
  {
    (l: CartLine) => l.productId != id
  }

  /** `removeFromCart`: drop every line of the item's product, keeping the others in order. */
  function RemoveFromCart(cart: seq<CartLine>, id: int): (r: seq<CartLine>)
    ensures !InCart(r, id)
    ensures forall k :: 0 <= k < |cart| && cart[k].productId != id ==> cart[k] in r
    ensures forall k :: 0 <= k < |r| ==> r[k] in cart
    ensures IsSubseq(r, cart)
  {
    FilterFromInput(cart, Keep(id));
    Filter(cart, Keep(id))
  }

  /** Removing a product that is in the cart shortens it. */
  lemma RemoveFromCartShrinks(cart: seq<CartLine>, id: int)
    requires InCart(cart, id)
    ensures |RemoveFromCart(cart, id)| < |cart|
  {
    var k :| 0 <= k < |cart| && cart[k].productId == id;
    assert cart == cart[..k] + ([cart[k]] + cart[k + 1..]);
    FilterAppend(cart[..k], [cart[k]] + cart[k + 1..], Keep(id));
    FilterAppend([cart[k]], cart[k + 1..], Keep(id));
    assert Filter([cart[k]], Keep(id)) == [];
  }

  // ---------------------------------------------------------------- totals

  function LineTotal(l: CartLine): real
  {
    l.totalPrice
  }

  /** `subtotal`: the sum of the line totals. */
  function Subtotal(cart: seq<CartLine>): real
  {
    SumReal(cart, LineTotal)
  }

  /** `taxAmount`: 20% of subtotal plus shipping minus discount, with no rounding and no floor at zero. */
  function TaxAmount(subtotal: real, shipping: real, discount: real): (t: real)
    ensures 5.0 * t == subtotal + shipping - discount
  {
    (subtotal + shipping - discount) * 0.20
  }

  /** `grandTotal`: the taxable base plus the tax. */
  function GrandTotal(subtotal: real, shipping: real, discount: real): (g: real)
    ensures g == 1.2 * (subtotal + shipping - discount)
    ensures g - TaxAmount(subtotal, shipping, discount) == subtotal + shipping - discount
    ensures discount > subtotal + shipping ==> g < 0.0
  {
    subtotal + shipping - discount + TaxAmount(subtotal, shipping, discount)
  }

  /** Adding a product already in the cart raises the subtotal by the requested quantity at the
      price captured on its line, not at the current catalogue price. */
  lemma AddToCartSubtotalMerged(b: Basket, p: Product)
    requires AllPriced(b.cart) && InCart(b.cart, p.id)
    ensures Subtotal(AddToCart(b, p).cart)
      == Subtotal(b.cart) + RequestedQuantity(b.quantities, p.id) as real * b.cart[FindLine(b.cart, p.id).value].unitPrice
  {
    var k := FindLine(b.cart, p.id).value;
    BumpSubtotal(b.cart, k, RequestedQuantity(b.quantities, p.id));
  }

  /** A product not yet in the cart adds its requested quantity at the catalogue price. */
  lemma AddToCartSubtotalAppended(b: Basket, p: Product)
    requires !InCart(b.cart, p.id)
    ensures Subtotal(AddToCart(b, p).cart) == Subtotal(b.cart) + RequestedQuantity(b.quantities, p.id) as real * p.basePrice
  {
    SumRealAppend(b.cart, [NewLine(p, RequestedQuantity(b.quantities, p.id))], LineTotal);
  }

  lemma BumpSubtotal(cart: seq<CartLine>, k: nat, q: int)
    requires k < |cart| && Priced(cart[k])
    ensures Subtotal(cart[k := Bump(cart[k], q)]) == Subtotal(cart) + q as real * cart[k].unitPrice
  {
    var l := cart[k];
    SumRealUpdate(cart, k, Bump(l, q), LineTotal);
    Distribute(l.quantity as real, q as real, l.unitPrice);
  }

  lemma Distribute(a: real, b: real, c: real)
    ensures (a + b) * c == a * c + b * c
  {
  }

  /** Removing a product lowers the subtotal by exactly its line's total. */
  lemma RemoveFromCartSubtotal(cart: seq<CartLine>, k: nat)
    requires UniqueIds(cart) && k < |cart|
    ensures Subtotal(RemoveFromCart(cart, cart[k].productId)) == Subtotal(cart) - cart[k].totalPrice
  {
    var id := cart[k].productId;
    var keep := Keep(id);
    assert cart == cart[..k] + ([cart[k]] + cart[k + 1..]);
    FilterAppend(cart[..k], [cart[k]] + cart[k + 1..], keep);
    FilterAppend([cart[k]], cart[k + 1..], keep);
    assert Filter([cart[k]], keep) == [];
    FilterAll(cart[..k], keep);
    FilterAll(cart[k + 1..], keep);
    assert RemoveFromCart(cart, id) == cart[..k] + cart[k + 1..];
    SumRealAppend(cart[..k], [cart[k]] + cart[k + 1..], LineTotal);
    SumRealAppend([cart[k]], cart[k + 1..], LineTotal);
    SumRealAppend(cart[..k], cart[k + 1..], LineTotal);
  }

  // ---------------------------------------------------------------- product picker

  /** The picker shows a product when it is ACTIVE and the search is empty or hits its name or code. */
  predicate Offered(p: Product, search: string)
  {
    p.status == Active && (search == [] || FieldHit(p.name, search) || FieldHit(p.code, search))
  }

  /** `filteredProducts`: the ACTIVE products, then those the search hits; order is kept. */
  function FilteredProducts(products: seq<Product>, search: string): (r: seq<Product>)
    ensures forall k :: 0 <= k < |r| ==> r[k] in products && Offered(r[k], search)
    ensures forall k :: 0 <= k < |products| && Offered(products[k], search) ==> products[k] in r
    ensures IsSubseq(r, products)
  {
    var active := (p: Product) => p.status == Active;
    var hit := (p: Product) => search == [] || FieldHit(p.name, search) || FieldHit(p.code, search);
    var offered := (p: Product) => Offered(p, search);
    FilterFilter(products, active, hit, offered);
    FilterFromInput(products, offered);
    Filter(Filter(products, active), hit)
  }

  // ---------------------------------------------------------------- wizard

  /** The inputs of steps 1, 2 and 4. */
  datatype CustomerForm = CustomerForm(
    name: string,
    email: string,
    phone: string,
    shippingAddress: string,
    billingAddress: string,
    sameAddress: bool,
    shippingCost: real,
    discountAmount: real,
    notes: string)

  /** The wizard position and whether field errors are shown. */
  datatype Wizard = Wizard(step: int, submitted: bool)

  const InitialWizard := Wizard(1, false)

  /** What `nextStep` demands before leaving a step; step 4 demands nothing. */
  predicate StepComplete(step: int, f: CustomerForm, cart: seq<CartLine>)
  {
    && (step == 1 ==> f.name != [] && IsValidEmail(f.email))
    && (step == 2 ==> f.shippingAddress != [])
    && (step == 3 ==> |cart| > 0)
  }

  /** `nextStep`: advance (capped at 4) and hide errors when the current step is complete;
      otherwise stay and show the errors. */
  function NextStep(w: Wizard, f: CustomerForm, cart: seq<CartLine>): (r: Wizard)
    ensures r.submitted <==> !StepComplete(w.step, f, cart)
    ensures r.submitted ==> r.step == w.step
    ensures !r.submitted && w.step < 4 ==> r.step == w.step + 1
    ensures 1 <= w.step <= 4 ==> 1 <= r.step <= 4
  {
    if StepComplete(w.step, f, cart) then Wizard(if w.step + 1 < 4 then w.step + 1 else 4, false)
    else w.(submitted := true)
  }

  /** `previousStep`: go back one step, never before step 1. */
  function PreviousStep(w: Wizard): (r: Wizard)
    ensures 1 <= w.step <= 4 ==> 1 <= r.step <= 4
    ensures w.step > 1 ==> r.step == w.step - 1
    ensures r.submitted == w.submitted
  {
    w.(step := if w.step - 1 > 1 then w.step - 1 else 1)
  }

  /** A user action on the wizard, with the form and cart as they stand at that moment. */
  datatype WizardEvent = Next(form: CustomerForm, cart: seq<CartLine>) | Back

  function WizardStep(w: Wizard, e: WizardEvent): Wizard
  {
    match e
    case Next(f, c) => NextStep(w, f, c)
    case Back => PreviousStep(w)
  }

  function WizardRun(w: Wizard, es: seq<WizardEvent>): Wizard
    decreases |es|
  {
    if |es| == 0 then w else WizardRun(WizardStep(w, es[0]), es[1..])
  }

  /** Whatever the user clicks, the wizard stays on one of its four steps. */
  lemma {:induction false} WizardStaysInSteps(w: Wizard, es: seq<WizardEvent>)
    requires 1 <= w.step <= 4
    ensures 1 <= WizardRun(w, es).step <= 4
    decreases |es|
  {
    if |es| > 0 {
      WizardStaysInSteps(WizardStep(w, es[0]), es[1..]);
    }
  }

  /** Reaching the review step from the start took a Next click on step 3 with a non-empty cart. */
  lemma {:induction false} ReviewNeedsNonEmptyCart(w: Wizard, es: seq<WizardEvent>)
    requires 1 <= w.step <= 3
    requires WizardRun(w, es).step == 4
    ensures exists i :: 0 <= i < |es| && es[i].Next? && |es[i].cart| > 0
    decreases |es|
  {
    if |es| == 0 {
      assert false;
    }
    var w' := WizardStep(w, es[0]);
    if w'.step == 4 {
      assert es[0].Next? && w.step == 3 && StepComplete(3, es[0].form, es[0].cart);
    } else {
      assert 1 <= w'.step <= 3 by {
        WizardStaysInSteps(w, es[..1]);
        assert WizardRun(w, es[..1]) == WizardRun(w', []);
      }
      ReviewNeedsNonEmptyCart(w', es[1..]);
      var i :| 0 <= i < |es[1..]| && es[1..][i].Next? && |es[1..][i].cart| > 0;
      assert es[i + 1] == es[1..][i];
    }
  }

  // ---------------------------------------------------------------- request

  datatype ItemRequest = ItemRequest(productId: int, quantity: int, unitPrice: real)

  /** `OrderCreateDTO` as it is sent: totals are not part of it. */
  datatype OrderRequest = OrderRequest(
    customerName: string,
    customerEmail: string,
    customerPhone: Option<string>,
    shippingAddress: string,
    billingAddress: string,
    shippingCost: real,
    discountAmount: real,
    notes: Option<string>,
    items: seq<ItemRequest>)

  /** `submitOrder`'s mapping: one item per cart line, billing copied from shipping when the
      addresses are the same, empty phone and notes sent as absent. */
  function BuildOrderRequest(f: CustomerForm, cart: seq<CartLine>): (r: OrderRequest)
    ensures |r.items| == |cart|
    ensures forall k :: 0 <= k < |cart| ==>
      r.items[k].productId == cart[k].productId && r.items[k].quantity == cart[k].quantity
      && r.items[k].unitPrice == cart[k].unitPrice
    ensures UniqueIds(cart) ==> forall i, j :: 0 <= i < j < |r.items| ==> r.items[i].productId != r.items[j].productId
    ensures r.billingAddress == (if f.sameAddress then f.shippingAddress else f.billingAddress)
    ensures r.customerPhone.None? <==> f.phone == []
    ensures r.customerPhone.Some? ==> r.customerPhone.value == f.phone
    ensures r.notes.None? <==> f.notes == []
    ensures r.notes.Some? ==> r.notes.value == f.notes
    ensures r.customerName == f.name && r.customerEmail == f.email && r.shippingAddress == f.shippingAddress
    ensures r.shippingCost == f.shippingCost && r.discountAmount == f.discountAmount
  {
    OrderRequest(
      f.name, f.email,
      if f.phone == [] then None else Some(f.phone),
      f.shippingAddress,
      if f.sameAddress then f.shippingAddress else f.billingAddress,
      f.shippingCost, f.discountAmount,
      if f.notes == [] then None else Some(f.notes),
      seq(|cart|, k requires 0 <= k < |cart| => ItemRequest(cart[k].productId, cart[k].quantity, cart[k].unitPrice)))
  }

  /** The server can recompute the displayed subtotal from the request alone. */
  function RequestSubtotal(items: seq<ItemRequest>): real
  {
    SumReal(items, (i: ItemRequest) => i.quantity as real * i.unitPrice)
  }

  lemma {:induction false} RequestCarriesSubtotal(f: CustomerForm, cart: seq<CartLine>)
    requires AllPriced(cart)
    ensures RequestSubtotal(BuildOrderRequest(f, cart).items) == Subtotal(cart)
    decreases |cart|
  {
    if |cart| > 0 {
      var c := cart[..|cart| - 1];
      RequestCarriesSubtotal(f, c);
      var items := BuildOrderRequest(f, cart).items;
      assert items[..|items| - 1] == BuildOrderRequest(f, c).items;
      assert Priced(cart[|cart| - 1]);
    }
  }
}

=== FILE: order_edit.dfy ===
/** The order edit page: the form is prefilled from the loaded order, and a
    submit sends the update only when the required fields are valid and the
    order's id is known. */
module OrderEdit {
  import opened Wrappers
  import opened Text

  /** The loaded order (`OrderDTO`) as far as the form reads it; every field may be missing.
      Status and items are part of the order but never of the form. */
  datatype LoadedOrder = LoadedOrder(
    id: Option<int>,
    customerName: Option<string>,
    customerEmail: Option<string>,
    customerPhone: Option<string>,
    shippingAddress: Option<string>,
    billingAddress: Option<string>,
    shippingCost: Option<real>,
    discountAmount: Option<real>,
    notes: Option<string>,
    itemCount: nat)

  /** `formData` (`OrderUpdateDTO`): the only fields an edit can change. */
  datatype OrderUpdate = OrderUpdate(
    customerName: string,
    customerEmail: string,
    customerPhone: string,
    shippingAddress: string,
    billingAddress: string,
    shippingCost: real,
    discountAmount: real,
    notes: string)

  /** The form before an order is loaded. */
  const EmptyForm := OrderUpdate([], [], [], [], [], 0.0, 0.0, [])

  /** `x || ''` on an optional text. */
  function TextOrEmpty(x: Option<string>): (r: string)
    ensures x.Some? ==> r == x.value
    ensures x.None? ==> r == []
  {
    if x.Some? then x.value else []
  }

  /** `loadOrder`'s prefill: every missing text becomes '' and every missing amount 0. */
  function Prefill(o: LoadedOrder): (f: OrderUpdate)
    ensures f.customerName == TextOrEmpty(o.customerName) && f.customerEmail == TextOrEmpty(o.customerEmail)
    ensures f.customerPhone == TextOrEmpty(o.customerPhone) && f.notes == TextOrEmpty(o.notes)
    ensures f.shippingAddress == TextOrEmpty(o.shippingAddress) && f.billingAddress == TextOrEmpty(o.billingAddress)
    ensures f.shippingCost == o.shippingCost.GetOr(0.0) && f.discountAmount == o.discountAmount.GetOr(0.0)
  {
    OrderUpdate(
      TextOrEmpty(o.customerName), TextOrEmpty(o.customerEmail), TextOrEmpty(o.customerPhone),
      TextOrEmpty(o.shippingAddress), TextOrEmpty(o.billingAddress),
      o.shippingCost.GetOr(0.0), o.discountAmount.GetOr(0.0), TextOrEmpty(o.notes))
  }

  /** An order with nothing filled in prefills the same form as the page starts with. */
  lemma EmptyOrderPrefillsEmptyForm(id: Option<int>, items: nat)
    ensures Prefill(LoadedOrder(id, None, None, None, None, None, None, None, None, items)) == EmptyForm
  {
  }

  /** The submit gate: a name, a valid e-mail and a shipping address. */
  predicate FormValid(f: OrderUpdate)
  {
    f.customerName != [] && IsValidOptionalEmail(Some(f.customerEmail)) && f.shippingAddress != []
  }

  /** The page flags and the request a submit sends, if any. */
  datatype EditState = EditState(submitted: bool, saving: bool)

  datatype UpdateRequest = UpdateRequest(orderId: int, body: OrderUpdate)

  /** `onSubmit`: always shows field errors; with a valid form it turns on the saving spinner,
      and it sends the form as is when the loaded order has a truthy id. */
  function OnSubmit(s: EditState, f: OrderUpdate, orderId: Option<int>): (r: (EditState, Option<UpdateRequest>))
    ensures r.0.submitted
    ensures r.1.Some? <==> FormValid(f) && orderId.Some? && orderId.value != 0
    ensures r.1.Some? ==> r.1.value == UpdateRequest(orderId.value, f)
    ensures FormValid(f) ==> r.0.saving
    ensures !FormValid(f) ==> r.0.saving == s.saving
  {
    if !FormValid(f) then (s.(submitted := true), None)
    else if orderId.Some? && orderId.value != 0 then (EditState(true, true), Some(UpdateRequest(orderId.value, f)))
    else (EditState(true, true), None)
  }

  /** An invalid form never reaches the server: an empty name, an e-mail outside the
      pattern, or an empty shipping address each block the request on their own. */
  lemma InvalidFieldBlocksUpdate(s: EditState, f: OrderUpdate, orderId: Option<int>)
    requires f.customerName == [] || !EmailPattern(f.customerEmail) || f.shippingAddress == []
    ensures OnSubmit(s, f, orderId).1.None?
  {
    OptionalEmailAgrees(Some(f.customerEmail));
  }

  /** A valid form for an order whose id is unknown turns the spinner on and sends nothing,
      and nothing turns the spinner off again. */
  lemma UnknownIdLeavesSpinnerOn(s: EditState, f: OrderUpdate)
    requires FormValid(f)
    ensures OnSubmit(s, f, None) == (EditState(true, true), None)
    ensures OnSubmit(s, f, Some(0)) == (EditState(true, true), None)
  {
  }
}

=== FILE: order_list.dfy ===
/** The order list: search and status/payment filters over the loaded orders,
    client-side pagination, and the per-row cancel button. */
module OrderList {
  import opened Wrappers
  import opened Seqs
  import opened Text
  import opened Paging
  import opened OrderActions

  /** `OrderSummaryDTO`, reduced to the fields the list filters on. */
  datatype OrderSummary = OrderSummary(
    id: Option<int>,
    orderNumber: Option<string>,
    customerName: Option<string>,
    customerEmail: Option<string>,
    status: Option<Status>,
    paymentStatus: Option<PaymentStatus>)

  /** The filter bar: a search text (empty means no search) and two optional selects. */
  datatype OrderFilters = OrderFilters(search: string, status: Option<Status>, payment: Option<PaymentStatus>)

  const NoFilters := OrderFilters([], None, None)

  /** The search hits the order number, the customer name or the e-mail, ignoring case. */
  predicate MatchesSearch(o: OrderSummary, term: string)
  {
    OptFieldHit(o.orderNumber, term) || OptFieldHit(o.customerName, term) || OptFieldHit(o.customerEmail, term)
  }

  function SearchOk(term: string): OrderSummary -> bool
  {
    (o: OrderSummary) => term == [] || MatchesSearch(o, term)
  }

  function StatusOk(st: Option<Status>): OrderSummary -> bool
  {
    (o: OrderSummary) => st.None? || o.status == st
  }

  function PaymentOk(pm: Option<PaymentStatus>): OrderSummary -> bool
  {
    (o: OrderSummary) => pm.None? || o.paymentStatus == pm
  }

  /** An order passes the filter bar when it passes every active criterion. */
  predicate Passes(o: OrderSummary, f: OrderFilters)
  {
    SearchOk(f.search)(o) && StatusOk(f.status)(o) && PaymentOk(f.payment)(o)
  }

  function PassesFn(f: OrderFilters): OrderSummary -> bool
  {
    (o: OrderSummary) => Passes(o, f)
  }

  /** `filteredOrders`: the search filter (only when there is a search text), then the
      status filter, then the payment filter (each only when selected). */
  function FilteredOrders(orders: seq<OrderSummary>, f: OrderFilters): (r: seq<OrderSummary>)
    ensures r == Filter(orders, PassesFn(f))
  {
    var r1 := if f.search == [] then orders else Filter(orders, SearchOk(f.search));
    var r2 := if f.status.None? then r1 else Filter(r1, StatusOk(f.status));
    var r3 := if f.payment.None? then r2 else Filter(r2, PaymentOk(f.payment));
    var both := (o: OrderSummary) => SearchOk(f.search)(o) && StatusOk(f.status)(o);
    assert r1 == Filter(orders, SearchOk(f.search)) by {
      if f.search == [] { FilterAll(orders, SearchOk(f.search)); }
    }
    assert r2 == Filter(r1, StatusOk(f.status)) by {
      if f.status.None? { FilterAll(r1, StatusOk(f.status)); }
    }
    assert r3 == Filter(r2, PaymentOk(f.payment)) by {
      if f.payment.None? { FilterAll(r2, PaymentOk(f.payment)); }
    }
    FilterFilter(orders, SearchOk(f.search), StatusOk(f.status), both);
    FilterFilter(orders, both, PaymentOk(f.payment), PassesFn(f));
    r3
  }

  /** The listed orders are loaded orders, in their loaded order, and they are exactly
      those that pass every active criterion. */
  lemma FilteredOrdersExact(orders: seq<OrderSummary>, f: OrderFilters)
    ensures forall k :: 0 <= k < |FilteredOrders(orders, f)| ==>
      FilteredOrders(orders, f)[k] in orders && Passes(FilteredOrders(orders, f)[k], f)
    ensures forall k :: 0 <= k < |orders| && Passes(orders[k], f) ==> orders[k] in FilteredOrders(orders, f)
    ensures IsSubseq(FilteredOrders(orders, f), orders)
  {
    var r := FilteredOrders(orders, f);
    FilterFromInput(orders, PassesFn(f));
    assert forall k :: 0 <= k < |r| ==> PassesFn(f)(r[k]);
    assert forall k :: 0 <= k < |orders| && Passes(orders[k], f) ==> PassesFn(f)(orders[k]);
  }

  /** With no search and no selection every loaded order is listed. */
  lemma NoFiltersListAll(orders: seq<OrderSummary>)
    ensures FilteredOrders(orders, NoFilters) == orders
  {
    FilterAll(orders, PassesFn(NoFilters));
  }

  // ---------------------------------------------------------------- pagination

  /** The list's view state: the filter bar, the current page and the page-size select. */
  datatype OrderListState = OrderListState(filters: OrderFilters, page: int, pageSize: PageSizeValue)

  /** `totalPages`: `Math.ceil(filtered / pageSize) || 1` (division coerces the size to a number). */
  function OrderPages(orders: seq<OrderSummary>, s: OrderListState): (r: nat)
    requires SizeNumber(s.pageSize) > 0
    ensures r >= 1
    ensures |FilteredOrders(orders, s.filters)| == 0 ==> r == 1
    ensures |FilteredOrders(orders, s.filters)| > 0 ==>
      (r - 1) * SizeNumber(s.pageSize) < |FilteredOrders(orders, s.filters)| <= r * SizeNumber(s.pageSize)
    ensures forall k :: 0 <= k < |FilteredOrders(orders, s.filters)| ==>
      (k / SizeNumber(s.pageSize)) + 1 <= r
  {
    var n := |FilteredOrders(orders, s.filters)|;
    var size := SizeNumber(s.pageSize);
    forall k | 0 <= k < n ensures k / size + 1 <= TotalPages(n, size) {
      var rows := FilteredOrders(orders, s.filters);
      RowOnItsPage(rows, size, k);
    }
    TotalPages(n, size)
  }

  /** `paginatedOrders` with the size read as a number: at most one page of the filtered orders,
      starting at `startIndex`. */
  function PaginatedOrders(orders: seq<OrderSummary>, s: OrderListState): (r: seq<OrderSummary>)
    requires s.page >= 1
    ensures |r| <= SizeNumber(s.pageSize)
    ensures |r| == Max(0, Min(SizeNumber(s.pageSize), |FilteredOrders(orders, s.filters)| - StartIndex(s.page, SizeNumber(s.pageSize))))
    ensures forall k :: 0 <= k < |r| ==>
      StartIndex(s.page, SizeNumber(s.pageSize)) + k < |FilteredOrders(orders, s.filters)| &&
      r[k] == FilteredOrders(orders, s.filters)[StartIndex(s.page, SizeNumber(s.pageSize)) + k]
  {
    var rows := FilteredOrders(orders, s.filters);
    PageSliceOf(rows, s.page, s.pageSize)
  }

  /** A user action on the list. */
  datatype ListEvent =
    | Search(term: string)                                  // typing in the search box
    | FilterChange(status: Option<Status>, payment: Option<PaymentStatus>)
    | PageSizeChange(size: PageSizeValue)
    | GoToPageEvent(target: int)                            // page buttons and the arrows

  /** `onSearch` / `onFilterChange` / `onPageSizeChange` reset to page 1;
      `goToPage` accepts only an existing page. */
  function Apply(orders: seq<OrderSummary>, s: OrderListState, e: ListEvent): (r: OrderListState)
    requires SizeNumber(s.pageSize) > 0
    requires e.PageSizeChange? ==> SizeNumber(e.size) > 0
    ensures !e.GoToPageEvent? ==> r.page == 1
    ensures e.GoToPageEvent? ==> r.filters == s.filters && r.pageSize == s.pageSize
    ensures e.GoToPageEvent? && 1 <= e.target <= OrderPages(orders, s) ==> r.page == e.target
    ensures e.GoToPageEvent? && !(1 <= e.target <= OrderPages(orders, s)) ==> r.page == s.page
  {
    match e
    case Search(t) => s.(filters := s.filters.(search := t), page := 1)
    case FilterChange(st, pm) => s.(filters := s.filters.(status := st, payment := pm), page := 1)
    case PageSizeChange(v) => s.(pageSize := v, page := 1)
    case GoToPageEvent(t) => s.(page := GoToPage(s.page, t, OrderPages(orders, s)))
  }

  predicate SizesPositive(es: seq<ListEvent>)
  {
    forall k :: 0 <= k < |es| ==> es[k].PageSizeChange? ==> SizeNumber(es[k].size) > 0
  }

  function ApplyAll(orders: seq<OrderSummary>, s: OrderListState, es: seq<ListEvent>): (r: OrderListState)
    requires SizeNumber(s.pageSize) > 0 && SizesPositive(es)
    ensures SizeNumber(r.pageSize) > 0
    decreases |es|
  {
    if |es| == 0 then s
    else
      assert SizesPositive(es[1..]) by {
        forall k | 0 <= k < |es[1..]| ensures es[1..][k].PageSizeChange? ==> SizeNumber(es[1..][k].size) > 0 {
          assert es[1..][k] == es[k + 1];
        }
      }
      ApplyAll(orders, Apply(orders, s, es[0]), es[1..])
  }

  /** While the loaded orders stay the same, the current page always exists: every action
      either resets it to 1 or checks it against the page count. */
  lemma {:induction false} CurrentPageAlwaysExists(orders: seq<OrderSummary>, s: OrderListState, es: seq<ListEvent>)
    requires SizeNumber(s.pageSize) > 0 && SizesPositive(es)
    requires 1 <= s.page <= OrderPages(orders, s)
    ensures 1 <= ApplyAll(orders, s, es).page <= OrderPages(orders, ApplyAll(orders, s, es))
    decreases |es|
  {
    if |es| > 0 {
      var s' := Apply(orders, s, es[0]);
      assert SizesPositive(es[1..]) by {
        forall k | 0 <= k < |es[1..]| ensures es[1..][k].PageSizeChange? ==> SizeNumber(es[1..][k].size) > 0 {
          assert es[1..][k] == es[k + 1];
        }
      }
      CurrentPageAlwaysExists(orders, s', es[1..]);
    }
  }

  // ---------------------------------------------------------------- reloads and row actions

  /** What `onFilterChange` asks the server for besides resetting the page. */
  datatype Reload = LoadByStatus(status: Status) | LoadAll | NoReload

  /** `onFilterChange`: a status without a search text reloads that status from the server;
      no status and no search reloads everything; a search text keeps the loaded orders. */
  function FilterChangeReload(f: OrderFilters): (r: Reload)
    ensures f.search != [] ==> r == NoReload
    ensures r.LoadByStatus? <==> f.search == [] && f.status.Some?
    ensures r.LoadByStatus? ==> Some(r.status) == f.status
    ensures r == LoadAll <==> f.search == [] && f.status.None?
  {
    if f.status.Some? && f.search == [] then LoadByStatus(f.status.value)
    else if f.status.None? && f.search == [] then LoadAll
    else NoReload
  }

  /** The row's cancel button: shown for PENDING and CONFIRMED orders only. */
  function RowCancelOffered(status: Option<Status>): (r: bool)
    ensures r <==> 0 <= IndexOf(status) < 2
  {
    status == Some(Pending) || status == Some(Confirmed)
  }

  /** The list offers cancel for strictly fewer orders than the details page: a PROCESSING
      order can be cancelled from its page but not from its row. */
  lemma RowCancelStricterThanDetails(status: Option<Status>)
    ensures RowCancelOffered(status) ==> CanCancel(status)
    ensures CanCancel(status) && !RowCancelOffered(status) <==> status == Some(Processing)
  {
  }

  /** `confirmCancel` sends a cancel only for a selected order with a truthy (non-zero) id. */
  function ConfirmCancelTarget(selected: Option<OrderSummary>): (r: Option<int>)
    ensures r.Some? <==> selected.Some? && selected.value.id.Some? && selected.value.id.value != 0
    ensures r.Some? ==> r.value == selected.value.id.value
  {
    if selected.Some? && selected.value.id.Some? && selected.value.id.value != 0
    then Some(selected.value.id.value)
    else None
  }
}

=== FILE: paging.dfy ===
/** Client-side pagination, shared by the order, inventory, movement, supplier
    and category lists: page count, page slice, the "window of 5" page buttons,
    and range-checked navigation. Page numbers are 1-based. */
module Paging {

  function Min(a: int, b: int): int { if a <= b then a else b }
  function Max(a: int, b: int): int { if a >= b then a else b }

  /** `Math.ceil(n / pageSize) || 1`: the number of pages, at least one. */
  function TotalPages(n: nat, pageSize: nat): (r: nat)
    requires pageSize > 0
    ensures r >= 1
    ensures n == 0 ==> r == 1
    ensures n > 0 ==> (r - 1) * pageSize < n <= r * pageSize
  {
    if n == 0 then 1
    else
      var q := (n + pageSize - 1) / pageSize;
      var m := (n + pageSize - 1) % pageSize;
      assert n + pageSize - 1 == q * pageSize + m;
      assert q * pageSize - pageSize == (q - 1) * pageSize;
      q
  }

  lemma MulLeft(a: int, b: int, c: nat)
    requires a <= b
    ensures a * c <= b * c
  {
  }

  /** `(currentPage - 1) * pageSize`: the index of the first row of the page. */
  function StartIndex(page: int, pageSize: nat): (r: int)
    ensures page >= 1 ==> r >= 0
  {
    if page >= 1 then MulLeft(0, page - 1, pageSize); (page - 1) * pageSize
    else (page - 1) * pageSize
  }

  /** `Math.min(startIndex + pageSize, n)`: one past the last row shown. */
  function EndIndex(page: int, pageSize: nat, n: nat): int
  {
    Min(StartIndex(page, pageSize) + pageSize, n)
  }

  /** `rows.slice(start, start + pageSize)`: the rows of one page. */
  function PageSlice<T>(rows: seq<T>, page: int, pageSize: nat): (r: seq<T>)
    requires page >= 1
    ensures |r| <= pageSize
    ensures StartIndex(page, pageSize) <= |rows| ==> |r| == EndIndex(page, pageSize, |rows|) - StartIndex(page, pageSize)
    ensures StartIndex(page, pageSize) >= |rows| ==> r == []
    ensures |r| == Max(0, Min(pageSize, |rows| - StartIndex(page, pageSize)))
    ensures forall k :: 0 <= k < |r| ==> StartIndex(page, pageSize) + k < |rows| && r[k] == rows[StartIndex(page, pageSize) + k]
  {
    var start := StartIndex(page, pageSize);
    assert start >= 0;
    var s := Min(start, |rows|);
    var e := Min(start + pageSize, |rows|);
    rows[s..e]
  }

  /** Every row lies on page `i / pageSize + 1`, which exists, at offset `i % pageSize`. */
  lemma RowOnItsPage<T>(rows: seq<T>, pageSize: nat, i: nat)
    requires pageSize > 0 && i < |rows|
    ensures 1 <= i / pageSize + 1 <= TotalPages(|rows|, pageSize)
    ensures i % pageSize < |PageSlice(rows, i / pageSize + 1, pageSize)|
    ensures PageSlice(rows, i / pageSize + 1, pageSize)[i % pageSize] == rows[i]
  {
    var q := i / pageSize;
    var t := TotalPages(|rows|, pageSize);
    assert i == q * pageSize + i % pageSize;
    assert StartIndex(q + 1, pageSize) == q * pageSize;
    assert q < t by {
      if t <= q {
        MulLeft(t, q, pageSize);
      }
    }
  }

  /** On an existing page the shown range lies inside the list, and it is non-empty
      whenever the list is. */
  lemma PageRangeInBounds(n: nat, pageSize: nat, page: int)
    requires pageSize > 0 && 1 <= page <= TotalPages(n, pageSize)
    ensures 0 <= StartIndex(page, pageSize) <= EndIndex(page, pageSize, n) <= n
    ensures n > 0 ==> StartIndex(page, pageSize) < EndIndex(page, pageSize, n)
  {
    var t := TotalPages(n, pageSize);
    MulLeft(0, page - 1, pageSize);
    if n > 0 {
      MulLeft(page - 1, t - 1, pageSize);
    }
  }

  /** The pages 1..k laid end to end. */
  function FirstPages<T>(rows: seq<T>, pageSize: nat, k: nat): seq<T>
  {
    if k == 0 then [] else FirstPages(rows, pageSize, k - 1) + PageSlice(rows, k, pageSize)
  }

  lemma {:induction false} FirstPagesArePrefix<T>(rows: seq<T>, pageSize: nat, k: nat)
    ensures FirstPages(rows, pageSize, k) == rows[..Min(k * pageSize, |rows|)]
  {
    if k > 0 {
      FirstPagesArePrefix(rows, pageSize, k - 1);
      assert (k - 1) * pageSize == k * pageSize - pageSize;
      assert StartIndex(k, pageSize) == (k - 1) * pageSize;
    }
  }

  /** Showing pages 1..totalPages one after another shows every row once, in order. */
  lemma PagesCoverRows<T>(rows: seq<T>, pageSize: nat)
    requires pageSize > 0
    ensures FirstPages(rows, pageSize, TotalPages(|rows|, pageSize)) == rows
  {
    var t := TotalPages(|rows|, pageSize);
    FirstPagesArePrefix(rows, pageSize, t);
    assert t * pageSize >= |rows|;
  }

  /** The run of integers lo..hi (empty when hi < lo). */
  function Range(lo: int, hi: int): (r: seq<int>)
    ensures |r| == Max(0, hi - lo + 1)
    ensures forall k :: 0 <= k < |r| ==> r[k] == lo + k
  {
    seq(Max(0, hi - lo + 1), k requires 0 <= k => lo + k)
  }

  /** `visiblePages`: at most five consecutive page numbers around the current page. */
  function WindowPages(total: int, current: int): (r: seq<int>)
    ensures total >= 1 && current >= 1 ==> |r| == Min(total, 5)
    ensures total >= 1 && current >= 1 ==> forall k :: 0 <= k < |r| ==> 1 <= r[k] <= total
    ensures forall k :: 0 < k < |r| ==> r[k] == r[k - 1] + 1
    ensures 1 <= current <= total ==> current in r
  {
    var start0 := Max(1, current - 2);
    var end := Min(total, start0 + 4);
    var start := if end - start0 < 4 then Max(1, end - 4) else start0;
    var r := Range(start, end);
    assert 1 <= current <= total ==> r[current - start] == current;
    r
  }

  /** `goToPage(page)`: the target is taken only when it is a page that exists. */
  function GoToPage(current: int, target: int, total: int): (r: int)
    ensures 1 <= target <= total ==> r == target
    ensures !(1 <= target <= total) ==> r == current
  {
    if 1 <= target <= total then target else current
  }

  /** `previousPage()`: one page back, never below page 1. */
  function PreviousPage(current: int): (r: int)
    ensures current > 1 ==> r == current - 1
    ensures current <= 1 ==> r == current
  {
    if current > 1 then current - 1 else current
  }

  /** `nextPage()`: one page forward, never beyond the last page. */
  function NextPage(current: int, total: int): (r: int)
    ensures current < total ==> r == current + 1
    ensures current >= total ==> r == current
  {
    if current < total then current + 1 else current
  }

  /** After a deletion shrinks the list, a page beyond the end moves to the last page. */
  function ClampAfterDelete(current: int, total: int): (r: int)
    ensures current > total ==> r == Max(1, total)
    ensures current <= total ==> r == current
  {
    if current > total then Max(1, total) else current
  }

  /** The navigation operations of the list views. */
  datatype NavEvent =
    | GoTo(target: int)
    | Previous
    | Next
    | First
    | Last
    | ResetToFirst      // search, filter or page-size change
    | DeleteClamp
    | ReloadTotal(newTotal: nat)

  datatype PageState = PageState(current: int, total: nat)

  function Step(s: PageState, e: NavEvent): PageState
  {
    match e
    case GoTo(t) => s.(current := GoToPage(s.current, t, s.total))
    case Previous => s.(current := PreviousPage(s.current))
    case Next => s.(current := NextPage(s.current, s.total))
    case First => s.(current := 1)
    case Last => s.(current := s.total)
    case ResetToFirst => s.(current := 1)
    case DeleteClamp => s.(current := ClampAfterDelete(s.current, s.total))
    case ReloadTotal(t) => s.(total := Max(1, t))
  }

  function Run(s: PageState, es: seq<NavEvent>): PageState
    decreases |es|
  {
    if |es| == 0 then s else Run(Step(s, es[0]), es[1..])
  }

  /** The current page is always a valid page number (>= 1), whatever the user clicks;
      while the list does not shrink it also stays within the page count. */
  lemma {:induction false} NavigationKeepsPageValid(s: PageState, es: seq<NavEvent>)
    requires s.current >= 1 && s.total >= 1
    ensures Run(s, es).current >= 1 && Run(s, es).total >= 1
    ensures (forall k :: 0 <= k < |es| ==> !es[k].ReloadTotal?) && s.current <= s.total ==> Run(s, es).current <= Run(s, es).total
    decreases |es|
  {
    if |es| > 0 {
      var s' := Step(s, es[0]);
      assert s'.current >= 1 && s'.total >= 1;
      assert !es[0].ReloadTotal? && s.current <= s.total ==> s'.current <= s'.total;
      NavigationKeepsPageValid(s', es[1..]);
      assert forall k :: 0 <= k < |es[1..]| ==> es[1..][k] == es[k + 1];
    }
  }

  // ------------------------------------------------------------------------
  // Page size bound through `<select [(ngModel)]="pageSize">` with `[value]`
  // options: after the user picks a size the field holds the option's TEXT,
  // so `start + this.pageSize` concatenates instead of adding.

  /** A page size as JavaScript holds it: the initial number, or the option's decimal text. */
  datatype PageSizeValue = Number(n: nat) | DigitString(n: nat)

  function Pow10(k: nat): (r: nat)
    ensures r >= 1
  {
    if k == 0 then 1 else 10 * Pow10(k - 1)
  }

  /** The number of decimal digits of `n` (one for 0). */
  function DecimalDigits(n: nat): (d: nat)
    ensures d >= 1
    ensures n < Pow10(d)
    decreases n
  {
    if n < 10 then 1 else 1 + DecimalDigits(n / 10)
  }

  /** The numeric value of the size in `*`, `/` and `Math.ceil`, which coerce text to numbers. */
  function SizeNumber(v: PageSizeValue): nat
  {
    v.n
  }

  /** `start + this.pageSize` read back as a number by `slice` / `Math.min`:
      a sum for a number, the digits of `start` followed by the size's digits for text. */
  function PlusPageSizeAsWritten(start: nat, v: PageSizeValue): (r: nat)
    ensures v.Number? ==> r == start + v.n
    ensures v.DigitString? ==> r == start * Pow10(DecimalDigits(v.n)) + v.n
  {
    match v
    case Number(n) => start + n
    case DigitString(n) => start * Pow10(DecimalDigits(n)) + n
  }

  /** `paginatedOrders` / `paginatedCategories` as written: the end of the slice is `start + pageSize`. */
  function PageSliceAsWritten<T>(rows: seq<T>, page: int, v: PageSizeValue): (r: seq<T>)
    requires page >= 1
    ensures StartIndex(page, SizeNumber(v)) >= |rows| ==> r == []
    ensures forall k :: 0 <= k < |r| ==> StartIndex(page, SizeNumber(v)) + k < |rows| && r[k] == rows[StartIndex(page, SizeNumber(v)) + k]
  {
    var start := StartIndex(page, SizeNumber(v));
    assert start >= 0;
    var e := PlusPageSizeAsWritten(start, v);
    var s := Min(start, |rows|);
    rows[s..Max(s, Min(e, |rows|))]
  }

  /** `endIndex` as written: `Math.min(startIndex + pageSize, n)` with the same concatenation. */
  function EndIndexAsWritten(page: int, v: PageSizeValue, n: nat): (r: int)
    requires page >= 1
    ensures v.Number? ==> r == EndIndex(page, v.n, n)
  {
    Min(PlusPageSizeAsWritten(StartIndex(page, SizeNumber(v)) as nat, v), n)
  }

  /** On any page after the first, a text page size lets the slice run past the page:
      every remaining row up to start * 10^digits + size is shown. */
  lemma TextPageSizeOverflowsPage<T>(rows: seq<T>, page: int, size: nat)
    requires page >= 2 && size >= 1
    requires |rows| > StartIndex(page, size) + size
    ensures |PageSliceAsWritten(rows, page, DigitString(size))| > size
  {
    var start := StartIndex(page, size);
    MulLeft(1, page - 1, size);
    assert start >= size;
    var d := DecimalDigits(size);
    var p := Pow10(d);
    assert p >= 10 by {
      assert p == 10 * Pow10(d - 1);
    }
    MulLeft(10, p, start);
    assert PlusPageSizeAsWritten(start, DigitString(size)) > start + size;
  }

  /** The concrete case: 50 orders, page size picked as "20", page 2 shows 30 rows instead of 20. */
  lemma SecondPageOfFiftyShowsThirty(rows: seq<int>)
    requires |rows| == 50
    ensures |PageSliceAsWritten(rows, 2, DigitString(20))| == 30
    ensures |PageSlice(rows, 2, SizeNumber(DigitString(20)))| == 20
    ensures EndIndexAsWritten(2, DigitString(20), 50) == 50
  {
    assert DecimalDigits(20) == 2 by {
      assert DecimalDigits(2) == 1;
    }
    assert PlusPageSizeAsWritten(20, DigitString(20)) == 2020;
  }

  /** The intended slice: the size coerced to a number first (as the lists that use
      `parseInt(select.value, 10)` do), so a page never holds more than the page size. */
  function PageSliceOf<T>(rows: seq<T>, page: int, v: PageSizeValue): (r: seq<T>)
    requires page >= 1
    ensures |r| <= SizeNumber(v)
    ensures forall k :: 0 <= k < |r| ==> StartIndex(page, SizeNumber(v)) + k < |rows| && r[k] == rows[StartIndex(page, SizeNumber(v)) + k]
    ensures StartIndex(page, SizeNumber(v)) <= |rows| ==> |r| == EndIndex(page, SizeNumber(v), |rows|) - StartIndex(page, SizeNumber(v))
    ensures |r| == Max(0, Min(SizeNumber(v), |rows| - StartIndex(page, SizeNumber(v))))
  {
    PageSlice(rows, page, SizeNumber(v))
  }

  /** With a numeric size the as-written slice and the intended one coincide. */
  lemma NumericSizeSlicesAgree<T>(rows: seq<T>, page: int, n: nat)
    requires page >= 1
    ensures PageSliceAsWritten(rows, page, Number(n)) == PageSliceOf(rows, page, Number(n))
  {
  }
}

=== FILE: role_directives.dfy ===
/** The structural directives that show their content only to some users:
    `*appHasRole` (any of the given roles), `*appIsAdmin` and
    `*appIsAuthenticated`. Each keeps a visibility flag and creates or clears
    its embedded view only when the flag has to change. */
module RoleDirectives {
  import opened Wrappers
  import opened Auth

  /** The flag plus how many embedded views have been created and cleared so far. */
  datatype ViewState = ViewState(visible: bool, created: nat, cleared: nat)

  const Hidden := ViewState(false, 0, 0)

  /** Exactly one view exists while the content is visible, none while it is hidden. */
  predicate Consistent(v: ViewState)
  {
    v.created == v.cleared + (if v.visible then 1 else 0)
  }

  /** `updateView` with the predicate's current answer: create on false -> true, clear on
      true -> false, nothing otherwise. */
  function UpdateView(v: ViewState, shown: bool): (r: ViewState)
    ensures r.visible == shown
    ensures Consistent(v) ==> Consistent(r)
    ensures r.created >= v.created && r.cleared >= v.cleared
    ensures r.created + r.cleared <= v.created + v.cleared + 1
    ensures v.visible == shown ==> r == v
  {
    if shown && !v.visible then v.(visible := true, created := v.created + 1)
    else if !shown && v.visible then v.(visible := false, cleared := v.cleared + 1)
    else v
  }

  /** Running `updateView` twice with the same answer is the same as running it once. */
  lemma UpdateViewIdempotent(v: ViewState, shown: bool)
    ensures UpdateView(UpdateView(v, shown), shown) == UpdateView(v, shown)
  {
  }

  /** A run of updates, one per notification. */
  function UpdateAll(v: ViewState, answers: seq<bool>): ViewState
    decreases |answers|
  {
    if |answers| == 0 then v else UpdateAll(UpdateView(v, answers[0]), answers[1..])
  }

  /** Whatever the notifications, at most one view exists at any time, and after the last one
      the content is shown exactly when the last answer said so. */
  lemma {:induction false} AtMostOneView(v: ViewState, answers: seq<bool>)
    requires Consistent(v)
    ensures Consistent(UpdateAll(v, answers))
    ensures UpdateAll(v, answers).created - UpdateAll(v, answers).cleared in {0, 1}
    ensures |answers| > 0 ==> UpdateAll(v, answers).visible == answers[|answers| - 1]
    ensures |answers| == 0 ==> UpdateAll(v, answers) == v
    decreases |answers|
  {
    if |answers| > 0 {
      AtMostOneView(UpdateView(v, answers[0]), answers[1..]);
      if |answers| > 1 {
        assert answers[1..][|answers[1..]| - 1] == answers[|answers| - 1];
      }
    }
  }

  // ---------------------------------------------------------------- *appHasRole

  /** The directive's input: one role or a list of roles. */
  datatype RoleInput = OneRole(role: string) | RoleList(roles: seq<string>)

  /** The input setter's normalisation: a single role becomes a one-element list. */
  function NormalizeRoles(input: RoleInput): (r: seq<string>)
    ensures input.OneRole? ==> r == [input.role]
    ensures input.RoleList? ==> r == input.roles
  {
    match input
    case OneRole(role) => [role]
    case RoleList(roles) => roles
  }

  /** A single role and the list holding only it are the same requirement. */
  lemma OneRoleIsOneElementList(user: Option<User>, role: string)
    ensures HasAnyRole(user, NormalizeRoles(OneRole(role))) == HasAnyRole(user, NormalizeRoles(RoleList([role])))
    ensures HasAnyRole(user, NormalizeRoles(OneRole(role))) == HasRole(user, role)
  {
  }

  /** `*appHasRole`'s state: the normalised roles (none before the first input) and the view. */
  datatype HasRoleState = HasRoleState(roles: seq<string>, view: ViewState)

  const HasRoleInitial := HasRoleState([], Hidden)

  /** What re-runs `updateView`: a new input, or a user notification from the service. */
  datatype HasRoleEvent = SetRoles(input: RoleInput) | UserChanged(user: Option<User>)

  /** Each event re-evaluates `hasAnyRole` for the user current after it. */
  function HasRoleStep(s: HasRoleState, user: Option<User>, e: HasRoleEvent): (r: (HasRoleState, Option<User>))
    ensures e.SetRoles? ==> r.0.roles == NormalizeRoles(e.input) && r.1 == user
    ensures e.UserChanged? ==> r.0.roles == s.roles && r.1 == e.user
    ensures r.0.view.visible == HasAnyRole(r.1, r.0.roles)
    ensures Consistent(s.view) ==> Consistent(r.0.view)
  {
    match e
    case SetRoles(input) =>
      var roles := NormalizeRoles(input);
      (HasRoleState(roles, UpdateView(s.view, HasAnyRole(user, roles))), user)
    case UserChanged(u) =>
      (s.(view := UpdateView(s.view, HasAnyRole(u, s.roles))), u)
  }

  /** Before any input the role list is empty, so no user sees the content. */
  lemma HiddenBeforeInput(user: Option<User>)
    ensures HasRoleStep(HasRoleInitial, user, UserChanged(user)).0.view == Hidden
  {
  }

  // ---------------------------------------------------------------- *appIsAdmin, *appIsAuthenticated

  /** `ngOnInit` of `*appIsAdmin` and `*appIsAuthenticated`: subscribing delivers the current
      user at once (one `updateView`), and then `updateView` runs again explicitly. */
  function InitView(shown: bool): (r: ViewState)
    ensures r.visible == shown && Consistent(r)
    ensures r.created <= 1 && r.cleared == 0
  {
    UpdateView(UpdateView(Hidden, shown), shown)
  }

  /** `*appIsAdmin` after initialisation: visible exactly for admins, with a single view. */
  function AdminView(user: Option<User>): (r: ViewState)
    ensures r.visible <==> IsAdmin(user)
    ensures r.created == (if IsAdmin(user) then 1 else 0)
  {
    UpdateViewIdempotent(Hidden, IsAdmin(user));
    InitView(IsAdmin(user))
  }

  /** `*appIsAuthenticated` after initialisation: visible exactly while logged in. */
  function AuthenticatedView(s: Session, decoded: Decoded, nowMs: int): (r: ViewState)
    ensures r.visible <==> IsLoggedIn(s, decoded, nowMs)
    ensures r.created == (if IsLoggedIn(s, decoded, nowMs) then 1 else 0)
  {
    UpdateViewIdempotent(Hidden, IsLoggedIn(s, decoded, nowMs));
    InitView(IsLoggedIn(s, decoded, nowMs))
  }
}

=== FILE: seqs.dfy ===
/** Sequence helpers shared by every list view: order-preserving filtering
    (`Array.prototype.filter`), counting (`filter(...).length`) and summing
    (`reduce((sum, x) => sum + x, 0)`). */
module Seqs {

  /** `a` can be obtained from `b` by deleting elements, without reordering. */
  predicate IsSubseq<T(==)>(a: seq<T>, b: seq<T>)
    decreases |b|
  {
    if |a| == 0 then true
    else if |b| == 0 then false
    else if a[0] == b[0] then IsSubseq(a[1..], b[1..])
    else IsSubseq(a, b[1..])
  }

  /** The elements of `s` that satisfy `p`, in their original order. */
  function Filter<T(==)>(s: seq<T>, p: T -> bool): (r: seq<T>)
    ensures |r| <= |s|
    ensures forall i :: 0 <= i < |r| ==> p(r[i])
    ensures forall i :: 0 <= i < |s| && p(s[i]) ==> s[i] in r
    ensures IsSubseq(r, s)
  {
    if |s| == 0 then []
    else if p(s[0]) then
      var rest := Filter(s[1..], p);
      assert ([s[0]] + rest)[1..] == rest;
      [s[0]] + rest
    else
      var rest := Filter(s[1..], p);
      assert |rest| > 0 ==> p(rest[0]) && rest[0] != s[0];
      rest
  }

  /** Every kept element comes from the input. */
  lemma {:induction false} FilterFromInput<T>(s: seq<T>, p: T -> bool)
    ensures forall i :: 0 <= i < |Filter(s, p)| ==> Filter(s, p)[i] in s
  {
    if |s| > 0 {
      FilterFromInput(s[1..], p);
      var rest := Filter(s[1..], p);
      assert forall i :: 0 <= i < |rest| ==> rest[i] in s;
      if p(s[0]) {
        assert Filter(s, p) == [s[0]] + rest;
        assert forall i :: 1 <= i < |Filter(s, p)| ==> Filter(s, p)[i] == rest[i - 1];
      }
    }
  }

  /** The number of elements of `s` satisfying `p`. */
  function Count<T(==)>(s: seq<T>, p: T -> bool): nat
  {
    |Filter(s, p)|
  }

  /** Left-to-right sum of `f` over `s`, as `reduce((sum, x) => sum + f(x), 0)`. */
  function SumBy<T>(s: seq<T>, f: T -> int): int
  {
    if |s| == 0 then 0 else SumBy(s[..|s| - 1], f) + f(s[|s| - 1])
  }

  /** Real-valued counterpart of `SumBy`, used for money. */
  function SumReal<T>(s: seq<T>, f: T -> real): real
  {
    if |s| == 0 then 0.0 else SumReal(s[..|s| - 1], f) + f(s[|s| - 1])
  }

  /** Exactly one of four conditions holds. */
  predicate ExactlyOne(a: bool, b: bool, c: bool, d: bool)
  {
    if a then !b && !c && !d
    else if b then !c && !d
    else if c then !d
    else d
  }

  lemma {:induction false} CountCons<T>(x: T, s: seq<T>, p: T -> bool)
    ensures Count([x] + s, p) == Count(s, p) + (if p(x) then 1 else 0)
  {
    assert ([x] + s)[1..] == s;
  }

  /** An element-wise partition into four classes splits the length into four counts. */
  lemma {:induction false} CountPartition4<T>(s: seq<T>, p: T -> bool, q: T -> bool, r: T -> bool, t: T -> bool)
    requires forall i :: 0 <= i < |s| ==> ExactlyOne(p(s[i]), q(s[i]), r(s[i]), t(s[i]))
    ensures Count(s, p) + Count(s, q) + Count(s, r) + Count(s, t) == |s|
  {
    if |s| > 0 {
      CountPartition4(s[1..], p, q, r, t);
      assert [s[0]] + s[1..] == s;
      CountCons(s[0], s[1..], p);
      CountCons(s[0], s[1..], q);
      CountCons(s[0], s[1..], r);
      CountCons(s[0], s[1..], t);
    }
  }

  /** A predicate and its complement split the length into two counts. */
  lemma {:induction false} CountComplement<T>(s: seq<T>, p: T -> bool, q: T -> bool)
    requires forall i :: 0 <= i < |s| ==> q(s[i]) == !p(s[i])
    ensures Count(s, p) + Count(s, q) == |s|
  {
    if |s| > 0 {
      CountComplement(s[1..], p, q);
      assert [s[0]] + s[1..] == s;
      CountCons(s[0], s[1..], p);
      CountCons(s[0], s[1..], q);
    }
  }

  /** A count is zero exactly when no element satisfies the predicate. */
  lemma CountZero<T>(s: seq<T>, p: T -> bool)
    ensures Count(s, p) == 0 <==> forall i :: 0 <= i < |s| ==> !p(s[i])
  {
    var f := Filter(s, p);
    if Count(s, p) != 0 {
      FilterFromInput(s, p);
      assert p(f[0]) && f[0] in s;
    }
  }

  /** Filtering with a predicate that every element satisfies changes nothing. */
  lemma {:induction false} FilterAll<T>(s: seq<T>, p: T -> bool)
    requires forall i :: 0 <= i < |s| ==> p(s[i])
    ensures Filter(s, p) == s
  {
    if |s| > 0 {
      FilterAll(s[1..], p);
      assert [s[0]] + s[1..] == s;
    }
  }

  /** Two successive filters are one filter by the conjunction. */
  lemma {:induction false} FilterFilter<T>(s: seq<T>, p: T -> bool, q: T -> bool, pq: T -> bool)
    requires forall x :: pq(x) == (p(x) && q(x))
    ensures Filter(Filter(s, p), q) == Filter(s, pq)
  {
    if |s| > 0 {
      FilterFilter(s[1..], p, q, pq);
      if p(s[0]) {
        assert ([s[0]] + Filter(s[1..], p))[1..] == Filter(s[1..], p);
      }
    }
  }

  /** Filters by pointwise-equal predicates agree. */
  lemma {:induction false} FilterSame<T>(s: seq<T>, p: T -> bool, q: T -> bool)
    requires forall x :: p(x) == q(x)
    ensures Filter(s, p) == Filter(s, q)
  {
    if |s| > 0 {
      FilterSame(s[1..], p, q);
    }
  }

  lemma {:induction false} SumByAppend<T>(a: seq<T>, b: seq<T>, f: T -> int)
    ensures SumBy(a + b, f) == SumBy(a, f) + SumBy(b, f)
    decreases |b|
  {
    if |b| > 0 {
      assert (a + b)[..|a + b| - 1] == a + b[..|b| - 1];
      SumByAppend(a, b[..|b| - 1], f);
    } else {
      assert a + b == a;
    }
  }

  lemma {:induction false} SumRealAppend<T>(a: seq<T>, b: seq<T>, f: T -> real)
    ensures SumReal(a + b, f) == SumReal(a, f) + SumReal(b, f)
    decreases |b|
  {
    if |b| > 0 {
      assert (a + b)[..|a + b| - 1] == a + b[..|b| - 1];
      SumRealAppend(a, b[..|b| - 1], f);
    } else {
      assert a + b == a;
    }
  }

  /** Filtering distributes over concatenation. */
  lemma {:induction false} FilterAppend<T>(a: seq<T>, b: seq<T>, p: T -> bool)
    ensures Filter(a + b, p) == Filter(a, p) + Filter(b, p)
  {
    if |a| > 0 {
      assert (a + b)[1..] == a[1..] + b;
      FilterAppend(a[1..], b, p);
    } else {
      assert a + b == b;
    }
  }

  /** Appending one element to the input appends it to the output exactly when it passes. */
  lemma FilterSnoc<T>(s: seq<T>, x: T, p: T -> bool)
    ensures Filter(s + [x], p) == Filter(s, p) + (if p(x) then [x] else [])
  {
    FilterAppend(s, [x], p);
    assert Filter([x], p) == (if p(x) then [x] else []) by {
      assert [x][1..] == [];
    }
  }

  /** Appending one element raises the count by one exactly when it passes. */
  lemma CountSnoc<T>(s: seq<T>, x: T, p: T -> bool)
    ensures Count(s + [x], p) == Count(s, p) + (if p(x) then 1 else 0)
  {
    FilterSnoc(s, x, p);
  }

  /** Replacing one element changes the sum by the difference of the two terms. */
  lemma SumRealUpdate<T>(s: seq<T>, k: nat, x: T, f: T -> real)
    requires k < |s|
    ensures SumReal(s[k := x], f) == SumReal(s, f) - f(s[k]) + f(x)
  {
    assert s == s[..k] + [s[k]] + s[k + 1..];
    assert s[k := x] == s[..k] + [x] + s[k + 1..];
    SumRealAppend(s[..k] + [s[k]], s[k + 1..], f);
    SumRealAppend(s[..k] + [x], s[k + 1..], f);
    SumRealAppend(s[..k], [s[k]], f);
    SumRealAppend(s[..k], [x], f);
  }

  /** Summing from the front: the first term plus the sum of the rest. */
  lemma SumByCons<T>(s: seq<T>, f: T -> int)
    requires |s| > 0
    ensures SumBy(s, f) == f(s[0]) + SumBy(s[1..], f)
  {
    assert s == [s[0]] + s[1..];
    SumByAppend([s[0]], s[1..], f);
  }

  /** Dropping non-negative terms never increases a sum. */
  lemma {:induction false} SumByFilterAtMost<T>(s: seq<T>, p: T -> bool, f: T -> int)
    requires forall i :: 0 <= i < |s| ==> f(s[i]) >= 0
    ensures SumBy(Filter(s, p), f) <= SumBy(s, f)
  {
    if |s| > 0 {
      SumByFilterAtMost(s[1..], p, f);
      SumByCons(s, f);
      if p(s[0]) {
        SumByCons(Filter(s, p), f);
        assert Filter(s, p)[1..] == Filter(s[1..], p);
      }
    }
  }

  /** A predicate and its complement split a sum into the sums over the two filtered lists. */
  lemma {:induction false} SumByComplement<T>(s: seq<T>, p: T -> bool, q: T -> bool, f: T -> int)
    requires forall i :: 0 <= i < |s| ==> q(s[i]) == !p(s[i])
    ensures SumBy(Filter(s, p), f) + SumBy(Filter(s, q), f) == SumBy(s, f)
  {
    if |s| > 0 {
      SumByComplement(s[1..], p, q, f);
      SumByCons(s, f);
      if p(s[0]) {
        SumByCons(Filter(s, p), f);
        assert Filter(s, p)[1..] == Filter(s[1..], p);
      } else {
        SumByCons(Filter(s, q), f);
        assert Filter(s, q)[1..] == Filter(s[1..], q);
      }
    }
  }

  /** A sum of non-negative terms is non-negative. */
  lemma {:induction false} SumByNonNegative<T>(s: seq<T>, f: T -> int)
    requires forall i :: 0 <= i < |s| ==> f(s[i]) >= 0
    ensures SumBy(s, f) >= 0
  {
    if |s| > 0 {
      SumByNonNegative(s[..|s| - 1], f);
    }
  }
}

=== FILE: stock_levels.dfy ===
/** Stock-level classification of inventory rows. The inventory list calls a
    quantity "low" up to and including 10, the warehouse views only below 10;
    both are instances of one classification with the top of the low band as
    a parameter. */
module StockLevels {
  import opened Wrappers
  import opened Seqs

  /** `InventoryDTO`: one product's stock in one warehouse. */
  datatype InventoryRow = InventoryRow(
    id: Option<int>,
    productId: int,
    productCode: Option<string>,
    productName: Option<string>,
    warehouseId: Option<int>,
    quantity: int)

  /** The inventory list's low band is 1..10 (`quantity > 0 && quantity <= 10`). */
  const InventoryListLowMax: int := 10

  /** The warehouse views' low band is 1..9 (`quantity > 0 && quantity < 10`). */
  const WarehouseLowMax: int := 9

  datatype Level = Out | Low | Normal

  predicate IsOut(q: int) { q == 0 }
  predicate IsLow(q: int, lowMax: int) { 0 < q <= lowMax }
  predicate IsNormal(q: int, lowMax: int) { q > lowMax }

  /** The level of a quantity; a negative quantity is in no band at all. */
  function LevelOf(q: int, lowMax: nat): (r: Option<Level>)
    ensures r == Some(Out) <==> IsOut(q)
    ensures r == Some(Low) <==> IsLow(q, lowMax)
    ensures r == Some(Normal) <==> IsNormal(q, lowMax)
    ensures r.None? <==> q < 0
  {
    if q < 0 then None
    else if q == 0 then Some(Out)
    else if q <= lowMax then Some(Low)
    else Some(Normal)
  }

  /** The three bands are disjoint and together cover every non-negative quantity. */
  lemma BandsPartition(q: int, lowMax: nat)
    ensures q >= 0 ==> ExactlyOne(IsOut(q), IsLow(q, lowMax), IsNormal(q, lowMax), false)
    ensures q < 0 ==> !IsOut(q) && !IsLow(q, lowMax) && !IsNormal(q, lowMax)
  {
  }

  /** The two views disagree on exactly one quantity: 10 is low in the inventory list
      and in stock in the warehouse views. */
  lemma ThresholdsDisagreeOnlyAtTen(q: int)
    ensures LevelOf(q, InventoryListLowMax) != LevelOf(q, WarehouseLowMax) <==> q == 10
  {
  }

  // ---------------------------------------------------------------- row predicates and aggregates

  function Qty(r: InventoryRow): int { r.quantity }

  function OutRow(): InventoryRow -> bool
  {
    (r: InventoryRow) => IsOut(r.quantity)
  }

  function LowRow(lowMax: int): InventoryRow -> bool
  {
    (r: InventoryRow) => IsLow(r.quantity, lowMax)
  }

  function NormalRow(lowMax: int): InventoryRow -> bool
  {
    (r: InventoryRow) => IsNormal(r.quantity, lowMax)
  }

  function NegativeRow(): InventoryRow -> bool
  {
    (r: InventoryRow) => r.quantity < 0
  }

  predicate NonNegative(rows: seq<InventoryRow>)
  {
    forall k :: 0 <= k < |rows| ==> rows[k].quantity >= 0
  }

  /** `reduce((sum, i) => sum + i.quantity, 0)`. */
  function TotalQuantity(rows: seq<InventoryRow>): (r: int)
    ensures NonNegative(rows) ==> r >= 0
  {
    if NonNegative(rows) then SumByNonNegative(rows, Qty); SumBy(rows, Qty)
    else SumBy(rows, Qty)
  }

  /** The out, low and in-stock counts, plus the rows with a negative quantity that no
      counter sees, add up to the number of rows; without negative rows the three counters
      alone do. */
  lemma LevelCountsCoverRows(rows: seq<InventoryRow>, lowMax: nat)
    ensures Count(rows, OutRow()) + Count(rows, LowRow(lowMax)) + Count(rows, NormalRow(lowMax)) + Count(rows, NegativeRow()) == |rows|
    ensures NonNegative(rows) ==> Count(rows, OutRow()) + Count(rows, LowRow(lowMax)) + Count(rows, NormalRow(lowMax)) == |rows|
  {
    forall k | 0 <= k < |rows|
      ensures ExactlyOne(OutRow()(rows[k]), LowRow(lowMax)(rows[k]), NormalRow(lowMax)(rows[k]), NegativeRow()(rows[k]))
    {
    }
    CountPartition4(rows, OutRow(), LowRow(lowMax), NormalRow(lowMax), NegativeRow());
    CountZero(rows, NegativeRow());
  }

  /** Filtering never raises the total of non-negative quantities. */
  lemma FilteredTotalAtMost(rows: seq<InventoryRow>, p: InventoryRow -> bool)
    requires NonNegative(rows)
    ensures TotalQuantity(Filter(rows, p)) <= TotalQuantity(rows)
  {
    SumByFilterAtMost(rows, p, Qty);
  }

  /** The rows a filter keeps and the rows it drops hold the whole stock between them. */
  lemma KeptPlusDroppedTotal(rows: seq<InventoryRow>, keep: InventoryRow -> bool, drop: InventoryRow -> bool)
    requires forall k :: 0 <= k < |rows| ==> drop(rows[k]) == !keep(rows[k])
    ensures TotalQuantity(Filter(rows, keep)) + TotalQuantity(Filter(rows, drop)) == TotalQuantity(rows)
  {
    SumByComplement(rows, keep, drop, Qty);
  }

  /** Totals add up over concatenated lists. */
  lemma TotalQuantityAppend(a: seq<InventoryRow>, b: seq<InventoryRow>)
    ensures TotalQuantity(a + b) == TotalQuantity(a) + TotalQuantity(b)
  {
    SumByAppend(a, b, Qty);
  }
}

=== FILE: stock_movements.dfy ===
/** The stock-movement list: movement types and their direction, the search
    filter, in/out counts, pagination, and the "new movement" form. */
module StockMovements {
  import opened Wrappers
  import opened Seqs
  import opened Text
  import opened Paging

  datatype MovementType = In | Out | Purchase | Sale | Return | Damage | TransferIn | TransferOut | Adjustment

  /** The wire name of each type. */
  function TypeName(t: MovementType): string
  {
    match t
    case In => "IN"
    case Out => "OUT"
    case Purchase => "PURCHASE"
    case Sale => "SALE"
    case Return => "RETURN"
    case Damage => "DAMAGE"
    case TransferIn => "TRANSFER_IN"
    case TransferOut => "TRANSFER_OUT"
    case Adjustment => "ADJUSTMENT"
  }

  /** The type a wire name denotes, if any. */
  function ParseType(s: string): (r: Option<MovementType>)
    ensures r.Some? ==> TypeName(r.value) == s
  {
    if s == "IN" then Some(In)
    else if s == "OUT" then Some(Out)
    else if s == "PURCHASE" then Some(Purchase)
    else if s == "SALE" then Some(Sale)
    else if s == "RETURN" then Some(Return)
    else if s == "DAMAGE" then Some(Damage)
    else if s == "TRANSFER_IN" then Some(TransferIn)
    else if s == "TRANSFER_OUT" then Some(TransferOut)
    else if s == "ADJUSTMENT" then Some(Adjustment)
    else None
  }

  /** Names and parsing are inverse: every type's name parses back to it, and a string parses
      exactly when it is some type's name. */
  lemma TypeNamesRoundTrip(t: MovementType, s: string)
    ensures ParseType(TypeName(t)) == Some(t)
    ensures ParseType(s).None? <==> forall u: MovementType :: TypeName(u) != s
  {
  }

  /** `isInMovement`: IN, PURCHASE, RETURN and TRANSFER_IN bring stock in. */
  predicate IsInMovement(typ: string)
  {
    typ in ["IN", "PURCHASE", "RETURN", "TRANSFER_IN"]
  }

  /** The direction by type: the four incoming types, and nothing else. */
  lemma InMovementsByType(t: MovementType)
    ensures IsInMovement(TypeName(t)) <==> t == In || t == Purchase || t == Return || t == TransferIn
  {
  }

  /** The quantity column: '+' and class 'in' for incoming movements, '-' and 'out' otherwise,
      so an ADJUSTMENT always shows as an outgoing quantity whatever its sign on the server. */
  function SignOf(typ: string): (r: string)
    ensures r == "+" <==> IsInMovement(typ)
    ensures r == "+" || r == "-"
  {
    if IsInMovement(typ) then "+" else "-"
  }

  lemma AdjustmentShowsMinus()
    ensures SignOf(TypeName(Adjustment)) == "-"
  {
  }

  /** `getTypeClass`: a class per type, shared 'transfer' for both transfers, '' when unknown. */
  function TypeClass(typ: string): (c: string)
    ensures ParseType(typ).None? ==> c == []
    ensures ParseType(typ).Some? ==> c != []
    ensures c == "transfer" <==> typ == "TRANSFER_IN" || typ == "TRANSFER_OUT"
  {
    match ParseType(typ)
    case None => []
    case Some(In) => "in"
    case Some(Out) => "out"
    case Some(Purchase) => "purchase"
    case Some(Sale) => "sale"
    case Some(Return) => "return"
    case Some(Damage) => "damage"
    case Some(TransferIn) => "transfer"
    case Some(TransferOut) => "transfer"
    case Some(Adjustment) => "adjustment"
  }

  /** `getTypeLabel`: a French label per type, the raw text when unknown. */
  function TypeLabel(typ: string): (l: string)
    ensures ParseType(typ).None? ==> l == typ
    ensures ParseType(typ).Some? ==> l != []
  {
    match ParseType(typ)
    case None => typ
    case Some(In) => "Entree"
    case Some(Out) => "Sortie"
    case Some(Purchase) => "Achat"
    case Some(Sale) => "Vente"
    case Some(Return) => "Retour"
    case Some(Damage) => "Dommage"
    case Some(TransferIn) => "Transfert +"
    case Some(TransferOut) => "Transfert -"
    case Some(Adjustment) => "Ajustement"
  }

  /** Labels tell all nine types apart, classes all but the two transfers. */
  lemma LabelsDistinguishTypes(t: MovementType, u: MovementType)
    ensures TypeLabel(TypeName(t)) == TypeLabel(TypeName(u)) <==> t == u
    ensures TypeClass(TypeName(t)) == TypeClass(TypeName(u)) <==>
      t == u || ({t, u} == {TransferIn, TransferOut})
  {
    TypeNamesRoundTrip(t, []);
    TypeNamesRoundTrip(u, []);
  }

  // ---------------------------------------------------------------- list

  /** `StockMovementDTO` as far as the list reads it. */
  datatype Movement = Movement(
    productCode: Option<string>,
    productName: Option<string>,
    reference: Option<string>,
    typ: string,
    quantity: int)

  function SearchOk(term: string): Movement -> bool
  {
    (m: Movement) => OptFieldHit(m.productCode, term) || OptFieldHit(m.productName, term) || OptFieldHit(m.reference, term)
  }

  /** `filteredMovements`: all movements when the search is empty, otherwise those whose
      product code, product name or reference contains it, ignoring case. */
  function FilteredMovements(ms: seq<Movement>, term: string): (r: seq<Movement>)
    ensures term == [] ==> r == ms
    ensures IsSubseq(r, ms)
    ensures term != [] ==> forall k :: 0 <= k < |r| ==> SearchOk(term)(r[k])
    ensures term != [] ==> forall k :: 0 <= k < |ms| && SearchOk(term)(ms[k]) ==> ms[k] in r
  {
    if term == [] then
      assert IsSubseq(ms, ms) by { FilterAll(ms, (m: Movement) => true); }
      ms
    else Filter(ms, SearchOk(term))
  }

  function InFn(): Movement -> bool
  {
    (m: Movement) => IsInMovement(m.typ)
  }

  function OutFn(): Movement -> bool
  {
    (m: Movement) => !IsInMovement(m.typ)
  }

  /** `inCount` and `outCount` split the filtered movements: together they count every one. */
  function InOutCounts(ms: seq<Movement>, term: string): (r: (nat, nat))
    ensures r.0 + r.1 == |FilteredMovements(ms, term)|
    ensures r.1 == 0 <==> forall k :: 0 <= k < |FilteredMovements(ms, term)| ==> IsInMovement(FilteredMovements(ms, term)[k].typ)
  {
    var shown := FilteredMovements(ms, term);
    CountComplement(shown, InFn(), OutFn());
    CountZero(shown, OutFn());
    (Count(shown, InFn()), Count(shown, OutFn()))
  }

  /** What each counter counts, movement by movement: no movements count nothing, and one more
      movement that the search shows adds one to `inCount` when its type is incoming and to
      `outCount` otherwise; a hidden one adds nothing. */
  lemma {:induction false} InOutStep(ms: seq<Movement>, m: Movement, term: string)
    ensures InOutCounts([], term) == (0, 0)
    ensures InOutCounts(ms + [m], term).0 ==
      InOutCounts(ms, term).0 + (if (term == [] || SearchOk(term)(m)) && IsInMovement(m.typ) then 1 else 0)
    ensures InOutCounts(ms + [m], term).1 ==
      InOutCounts(ms, term).1 + (if (term == [] || SearchOk(term)(m)) && !IsInMovement(m.typ) then 1 else 0)
  {
    var shown := FilteredMovements(ms, term);
    var grown := FilteredMovements(ms + [m], term);
    if term != [] {
      FilterSnoc(ms, m, SearchOk(term));
    }
    if term == [] || SearchOk(term)(m) {
      assert grown == shown + [m];
      CountSnoc(shown, m, InFn());
      CountSnoc(shown, m, OutFn());
    } else {
      assert grown == shown;
    }
  }

  /** The list reads the page size with `parseInt`, so it is a number. */
  function MovementPage(ms: seq<Movement>, term: string, page: int, pageSize: nat): (r: seq<Movement>)
    requires page >= 1
    ensures |r| <= pageSize
    ensures |r| == Max(0, Min(pageSize, |FilteredMovements(ms, term)| - StartIndex(page, pageSize)))
    ensures forall k :: 0 <= k < |r| ==>
      StartIndex(page, pageSize) + k < |FilteredMovements(ms, term)| &&
      r[k] == FilteredMovements(ms, term)[StartIndex(page, pageSize) + k]
  {
    PageSlice(FilteredMovements(ms, term), page, pageSize)
  }

  /** What the type and warehouse selects ask the server for. */
  datatype MovementReload = LoadByType(typ: string) | LoadByWarehouse(warehouseId: int) | LoadAllMovements

  /** `onTypeChange`: a chosen type reloads that type, the empty choice reloads everything. */
  function TypeChangeReload(selectedType: string): (r: MovementReload)
    ensures r == LoadAllMovements <==> selectedType == []
    ensures r.LoadByType? ==> r.typ == selectedType
  {
    if selectedType != [] then LoadByType(selectedType) else LoadAllMovements
  }

  /** `onWarehouseChange`: a chosen warehouse (its option text, read with `+`) reloads that
      warehouse's movements, the empty choice reloads everything. */
  function WarehouseChangeReload(selected: string): (r: MovementReload)
    ensures r == LoadAllMovements <==> selected == []
    ensures forall n: nat :: selected == DigitsOf(n) ==> r == LoadByWarehouse(n)
  {
    forall n: nat | selected == DigitsOf(n) ensures DecimalValue(selected) == n {
      DecimalValueOfDigits(n);
    }
    if selected != [] then LoadByWarehouse(DecimalValue(selected)) else LoadAllMovements
  }

  // ---------------------------------------------------------------- new-movement form

  /** The type choices of the new-movement form: every type but the two transfers. */
  const FormTypeOptions: seq<string> := ["", "IN", "OUT", "PURCHASE", "SALE", "RETURN", "DAMAGE", "ADJUSTMENT"]

  /** Transfers cannot be entered by hand: the form offers every other type, and its only
      choice that is no type is the empty placeholder. */
  lemma FormOffersNoTransfers(t: MovementType)
    ensures TypeName(t) in FormTypeOptions <==> t != TransferIn && t != TransferOut
    ensures forall k :: 0 <= k < |FormTypeOptions| && ParseType(FormTypeOptions[k]).None? ==> FormTypeOptions[k] == []
  {
  }

  /** A select's value as JavaScript holds it: the initial number, or the text of an option
      picked with `[value]` (which always arrives as a string). */
  datatype SelectValue = NumberValue(n: int) | OptionText(s: string)

  /** JavaScript truthiness: a number is truthy unless 0, a string unless empty. */
  predicate Truthy(v: SelectValue)
  {
    match v
    case NumberValue(n) => n != 0
    case OptionText(s) => s != []
  }

  /** The decimal digits of a non-negative number, as an option's `[value]` renders it. */
  function DigitsOf(n: nat): (s: string)
    ensures |s| >= 1
    decreases n
  {
    if n < 10 then [('0' as int + n) as char] else DigitsOf(n / 10) + [('0' as int + n % 10) as char]
  }

  /** The numeric reading of a select value (`+value`): option texts are the ids' decimal digits. */
  function NumericId(v: SelectValue): int
  {
    match v
    case NumberValue(n) => n
    case OptionText(s) => DecimalValue(s)
  }

  /** The value of a string of decimal digits; any other character counts as zero. */
  function DecimalValue(s: string): nat
    decreases |s|
  {
    if |s| == 0 then 0
    else
      var d := s[|s| - 1] as int - '0' as int;
      DecimalValue(s[..|s| - 1]) * 10 + (if 0 <= d <= 9 then d else 0)
  }

  lemma {:induction false} DecimalValueOfDigits(n: nat)
    ensures DecimalValue(DigitsOf(n)) == n
    decreases n
  {
    if n >= 10 {
      DecimalValueOfDigits(n / 10);
      var s := DigitsOf(n);
      assert s[..|s| - 1] == DigitsOf(n / 10);
    }
  }

  /** `newMovement`: type text, product and warehouse selects, quantity (null when the number
      input is cleared), reference and source. */
  datatype MovementForm = MovementForm(
    typ: string,
    productId: SelectValue,
    warehouseId: SelectValue,
    quantity: Option<int>,
    reference: string,
    source: string)

  /** The form `closeModal` restores (and the page starts with). */
  const DefaultForm := MovementForm([], NumberValue(0), NumberValue(0), Some(1), [], [])

  /** `isFormValid` as written: every field truthy and a positive quantity. */
  predicate IsFormValidAsWritten(f: MovementForm)
  {
    f.typ != [] && Truthy(f.productId) && Truthy(f.warehouseId)
    && f.quantity.Some? && f.quantity.value != 0 && f.quantity.value > 0
  }

  /** Picking a product and then the "Selectionnez..." placeholder again leaves the text "0",
      which is truthy: the form as written accepts it and would send product "0". */
  lemma PlaceholderReselectionPasses()
    ensures IsFormValidAsWritten(MovementForm("IN", OptionText(DigitsOf(0)), OptionText("3"), Some(5), [], []))
  {
  }

  /** The intended gate: a type, a product and a warehouse other than the placeholder 0,
      and a positive quantity. */
  predicate IsFormValid(f: MovementForm)
  {
    f.typ != [] && NumericId(f.productId) != 0 && NumericId(f.warehouseId) != 0
    && f.quantity.Some? && f.quantity.value > 0
  }

  /** The intended gate rejects the placeholder however it was reached, and otherwise agrees
      with the written one on option texts of real ids. */
  lemma PlaceholderNeverValid(f: MovementForm)
    ensures f.productId == OptionText(DigitsOf(0)) || f.productId == NumberValue(0) ==> !IsFormValid(f)
    ensures f.warehouseId == OptionText(DigitsOf(0)) || f.warehouseId == NumberValue(0) ==> !IsFormValid(f)
    ensures forall p: nat, w: nat :: p > 0 && w > 0 ==>
      (IsFormValid(f.(productId := OptionText(DigitsOf(p)), warehouseId := OptionText(DigitsOf(w))))
       <==> IsFormValidAsWritten(f.(productId := OptionText(DigitsOf(p)), warehouseId := OptionText(DigitsOf(w)))))
  {
    PlaceholderReadsAsZero(f.productId);
    PlaceholderReadsAsZero(f.warehouseId);
    forall p: nat, w: nat | p > 0 && w > 0
      ensures IsFormValid(f.(productId := OptionText(DigitsOf(p)), warehouseId := OptionText(DigitsOf(w))))
        <==> IsFormValidAsWritten(f.(productId := OptionText(DigitsOf(p)), warehouseId := OptionText(DigitsOf(w))))
    {
      RealIdsAgree(f, p, w);
    }
  }

  /** The placeholder, as option text or as the number 0, reads as id 0. */
  lemma PlaceholderReadsAsZero(v: SelectValue)
    ensures v == OptionText(DigitsOf(0)) || v == NumberValue(0) ==> NumericId(v) == 0
  {
    DecimalValueOfDigits(0);
  }

  /** With the option texts of two real ids, the two gates decide alike. */
  lemma RealIdsAgree(f: MovementForm, p: nat, w: nat)
    requires p > 0 && w > 0
    ensures IsFormValid(f.(productId := OptionText(DigitsOf(p)), warehouseId := OptionText(DigitsOf(w))))
      <==> IsFormValidAsWritten(f.(productId := OptionText(DigitsOf(p)), warehouseId := OptionText(DigitsOf(w))))
  {
    var g := f.(productId := OptionText(DigitsOf(p)), warehouseId := OptionText(DigitsOf(w)));
    DecimalValueOfDigits(p);
    DecimalValueOfDigits(w);
    assert NumericId(g.productId) == p && NumericId(g.warehouseId) == w;
    assert Truthy(g.productId) && Truthy(g.warehouseId);
  }

  /** The default form is itself invalid, as written and as intended: no type is chosen. */
  lemma DefaultFormInvalid()
    ensures !IsFormValidAsWritten(DefaultForm) && !IsFormValid(DefaultForm)
  {
  }

  /** The modal's state: open or not, and the form. */
  datatype MovementModal = MovementModal(show: bool, form: MovementForm)

  /** `closeModal`: hide and restore the default form. */
  function CloseModal(m: MovementModal): (r: MovementModal)
    ensures !r.show && r.form == DefaultForm
    ensures !IsFormValid(r.form)
  {
    MovementModal(false, DefaultForm)
  }

  /** `createMovement`: sends the form only when the intended gate holds. */
  function CreateMovement(m: MovementModal): (r: Option<MovementForm>)
    ensures r.Some? <==> IsFormValid(m.form)
    ensures r.Some? ==> r.value == m.form && r.value.quantity.value > 0
  {
    if IsFormValid(m.form) then Some(m.form) else None
  }
}

=== FILE: supplier_list.dfy ===
/** The supplier list: status badges, the status counters, the row actions each
    status offers, and the paged table with its window of page buttons. */
module SupplierList {
  import opened Wrappers
  import opened Seqs
  import opened Paging

  datatype SupplierStatus = Active | Inactive | Suspended | Blacklisted | PendingApproval

  /** `SupplierDTO` as far as the list reads it; the status may be missing. */
  datatype Supplier = Supplier(id: Option<int>, name: string, status: Option<SupplierStatus>)

  /** `pageSizeOptions` and the initial `pageSize`. */
  const PageSizeOptions: seq<nat> := [10, 20, 50, 100]
  const DefaultPageSize: nat := 10

  // ---------------------------------------------------------------- badge

  /** `getStatusClass`: one class per status; a missing status borrows 'inactive'. */
  function StatusClass(s: Option<SupplierStatus>): (c: string)
    ensures c == "inactive" <==> s == Some(Inactive) || s.None?
  {
    match s
    case Some(Active) => "active"
    case Some(Inactive) => "inactive"
    case Some(Suspended) => "suspended"
    case Some(Blacklisted) => "blacklisted"
    case Some(PendingApproval) => "pending"
    case None => "inactive"
  }

  /** `getStatusLabel`: one label per status; a missing status reads 'Inconnu'. */
  function StatusLabel(s: Option<SupplierStatus>): (l: string)
    ensures l == "Inconnu" <==> s.None?
  {
    match s
    case Some(Active) => "Actif"
    case Some(Inactive) => "Inactif"
    case Some(Suspended) => "Suspendu"
    case Some(Blacklisted) => "Blackliste"
    case Some(PendingApproval) => "En attente"
    case None => "Inconnu"
  }

  /** The label tells every status apart, including a missing one; the class looks the same
      for a missing status as for INACTIVE. */
  lemma BadgeDistinguishesStatuses(s: Option<SupplierStatus>, t: Option<SupplierStatus>)
    ensures StatusLabel(s) == StatusLabel(t) <==> s == t
    ensures StatusClass(s) == StatusClass(t) <==> s == t || ({s, t} == {None, Some(Inactive)})
  {
  }

  // ---------------------------------------------------------------- row actions

  datatype SupplierAction = Suspend | Deactivate | Activate | Delete

  /** The row's buttons: an active supplier can be suspended or deactivated, an inactive or
      suspended one activated, and every supplier deleted. */
  function RowActions(s: Option<SupplierStatus>): (r: seq<SupplierAction>)
    ensures Delete in r && r[|r| - 1] == Delete
    ensures Activate in r <==> s == Some(Inactive) || s == Some(Suspended)
    ensures Suspend in r <==> s == Some(Active)
    ensures Deactivate in r <==> s == Some(Active)
    ensures r == [Delete] <==> s.None? || s == Some(Blacklisted) || s == Some(PendingApproval)
  {
    match s
    case Some(Active) => [Suspend, Deactivate, Delete]
    case Some(Inactive) => [Activate, Delete]
    case Some(Suspended) => [Activate, Delete]
    case _ => [Delete]
  }

  /** No row offers a change to the status the supplier already has. */
  lemma ActionsChangeStatus(s: Option<SupplierStatus>)
    ensures Activate in RowActions(s) ==> s != Some(Active)
    ensures Suspend in RowActions(s) ==> s != Some(Suspended)
    ensures Deactivate in RowActions(s) ==> s != Some(Inactive)
  {
  }

  /** `onActivate` / `onDeactivate` / `onSuspend` / `onDelete`: the call goes out for a
      supplier with a truthy id once the user confirms. */
  function ActionRequest(sup: Supplier, a: SupplierAction, confirmed: bool): (r: Option<(int, SupplierAction)>)
    ensures r.Some? <==> sup.id.Some? && sup.id.value != 0 && confirmed
    ensures r.Some? ==> r.value == (sup.id.value, a)
  {
    if sup.id.Some? && sup.id.value != 0 && confirmed then Some((sup.id.value, a)) else None
  }

  // ---------------------------------------------------------------- counters

  function HasStatus(st: SupplierStatus): Supplier -> bool
  {
    (s: Supplier) => s.status == Some(st)
  }

  function Uncounted(): Supplier -> bool
  {
    (s: Supplier) => s.status !in {Some(Active), Some(Inactive), Some(Suspended)}
  }

  datatype Counters = Counters(active: nat, inactive: nat, suspended: nat)

  /** `activeCount`, `inactiveCount`, `suspendedCount`: over every loaded supplier. Blacklisted,
      pending and status-less suppliers are counted nowhere, so the three add up to the total
      exactly when there are none of those. */
  function StatusCounters(sups: seq<Supplier>): (c: Counters)
    ensures c.active + c.inactive + c.suspended <= |sups|
    ensures c.active + c.inactive + c.suspended == |sups| <==>
      forall k :: 0 <= k < |sups| ==> sups[k].status in {Some(Active), Some(Inactive), Some(Suspended)}
  {
    forall k | 0 <= k < |sups|
      ensures ExactlyOne(HasStatus(Active)(sups[k]), HasStatus(Inactive)(sups[k]), HasStatus(Suspended)(sups[k]), Uncounted()(sups[k]))
    {
    }
    CountPartition4(sups, HasStatus(Active), HasStatus(Inactive), HasStatus(Suspended), Uncounted());
    CountZero(sups, Uncounted());
    Counters(Count(sups, HasStatus(Active)), Count(sups, HasStatus(Inactive)), Count(sups, HasStatus(Suspended)))
  }

  /** What each counter counts, supplier by supplier: no suppliers count nothing, and one more
      supplier adds one to the counter of its own status only, by exact equality. */
  lemma {:induction false} StatusCountersStep(sups: seq<Supplier>, x: Supplier)
    ensures StatusCounters([]) == Counters(0, 0, 0)
    ensures StatusCounters(sups + [x]).active == StatusCounters(sups).active + (if x.status == Some(Active) then 1 else 0)
    ensures StatusCounters(sups + [x]).inactive == StatusCounters(sups).inactive + (if x.status == Some(Inactive) then 1 else 0)
    ensures StatusCounters(sups + [x]).suspended == StatusCounters(sups).suspended + (if x.status == Some(Suspended) then 1 else 0)
  {
    CountSnoc(sups, x, HasStatus(Active));
    CountSnoc(sups, x, HasStatus(Inactive));
    CountSnoc(sups, x, HasStatus(Suspended));
  }

  // ---------------------------------------------------------------- pagination

  /** `paginatedSuppliers`: `onPageSizeChange` parses the select with `parseInt`, so the size is
      a number. */
  function SupplierPage(sups: seq<Supplier>, page: int, pageSize: nat): (r: seq<Supplier>)
    requires page >= 1
    ensures |r| <= pageSize
    ensures |r| == Max(0, Min(pageSize, |sups| - StartIndex(page, pageSize)))
    ensures forall k :: 0 <= k < |r| ==>
      StartIndex(page, pageSize) + k < |sups| && r[k] == sups[StartIndex(page, pageSize) + k]
  {
    PageSlice(sups, page, pageSize)
  }

  /** The pager's state: the current page and the size. */
  datatype SupplierPager = SupplierPager(page: int, pageSize: nat)

  /** The pager's buttons all go through `goToPage`, which accepts only an existing page;
      `onPageSizeChange` sets the new size and goes back to page 1. */
  datatype PagerEvent = PageButton(target: int) | SizeChange(size: nat)

  function PagerStep(n: nat, p: SupplierPager, e: PagerEvent): (r: SupplierPager)
    requires p.pageSize > 0
    requires e.SizeChange? ==> e.size > 0
    ensures r.pageSize > 0
    ensures 1 <= p.page <= TotalPages(n, p.pageSize) ==> 1 <= r.page <= TotalPages(n, r.pageSize)
    ensures e.PageButton? && 1 <= e.target <= TotalPages(n, p.pageSize) ==> r.page == e.target
  {
    match e
    case PageButton(t) => p.(page := GoToPage(p.page, t, TotalPages(n, p.pageSize)))
    case SizeChange(size) => SupplierPager(1, size)
  }

  /** Every button of the window leads to an existing page, and the current page's own
      button is among them. */
  lemma WindowButtonsAreValid(n: nat, p: SupplierPager)
    requires p.pageSize > 0 && 1 <= p.page <= TotalPages(n, p.pageSize)
    ensures forall k :: 0 <= k < |WindowPages(TotalPages(n, p.pageSize), p.page)| ==>
      PagerStep(n, p, PageButton(WindowPages(TotalPages(n, p.pageSize), p.page)[k])).page
        == WindowPages(TotalPages(n, p.pageSize), p.page)[k]
    ensures p.page in WindowPages(TotalPages(n, p.pageSize), p.page)
  {
  }
}

=== FILE: text.dfy ===
/** String predicates shared by the views: case-insensitive search
    (`toLowerCase().includes(term)`), `trim()`, and the e-mail pattern
    `^[^\s@]+@[^\s@]+\.[^\s@]+$` used by order creation and order editing.
    Case folding covers the ASCII and Latin-1 capitals; `\s` and `trim()` use
    JavaScript's whitespace set. */
module Text {
  import opened Wrappers

  // ---------------------------------------------------------------- case folding

  /** `toLowerCase()` on one character, for the ASCII capitals and the Latin-1 capitals
      'À'..'Þ' (all but the multiplication sign '×'), each 32 code points above its
      lower-case letter. */
  function Lower(c: char): char
  {
    if 'A' <= c <= 'Z' || ('\U{00C0}' <= c <= '\U{00DE}' && c != '\U{00D7}') then (c as int + 32) as char else c
  }

  function LowerStr(s: string): (r: string)
    ensures |r| == |s|
    ensures forall i :: 0 <= i < |s| ==> r[i] == Lower(s[i])
  {
    seq(|s|, i requires 0 <= i < |s| => Lower(s[i]))
  }

  /** Lower-casing twice is lower-casing once. */
  lemma LowerStrIdempotent(s: string)
    ensures LowerStr(LowerStr(s)) == LowerStr(s)
  {
  }

  // ---------------------------------------------------------------- substring search

  /** `needle` occurs in `hay` starting at position `i`. */
  predicate OccursAt(hay: string, needle: string, i: int)
  {
    0 <= i <= |hay| - |needle| && hay[i..i + |needle|] == needle
  }

  /** `hay.includes(needle)`: some window of `hay` equals `needle`. */
  predicate Contains(hay: string, needle: string)
  {
    exists i | 0 <= i <= |hay| - |needle| :: OccursAt(hay, needle, i)
  }

  /** The view filters' field test: the lower-cased field includes the lower-cased term. */
  predicate FieldHit(field: string, term: string)
  {
    Contains(LowerStr(field), LowerStr(term))
  }

  /** An optional field (`o.x?.toLowerCase().includes(term)`) never matches when absent. */
  predicate OptFieldHit(field: Option<string>, term: string)
  {
    field.Some? && FieldHit(field.value, term)
  }

  /** The empty term is included in every field. */
  lemma EmptyTermHits(field: string)
    ensures FieldHit(field, "")
  {
    var h := LowerStr(field);
    assert OccursAt(h, LowerStr(""), 0);
  }

  /** The search ignores the case of the term: upper- and lower-case spellings hit the same fields. */
  lemma FieldHitCaseInsensitive(field: string, term: string)
    ensures FieldHit(field, term) <==> FieldHit(field, LowerStr(term))
  {
    LowerStrIdempotent(term);
  }

  /** A field always hits its own text, whatever its case. */
  lemma {:induction false} FieldHitsItself(field: string)
    ensures FieldHit(field, field)
  {
    var h := LowerStr(field);
    assert OccursAt(h, h, 0);
  }

  // ---------------------------------------------------------------- whitespace and trim

  /** The characters that JavaScript's `\s` matches and `trim()` removes: the ECMAScript
      WhiteSpace and LineTerminator characters (the ASCII controls and space, no-break space,
      the Unicode space separators, the line and paragraph separators and the byte-order mark). */
  predicate IsSpace(c: char)
  {
    || c == '\t' || c == '\n' || c == '\U{000B}' || c == '\U{000C}' || c == '\r' || c == ' '
    || c == '\U{00A0}' || c == '\U{1680}' || '\U{2000}' <= c <= '\U{200A}'
    || c == '\U{2028}' || c == '\U{2029}' || c == '\U{202F}' || c == '\U{205F}' || c == '\U{3000}'
    || c == '\U{FEFF}'
  }

  predicate AllSpace(s: string)
  {
    forall k :: 0 <= k < |s| ==> IsSpace(s[k])
  }

  function TrimStart(s: string): (r: string)
    ensures |r| <= |s| && r == s[|s| - |r|..]
    ensures forall k :: 0 <= k < |s| - |r| ==> IsSpace(s[k])
    ensures r == [] || !IsSpace(r[0])
    decreases |s|
  {
    if |s| > 0 && IsSpace(s[0]) then TrimStart(s[1..]) else s
  }

  function TrimEnd(s: string): (r: string)
    ensures |r| <= |s| && r == s[..|r|]
    ensures forall k :: |r| <= k < |s| ==> IsSpace(s[k])
    ensures r == [] || !IsSpace(r[|r| - 1])
    decreases |s|
  {
    if |s| > 0 && IsSpace(s[|s| - 1]) then TrimEnd(s[..|s| - 1]) else s
  }

  /** `s.trim()`: the infix of `s` left after dropping leading and trailing whitespace. */
  function Trim(s: string): (r: string)
    ensures exists i, j :: 0 <= i <= j <= |s| && r == s[i..j] && AllSpace(s[..i]) && AllSpace(s[j..])
    ensures r == [] || (!IsSpace(r[0]) && !IsSpace(r[|r| - 1]))
    ensures r == [] <==> AllSpace(s)
  {
    TrimIsInfix(s);
    TrimEmptyIffAllSpace(s);
    TrimEnd(TrimStart(s))
  }

  lemma TrimIsInfix(s: string)
    ensures exists i, j :: 0 <= i <= j <= |s| && TrimEnd(TrimStart(s)) == s[i..j] && AllSpace(s[..i]) && AllSpace(s[j..])
  {
    var t := TrimStart(s);
    InfixOfSuffix(s, t, TrimEnd(t));
  }

  /** A prefix `r` of a suffix `t` of `s`, with whitespace around it, is an infix of `s`
      with whitespace around it. */
  lemma InfixOfSuffix(s: string, t: string, r: string)
    requires |t| <= |s| && t == s[|s| - |t|..] && forall k :: 0 <= k < |s| - |t| ==> IsSpace(s[k])
    requires |r| <= |t| && r == t[..|r|] && forall k :: |r| <= k < |t| ==> IsSpace(t[k])
    ensures exists i, j :: 0 <= i <= j <= |s| && r == s[i..j] && AllSpace(s[..i]) && AllSpace(s[j..])
  {
    var i := |s| - |t|;
    var j := i + |r|;
    assert r == s[i..j];
    assert AllSpace(s[..i]);
    forall k | 0 <= k < |s| - j ensures IsSpace(s[j..][k]) {
      assert s[j..][k] == t[|r| + k];
    }
  }

  lemma TrimEmptyIffAllSpace(s: string)
    ensures TrimEnd(TrimStart(s)) == [] <==> AllSpace(s)
  {
    var t := TrimStart(s);
    var r := TrimEnd(t);
    var i := |s| - |t|;
    if r == [] {
      assert t == [];
    } else {
      assert s[i] == r[0];
    }
  }

  /** Trimming an already trimmed string changes nothing. */
  lemma TrimIdempotent(s: string)
    ensures Trim(Trim(s)) == Trim(s)
  {
    var r := Trim(s);
    if r != [] {
      assert TrimStart(r) == r;
      assert TrimEnd(r) == r;
    }
  }

  // ---------------------------------------------------------------- e-mail pattern

  /** A run matched by `[^\s@]+`. */
  predicate Atom(s: string)
  {
    |s| > 0 && forall k :: 0 <= k < |s| ==> !IsSpace(s[k]) && s[k] != '@'
  }

  /** The language of `^[^\s@]+@[^\s@]+\.[^\s@]+$`, stated as a decomposition. */
  ghost predicate EmailPattern(s: string)
  {
    exists a: string, b: string, c: string :: Atom(a) && Atom(b) && Atom(c) && s == a + "@" + b + "." + c
  }

  /** `isValidEmail` as a character-level test: no whitespace, exactly one '@',
      not in first position, and a '.' strictly inside the part after it. */
  predicate IsValidEmail(s: string)
  {
    && (forall k :: 0 <= k < |s| ==> !IsSpace(s[k]))
    && exists i | 0 < i < |s| ::
         && s[i] == '@'
         && (forall k :: 0 <= k < |s| && k != i ==> s[k] != '@')
         && exists j | i + 1 < j < |s| - 1 :: s[j] == '.'
  }

  /** The character-level test decides exactly the regular language of the pattern. */
  lemma EmailTestMatchesPattern(s: string)
    ensures IsValidEmail(s) <==> EmailPattern(s)
  {
    if IsValidEmail(s) {
      EmailTestGivesPattern(s);
    }
    if EmailPattern(s) {
      PatternPassesEmailTest(s);
    }
  }

  lemma EmailTestGivesPattern(s: string)
    requires IsValidEmail(s)
    ensures EmailPattern(s)
  {
    var i :| 0 < i < |s| && s[i] == '@' && (forall k :: 0 <= k < |s| && k != i ==> s[k] != '@')
             && exists j | i + 1 < j < |s| - 1 :: s[j] == '.';
    var j :| i + 1 < j < |s| - 1 && s[j] == '.';
    var a, b, c := s[..i], s[i + 1..j], s[j + 1..];
    assert s == a + "@" + b + "." + c;
    assert forall k :: 0 <= k < |b| ==> b[k] == s[i + 1 + k];
    assert forall k :: 0 <= k < |c| ==> c[k] == s[j + 1 + k];
    assert Atom(a) && Atom(b) && Atom(c);
  }

  lemma PatternPassesEmailTest(s: string)
    requires EmailPattern(s)
    ensures IsValidEmail(s)
  {
    var a: string, b: string, c: string :| Atom(a) && Atom(b) && Atom(c) && s == a + "@" + b + "." + c;
    var i := |a|;
    var j := |a| + 1 + |b|;
    forall k | 0 <= k < |s|
      ensures !IsSpace(s[k])
      ensures k != i ==> s[k] != '@'
    {
      if k < i {
        assert s[k] == a[k];
      } else if k == i {
      } else if k < j {
        assert s[k] == b[k - i - 1];
      } else if k == j {
      } else {
        assert s[k] == c[k - j - 1];
      }
    }
    assert s[i] == '@' && s[j] == '.';
  }

  /** order-edit's `isValidEmail(email?)`: false for a missing or empty value, otherwise the shared pattern. */
  predicate IsValidOptionalEmail(email: Option<string>)
  {
    email.Some? && email.value != "" && IsValidEmail(email.value)
  }

  /** The optional-email test agrees with the shared one on every present value. */
  lemma OptionalEmailAgrees(email: Option<string>)
    ensures IsValidOptionalEmail(email) <==> email.Some? && IsValidEmail(email.value)
    ensures IsValidOptionalEmail(email) ==> EmailPattern(email.value)
  {
    if email.Some? {
      EmailTestMatchesPattern(email.value);
    }
  }
}

=== FILE: warehouse_inventory.dfy ===
/** One warehouse's inventory page: a search and a stock-level select over the
    warehouse's rows, with statistics that always describe every row. */
module WarehouseInventory {
  import opened Wrappers
  import opened Seqs
  import opened Text
  import opened StockLevels
  import opened WarehouseList

  /** The stock select: 'all', 'low' (1..9), 'out' (0), 'available' (10 and more). */
  datatype StockSelect = AllItems | LowItems | OutItems | AvailableItems

  function SearchOk(term: string): InventoryRow -> bool
  {
    (r: InventoryRow) => OptFieldHit(r.productName, term) || OptFieldHit(r.productCode, term)
  }

  function SelectOk(f: StockSelect): InventoryRow -> bool
  {
    (r: InventoryRow) =>
      match f
      case AllItems => true
      case LowItems => IsLow(r.quantity, WarehouseLowMax)
      case OutItems => IsOut(r.quantity)
      case AvailableItems => IsNormal(r.quantity, WarehouseLowMax)
  }

  /** A row passes when it hits the search (if any) and the stock select. */
  function PassesFn(term: string, f: StockSelect): InventoryRow -> bool
  {
    (r: InventoryRow) => (term == [] || SearchOk(term)(r)) && SelectOk(f)(r)
  }

  /** `filteredInventories`: the search (when non-empty) on name or code, then the stock select. */
  function FilteredInventories(rows: seq<InventoryRow>, term: string, f: StockSelect): (r: seq<InventoryRow>)
    ensures r == Filter(rows, PassesFn(term, f))
  {
    var anyTerm := (x: InventoryRow) => term == [] || SearchOk(term)(x);
    var searched := if term == [] then rows else Filter(rows, SearchOk(term));
    var r := if f == AllItems then searched else Filter(searched, SelectOk(f));
    assert searched == Filter(rows, anyTerm) by {
      if term == [] { FilterAll(rows, anyTerm); }
      else { FilterSame(rows, SearchOk(term), anyTerm); }
    }
    assert r == Filter(searched, SelectOk(f)) by {
      if f == AllItems { FilterAll(searched, SelectOk(f)); }
    }
    FilterFilter(rows, anyTerm, SelectOk(f), PassesFn(term, f));
    r
  }

  /** The listed rows are the warehouse's rows, in order, and exactly those passing the search
      and the select; with no search and 'all' every row is listed. */
  lemma FilteredInventoriesExact(rows: seq<InventoryRow>, term: string, f: StockSelect)
    ensures IsSubseq(FilteredInventories(rows, term, f), rows)
    ensures forall k :: 0 <= k < |FilteredInventories(rows, term, f)| ==>
      FilteredInventories(rows, term, f)[k] in rows && PassesFn(term, f)(FilteredInventories(rows, term, f)[k])
    ensures forall k :: 0 <= k < |rows| && PassesFn(term, f)(rows[k]) ==> rows[k] in FilteredInventories(rows, term, f)
    ensures term == [] && f == AllItems ==> FilteredInventories(rows, term, f) == rows
  {
    FilterFromInput(rows, PassesFn(term, f));
    if term == [] && f == AllItems {
      forall k | 0 <= k < |rows| ensures PassesFn(term, f)(rows[k]) {
        assert SelectOk(AllItems)(rows[k]);
      }
      FilterAll(rows, PassesFn(term, f));
    }
  }

  /** With an empty search, each stock choice lists exactly as many rows as its counter shows. */
  lemma SelectMatchesCounter(rows: seq<InventoryRow>)
    ensures |FilteredInventories(rows, [], LowItems)| == Stats(rows).lowStock
    ensures |FilteredInventories(rows, [], OutItems)| == Stats(rows).outOfStock
    ensures |FilteredInventories(rows, [], AvailableItems)| == Stats(rows).inStock
  {
    FilterSame(rows, SelectOk(LowItems), LowRow(WarehouseLowMax));
    FilterSame(rows, SelectOk(OutItems), OutRow());
    FilterSame(rows, SelectOk(AvailableItems), NormalRow(WarehouseLowMax));
  }

  /** `clearFilters` empties the search and selects 'all'. */
  function ClearFilters(): (r: (string, StockSelect))
    ensures forall rows :: FilteredInventories(rows, r.0, r.1) == rows
  {
    forall rows: seq<InventoryRow> ensures FilteredInventories(rows, [], AllItems) == rows {
      FilteredInventoriesExact(rows, [], AllItems);
    }
    ([], AllItems)
  }

  /** The empty state: "no result" (with a clear button) while a filter is active, otherwise
      "empty warehouse". */
  datatype EmptyState = NoResult | EmptyWarehouse

  function EmptyStateShown(rows: seq<InventoryRow>, term: string, f: StockSelect): (r: Option<EmptyState>)
    ensures r.Some? <==> FilteredInventories(rows, term, f) == []
    ensures r == Some(EmptyWarehouse) ==> rows == []
    ensures rows == [] ==> r.Some?
  {
    FilteredInventoriesExact(rows, term, f);
    if FilteredInventories(rows, term, f) != [] then None
    else if term != [] || f != AllItems then Some(NoResult)
    else Some(EmptyWarehouse)
  }

  /** `+params['id']`, already read as a number (None for NaN): only a truthy id loads. */
  function RouteWarehouse(parsed: Option<int>): (r: Option<int>)
    ensures r.Some? <==> parsed.Some? && parsed.value != 0
    ensures r.Some? ==> r == parsed
  {
    if parsed.Some? && parsed.value != 0 then parsed else None
  }
}

=== FILE: warehouse_list.dfy ===
/** The warehouse list: the create/edit form, deletion, and the per-warehouse
    inventory modal with its statistics, stock badges and "add a product" form. */
module WarehouseList {
  import opened Wrappers
  import opened Seqs
  import opened Text
  import opened Catalog
  import opened StockLevels

  /** `WarehouseDTO` as far as the page reads it. */
  datatype Warehouse = Warehouse(id: Option<int>, name: string, location: string)

  // ---------------------------------------------------------------- create / edit form

  /** `formData`: the two text inputs. */
  datatype WarehouseForm = WarehouseForm(name: string, location: string)

  const BlankForm := WarehouseForm([], [])

  /** `isFormValid`: both fields hold something besides whitespace. */
  predicate IsFormValid(f: WarehouseForm)
  {
    Trim(f.name) != [] && Trim(f.location) != []
  }

  /** The modal: open or not, the warehouse being edited (none: creating), the form and the
      error text. */
  datatype WarehouseModal = WarehouseModal(show: bool, editing: Option<Warehouse>, form: WarehouseForm, error: string)

  function OpenCreateModal(): (m: WarehouseModal)
    ensures m.show && m.editing.None? && m.error == []
    ensures !IsFormValid(m.form)
  {
    WarehouseModal(true, None, BlankForm, [])
  }

  /** `openEditModal`: the form starts from the warehouse's own name and location. */
  function OpenEditModal(w: Warehouse): (m: WarehouseModal)
    ensures m.show && m.editing == Some(w) && m.error == []
    ensures m.form.name == w.name && m.form.location == w.location
  {
    WarehouseModal(true, Some(w), WarehouseForm(w.name, w.location), [])
  }

  /** `closeModal`: hides the modal and forgets the edit and the typed values. */
  function CloseModal(m: WarehouseModal): (r: WarehouseModal)
    ensures !r.show && r.editing.None? && r.error == []
    ensures !IsFormValid(r.form)
  {
    WarehouseModal(false, None, BlankForm, [])
  }

  /** What a save sends. */
  datatype WarehouseRequest =
    | CreateWarehouse(name: string, location: string)
    | UpdateWarehouse(id: Option<int>, name: string, location: string)

  /** `saveWarehouse`: nothing for an invalid form; otherwise the trimmed values, as an
      update of the edited warehouse or as a new one. */
  function SaveWarehouse(m: WarehouseModal): (r: Option<WarehouseRequest>)
    ensures r.Some? <==> IsFormValid(m.form)
    ensures r.Some? ==> (r.value.UpdateWarehouse? <==> m.editing.Some?)
    ensures r.Some? && m.editing.Some? ==> r.value.id == m.editing.value.id
    ensures r.Some? ==> r.value.name == Trim(m.form.name) && r.value.location == Trim(m.form.location)
    ensures r.Some? ==> r.value.name != [] && r.value.location != []
    ensures r.Some? ==> Trim(r.value.name) == r.value.name && Trim(r.value.location) == r.value.location
  {
    if !IsFormValid(m.form) then None
    else
      TrimIdempotent(m.form.name);
      TrimIdempotent(m.form.location);
      if m.editing.Some? then Some(UpdateWarehouse(m.editing.value.id, Trim(m.form.name), Trim(m.form.location)))
      else Some(CreateWarehouse(Trim(m.form.name), Trim(m.form.location)))
  }

  /** Saving the form of a freshly opened edit modal sends the warehouse back unchanged
      whenever its name and location carry no surrounding whitespace. */
  lemma EditWithoutChangesSendsSameValues(w: Warehouse)
    requires w.name != [] && w.location != []
    requires !IsSpace(w.name[0]) && !IsSpace(w.name[|w.name| - 1])
    requires !IsSpace(w.location[0]) && !IsSpace(w.location[|w.location| - 1])
    ensures SaveWarehouse(OpenEditModal(w)) == Some(UpdateWarehouse(w.id, w.name, w.location))
  {
    TrimOfTrimmed(w.name);
    TrimOfTrimmed(w.location);
    EditSendsTrimmedOriginal(w);
  }

  /** Saving a freshly opened edit modal whose fields are not blank sends the warehouse's
      own name and location, trimmed. */
  lemma EditSendsTrimmedOriginal(w: Warehouse)
    requires Trim(w.name) != [] && Trim(w.location) != []
    ensures SaveWarehouse(OpenEditModal(w)) == Some(UpdateWarehouse(w.id, Trim(w.name), Trim(w.location)))
  {
    var m := OpenEditModal(w);
    assert m.form == WarehouseForm(w.name, w.location);
    assert IsFormValid(m.form);
  }

  lemma TrimOfTrimmed(s: string)
    requires s != [] && !IsSpace(s[0]) && !IsSpace(s[|s| - 1])
    ensures Trim(s) == s
  {
    assert TrimStart(s) == s;
    assert TrimEnd(s) == s;
  }

  /** `onDelete`: a delete goes out for a warehouse with a truthy id once the user confirms. */
  function DeleteRequest(w: Warehouse, confirmed: bool): (r: Option<int>)
    ensures r.Some? <==> w.id.Some? && w.id.value != 0 && confirmed
    ensures r.Some? ==> r.value == w.id.value
  {
    if w.id.Some? && w.id.value != 0 && confirmed then Some(w.id.value) else None
  }

  // ---------------------------------------------------------------- inventory modal statistics

  /** `inStockCount`, `lowStockCount`, `outOfStockCount` use the warehouse band (low is 1..9). */
  datatype WarehouseStats = WarehouseStats(totalQuantity: int, inStock: nat, lowStock: nat, outOfStock: nat)

  function Stats(rows: seq<InventoryRow>): (s: WarehouseStats)
    ensures s.totalQuantity == TotalQuantity(rows)
    ensures NonNegative(rows) ==>
      s.totalQuantity == TotalQuantity(Filter(rows, LowRow(WarehouseLowMax))) + TotalQuantity(Filter(rows, NormalRow(WarehouseLowMax)))
    ensures NonNegative(rows) ==> s.inStock + s.lowStock + s.outOfStock == |rows| && s.totalQuantity >= 0
    ensures s.inStock + s.lowStock + s.outOfStock <= |rows|
    ensures s.outOfStock == 0 <==> forall k :: 0 <= k < |rows| ==> rows[k].quantity != 0
  {
    LevelCountsCoverRows(rows, WarehouseLowMax);
    CountZero(rows, OutRow());
    StockSitsInLowAndInStockRows(rows);
    WarehouseStats(TotalQuantity(rows), Count(rows, NormalRow(WarehouseLowMax)),
      Count(rows, LowRow(WarehouseLowMax)), Count(rows, OutRow()))
  }

  /** Out-of-stock rows hold nothing, so the stock of non-negative rows is what the low and
      in-stock rows hold. */
  lemma StockSitsInLowAndInStockRows(rows: seq<InventoryRow>)
    ensures NonNegative(rows) ==>
      TotalQuantity(rows) == TotalQuantity(Filter(rows, LowRow(WarehouseLowMax))) + TotalQuantity(Filter(rows, NormalRow(WarehouseLowMax)))
  {
    if NonNegative(rows) {
      var stocked := (r: InventoryRow) => r.quantity != 0;
      var empty := (r: InventoryRow) => r.quantity == 0;
      KeptPlusDroppedTotal(rows, stocked, empty);
      var out := Filter(rows, empty);
      OutRowsHoldNothing(out);
      var held := Filter(rows, stocked);
      FilterFromInput(rows, stocked);
      forall k | 0 <= k < |held| ensures held[k].quantity > 0 {
        var j :| 0 <= j < |rows| && rows[j] == held[k];
      }
      KeptPlusDroppedTotal(held, LowRow(WarehouseLowMax), NormalRow(WarehouseLowMax));
      FilterFilter(rows, stocked, LowRow(WarehouseLowMax), LowRow(WarehouseLowMax));
      FilterFilter(rows, stocked, NormalRow(WarehouseLowMax), NormalRow(WarehouseLowMax));
    }
  }

  lemma {:induction false} OutRowsHoldNothing(rows: seq<InventoryRow>)
    requires forall k :: 0 <= k < |rows| ==> rows[k].quantity == 0
    ensures TotalQuantity(rows) == 0
  {
    if |rows| > 0 {
      OutRowsHoldNothing(rows[..|rows| - 1]);
    }
  }

  /** The row badge: "Rupture" at exactly 0, "Stock faible" below 10, "En stock" otherwise. */
  datatype Badge = RuptureBadge | LowBadge | InStockBadge

  function BadgeOf(q: int): (b: Badge)
    ensures b == RuptureBadge <==> q == 0
    ensures b == InStockBadge <==> q >= 10
  {
    if q == 0 then RuptureBadge else if q < 10 then LowBadge else InStockBadge
  }

  /** The badge agrees with the counter that counts the row; a negative quantity is badged
      "Stock faible" although no counter counts it. */
  lemma BadgeMatchesCounters(q: int)
    ensures q >= 0 ==> (BadgeOf(q) == RuptureBadge <==> LevelOf(q, WarehouseLowMax) == Some(Out))
    ensures q >= 0 ==> (BadgeOf(q) == LowBadge <==> LevelOf(q, WarehouseLowMax) == Some(Low))
    ensures q >= 0 ==> (BadgeOf(q) == InStockBadge <==> LevelOf(q, WarehouseLowMax) == Some(Normal))
    ensures q < 0 ==> BadgeOf(q) == LowBadge && LevelOf(q, WarehouseLowMax).None?
  {
  }

  // ---------------------------------------------------------------- available products

  /** The product ids already stocked in the warehouse. */
  function StockedIds(rows: seq<InventoryRow>): (ids: seq<int>)
    ensures |ids| == |rows|
    ensures forall k :: 0 <= k < |rows| ==> ids[k] == rows[k].productId
  {
    seq(|rows|, k requires 0 <= k < |rows| => rows[k].productId)
  }

  function NotStocked(ids: seq<int>): Product -> bool
  {
    (p: Product) => p.id !in ids
  }

  /** `availableProducts`: the catalogue, in its order, without the products the warehouse
      already holds. */
  function AvailableProducts(products: seq<Product>, rows: seq<InventoryRow>): (r: seq<Product>)
    ensures IsSubseq(r, products)
    ensures forall k :: 0 <= k < |r| ==> forall j :: 0 <= j < |rows| ==> r[k].id != rows[j].productId
    ensures forall k :: 0 <= k < |products| && (forall j :: 0 <= j < |rows| ==> products[k].id != rows[j].productId) ==>
      products[k] in r
  {
    var ids := StockedIds(rows);
    var r := Filter(products, NotStocked(ids));
    assert forall k :: 0 <= k < |r| ==> r[k].id !in ids;
    forall k | 0 <= k < |products| && (forall j :: 0 <= j < |rows| ==> products[k].id != rows[j].productId)
      ensures products[k] in r
    {
      assert NotStocked(ids)(products[k]);
    }
    r
  }

  /** Once the warehouse reloads with a new row for a product, that product leaves the
      choices and nothing else joins them. */
  lemma StockingRemovesChoice(products: seq<Product>, rows: seq<InventoryRow>, added: InventoryRow)
    ensures forall k :: 0 <= k < |AvailableProducts(products, rows + [added])| ==>
      AvailableProducts(products, rows + [added])[k].id != added.productId
      && AvailableProducts(products, rows + [added])[k] in AvailableProducts(products, rows)
  {
    var after := AvailableProducts(products, rows + [added]);
    var before := AvailableProducts(products, rows);
    FilterFromInput(products, NotStocked(StockedIds(rows + [added])));
    forall k | 0 <= k < |after|
      ensures after[k].id != added.productId && after[k] in before
    {
      assert (rows + [added])[|rows|] == added;
      forall j | 0 <= j < |rows| ensures after[k].id != rows[j].productId {
        assert (rows + [added])[j] == rows[j];
      }
    }
  }

  // ---------------------------------------------------------------- add-product form

  /** `addProductForm`: the product select (`[ngValue]`, so a number or null) and the quantity
      input (null once cleared). */
  datatype AddProductForm = AddProductForm(productId: Option<int>, quantity: Option<int>)

  /** `resetAddProductForm`'s values. */
  const ResetAddForm := AddProductForm(None, Some(1))

  /** `isAddProductFormValid`: a truthy product id and a positive quantity. */
  predicate IsAddProductFormValid(f: AddProductForm)
  {
    f.productId.Some? && f.productId.value != 0 && f.quantity.Some? && f.quantity.value > 0
  }

  lemma ResetFormIsInvalid()
    ensures !IsAddProductFormValid(ResetAddForm)
  {
  }

  /** `InventoryCreateDTO`: the warehouse id is taken from the selected warehouse as is. */
  datatype InventoryCreate = InventoryCreate(productId: int, warehouseId: Option<int>, quantity: int)

  /** `addProductToWarehouse`: nothing unless the form is valid and a warehouse is selected. */
  function AddProductRequest(f: AddProductForm, selected: Option<Warehouse>): (r: Option<InventoryCreate>)
    ensures r.Some? <==> IsAddProductFormValid(f) && selected.Some?
    ensures r.Some? ==> r.value.productId != 0 && r.value.quantity > 0
    ensures r.Some? ==> r.value.productId == f.productId.value
    ensures r.Some? ==> r.value.quantity == f.quantity.value && r.value.warehouseId == selected.value.id
  {
    if IsAddProductFormValid(f) && selected.Some?
    then Some(InventoryCreate(f.productId.value, selected.value.id, f.quantity.value))
    else None
  }

  /** The inventory modal: open or not, the selected warehouse, its rows and the add form. */
  datatype InventoryModal = InventoryModal(show: bool, selected: Option<Warehouse>, rows: seq<InventoryRow>, form: AddProductForm)

  /** `openInventoryModal`: selects the warehouse and resets the form (rows arrive later). */
  function OpenInventoryModal(m: InventoryModal, w: Warehouse): (r: InventoryModal)
    ensures r.show && r.selected == Some(w) && r.form == ResetAddForm
    ensures AddProductRequest(r.form, r.selected).None?
  {
    InventoryModal(true, Some(w), m.rows, ResetAddForm)
  }

  /** `closeInventoryModal`: deselects, empties the rows and resets the form. */
  function CloseInventoryModal(m: InventoryModal): (r: InventoryModal)
    ensures !r.show && r.selected.None? && r.rows == [] && r.form == ResetAddForm
    ensures forall f :: AddProductRequest(f, r.selected).None?
  {
    InventoryModal(false, None, [], ResetAddForm)
  }
}

=== FILE: wrappers.dfy ===
/** Optional values: the model's rendering of `undefined` / `null` fields and of
    operations that may decline to produce a request. */
module Wrappers {

  datatype Option<+T> = None | Some(value: T) {

    /** The wrapped value, or `default` when there is none (the `??` / `||` fallbacks). */
    function GetOr(default: T): T {
      match this
      case Some(v) => v
      case None => default
    }
  }
}
